=== FILE: README.md ===
# mediflow, modelled in Dafny

mediflow is a small clinic application written in Go: a web server (gin) over a
PostgreSQL database with three kinds of staff user (administrator, secretary,
therapist) and a patient portal. This project models the rules buried in its
request handlers and proves properties about them:

- the CPF check-digit validator used by the consent form;
- the patient portal's token handshake: a token issued on registration opens a
  session once, consent is recorded, and the token is retired;
- token issuance: random bytes written as lowercase hexadecimal;
- the clinical record "dual write": a patient row (the current projection) and
  an appended history row, written by two independent statements;
- the therapist's access gate, dashboard and autocomplete;
- scheduling, cancelling and settling appointments, the Sunday-based week
  agenda, the paginated patient lists and the guard that protects users who
  still have records or appointments.

The database is a value `Storage.DbState` (users, patients and appointments as
maps from id to row, the history and the audit log as sequences, and the next
`SERIAL` value of each table). `Storage.Consistent` collects what the schema
guarantees (keys, `CHECK` constraints, foreign keys, the unique token column).
Every SQL statement a handler issues is a function on that value, with the
schema's refusals as its error cases: parameters the `DATE` and `INT` columns
cannot take, text longer than its `VARCHAR(n)` column (`Storage.Varchar`:
PostgreSQL cuts the text to n characters when the excess is all spaces and
refuses it otherwise), `CHECK` constraints, foreign keys and the unique token. The mutable handle the handlers write through is
the class `Storage.Database`: its `Exec*` methods change its fields exactly as
those functions say. Each handler is a method on that class (plus a
`Web.Session` where the handler touches the session) specified by a step
function on `DbState`; the lemmas about the step functions carry the
properties. The handler methods run the code as written, including the
defects listed under "## Findings": the patient lists page with Go's wrapping
offset (`...AsWritten` views), the agenda starts its week as written
(`AgendaViewAsWritten`), and the therapist's record binds the raw birth-date
text (`RecordStepAsWritten`). The corrected behaviour of each is a separate
function (`AdminPatientsView`, `SecretaryPatientsView`, `AgendaView`,
`RecordStep`) with its properties proved, and an agreement lemma shows the two
coincide on every input the defect does not reach. A failing statement is an explicit boolean `fault` parameter, the
clock a `now: Time` parameter (Unix seconds, UTC), and the random source an
`Entropy` parameter.

Modules: `Prelude` (options, 64-bit wrap-around, filtering, a stable
insertion sort standing for `ORDER BY`, `LIMIT`), `Strconv` (Go's
`strconv.Atoi`/`Itoa`), `Clock` (days, weekdays, Go's `time.Parse` for
`2006-01-02` and `2006-01-02 15:04`), `Storage`, `Web` (forms and sessions),
and one module per handler file: `ValidationHelper`, `PortalHandlers`,
`PatientHandlers`, `AdminHandlers`, `TerapeutaHandlers`, `SecretariaHandlers`.

## Model

| member | source | states |
|---|---|---|
| ValidationHelper.DigitsOnly | handlers/validation_helper.go:11-12 | the stripped CPF consists of digits only and is no longer than the input |
| ValidationHelper.DigitsOnlyAppend | handlers/validation_helper.go:11-12 | stripping distributes over concatenation, so each character is kept or dropped on its own |
| ValidationHelper.CheckDigit | handlers/validation_helper.go:37-41 | a check digit lies in 0..9, is 0 exactly when the weighted sum leaves a remainder below 2 modulo 11, and unless that remainder is 1 it makes sum plus digit a multiple of 11 |
| ValidationHelper.SingleDigitAtoi | handlers/validation_helper.go:34 | converting one digit character with `Atoi` never fails and yields its value, so the validator never errors |
| ValidationHelper.IsCPFValid | handlers/validation_helper.go:9-69 | the loop-based validator returns exactly the verdict of the specification: 11 digits after stripping, not all the same, both check digits equal to the weighted-sum rule |
| ValidationHelper.SeparatorIgnored | handlers/validation_helper.go:11-12 | inserting any non-digit character anywhere never changes the verdict |
| ValidationHelper.RepeatedDigitsRejectedOnlyBySameness | handlers/validation_helper.go:20-29 | every repeated-digit string satisfies both check-digit equations, and is rejected only by the all-same test |
| ValidationHelper.KnownValidCPF | tests/test_mediflow.py:30 | the CPF used by the end-to-end suite is accepted |
| ValidationHelper.KnownValidFormattedCPF | handlers/validation_helper.go:11-12 | the same CPF with its usual dots and dash is accepted too |
| PortalHandlers.TokenLookup | handlers/portal_handlers.go:33 | the lookup finds a patient holding the token who has not consented, or reports that there is none |
| PortalHandlers.TokenLookupFindsOwner | handlers/portal_handlers.go:33 | since tokens are unique, the lookup finds exactly the owner of an unused token |
| PortalHandlers.LoginStep | handlers/portal_handlers.go:32-42 | a login opens only the session of a patient whose token matches and who has not consented |
| PortalHandlers.ProcessTokenLogin | handlers/portal_handlers.go:28-47 | a failed login answers 401 and leaves the session alone; a successful one binds exactly that patient's id and redirects to the consent form |
| PortalHandlers.LeadingNameChars | handlers/portal_handlers.go:84 | the first word of a name is the longest run of letters and acute accents |
| PortalHandlers.MatchesFullName | handlers/portal_handlers.go:84-85 | the matcher accepts exactly the strings of the name pattern: a word, one whitespace character, then letters, accents or whitespace |
| PortalHandlers.SingleWordRejected | handlers/portal_handlers.go:84-87 | a name without whitespace is refused |
| PortalHandlers.DigitRejected | handlers/portal_handlers.go:84-87 | a digit anywhere refuses the name |
| PortalHandlers.TwoWordsAccepted | handlers/portal_handlers.go:84-87 | two words separated by a space are a full name |
| PortalHandlers.SilvaExample | handlers/portal_handlers.go:84-87 | "Maria Silva" passes; "Maria" and " Maria Silva" do not |
| PortalHandlers.ConsentErrors | handlers/portal_handlers.go:82-91 | the error map names the name field exactly when the name fails and the CPF field exactly when the CPF fails |
| PortalHandlers.ValidateConsent | handlers/portal_handlers.go:82-91 | the validation block builds exactly that error map, adding one entry per failed check |
| PortalHandlers.ProcessConsentForm | handlers/portal_handlers.go:68-131 | the handler's writes and outcome are those of the consent step for the session's patient id |
| PortalHandlers.ConsentRejection | handlers/portal_handlers.go:93-105 | invalid input changes nothing, names exactly the wrong fields and echoes name and CPF back |
| PortalHandlers.ConsentSaveFailure | handlers/portal_handlers.go:110-118 | a form that passes validation is still not saved, and nothing is written, exactly when the statement faults, the session id is not an `INT`, or the consent name or how-found is too long for its column |
| PortalHandlers.ConsentRecordedEffects | handlers/portal_handlers.go:107-130 | a recorded consent stores the digits-only CPF, and the consent name and how-found as their `VARCHAR(255)` columns keep them, stamps consent and both dates with the current time, touches no other patient, keeps the schema's guarantees and adds one audit entry |
| PortalHandlers.TokenSingleUse | handlers/portal_handlers.go:33 | once consent is recorded, the token that opened the session no longer logs in |
| PortalHandlers.ConsentAuditOnlyAfterSave | handlers/portal_handlers.go:115-128 | the audit log grows, by exactly one entry, only when the update succeeded |
| PortalHandlers.AuthPatientRequired | handlers/portal_handlers.go:141-151 | a portal page is served exactly when the session holds a patient id |
| PortalHandlers.LoginOpensPortal | handlers/portal_handlers.go:44-46 | after a successful login the guard lets the patient through and the consent form treats the session as a patient's |
| PatientHandlers.EncodeToString | handlers/patient_handlers.go:22 | the token has two characters per byte, all in `0-9a-f` |
| PatientHandlers.DecodeEncode | handlers/patient_handlers.go:22 | hexadecimal decoding recovers the bytes, so the encoding loses nothing |
| PatientHandlers.EncodeInjective | handlers/patient_handlers.go:22 | distinct byte strings give distinct tokens |
| PatientHandlers.ReadRandom | handlers/patient_handlers.go:18-21 | the buffer is filled with the next bytes of the random source, or left unchanged when the source cannot supply them |
| PatientHandlers.SecureToken | handlers/patient_handlers.go:17-23 | a token exists exactly when the random source supplies enough bytes |
| PatientHandlers.GenerateSecureToken | handlers/patient_handlers.go:17-23 | the method returns a 2n-digit encoding of the random bytes, or "" with an error when randomness fails |
| PatientHandlers.SecureTokenShape | handlers/patient_handlers.go:17-23 | a token has length 2n, uses only lowercase hex digits and decodes to the bytes drawn |
| PatientHandlers.SecureTokensDiffer | handlers/patient_handlers.go:22 | different random bytes give different tokens |
| PatientHandlers.BindNewPatient | handlers/patient_handlers.go:43-48 | binding fails exactly when one of the integer fields (the eight tagged ones and the untagged `ID`) is not a Go integer, or when the untagged `CreatedAt` or `UpdatedAt` is non-empty and not an RFC 3339 time; otherwise name and e-mail come from the form |
| PatientHandlers.CreatePatient | handlers/patient_handlers.go:42-78 | the handler's insert and redirect are those of the creation step |
| PatientHandlers.OverlongPhoneRefused | handlers/patient_handlers.go:59-74 | a phone with a non-space character past the 50th is refused by the INSERT, so the handler returns to the dashboard with nothing written |
| PatientHandlers.CreatedPatientCanLogIn | handlers/patient_handlers.go:51-77 | a registered patient holds a 64-character token that fits its column, has not consented, and can log in with that token at once; the schema's guarantees still hold |
| PatientHandlers.RedirectNamesNewPatient | handlers/patient_handlers.go:77 | the token page's path ends with the new patient's id, which reads back as that id |
| PatientHandlers.MalformedUntaggedFieldRefused | handlers/patient_handlers.go:43-48 | a request with `CreatedAt=yesterday` or `ID=abc` fails to bind, so the handler returns to the dashboard with nothing written |
| PatientHandlers.NonNumericAgeRefused | handlers/patient_handlers.go:44-48 | a non-numeric age is refused before anything is written |
| AdminHandlers.PageNumber | handlers/admin_handlers.go:195-199 | the page is at least 1: the parsed number when it is a positive integer, 1 otherwise |
| AdminHandlers.Offset | handlers/admin_handlers.go:202 | the intended offset is non-negative, a multiple of ten, and 0 on the first page |
| AdminHandlers.OffsetAsWrittenAgrees | handlers/admin_handlers.go:202 | the wrapping Go offset equals the intended one whenever the latter fits 64 bits |
| AdminHandlers.OffsetOverflow | handlers/admin_handlers.go:202 | page 922337203685477582 parses, yet its Go offset wraps to a negative number |
| AdminHandlers.RowsFrom | handlers/admin_handlers.go:216-217 | `LIMIT 10 OFFSET n` keeps at most ten rows: the slice starting at row n, empty past the end |
| AdminHandlers.PageRowsAsWrittenAgrees | handlers/admin_handlers.go:202-217 | the page fetched with the wrapping Go offset is the intended page whenever the intended offset fits 64 bits |
| AdminHandlers.PageWrapFinding | handlers/admin_handlers.go:202 | as written, page 922337203685477582 gives a negative OFFSET that the query refuses, and page 1844674407370955163 wraps to offset 4 and fetches rows 5 to 14; the intended pages are both empty |
| AdminHandlers.TotalPages | handlers/admin_handlers.go:226 | the page count is the ceiling of total/10: enough pages for every row, no empty last page, 0 exactly when there is nothing |
| AdminHandlers.PageRows | handlers/admin_handlers.go:216-217 | a page is the slice of at most ten rows starting at the offset, empty past the end |
| AdminHandlers.PagesCoverList | handlers/admin_handlers.go:216-226 | pages 1..totalPages laid end to end are the whole list, and a page is non-empty exactly when its number is within the count |
| AdminHandlers.RowsFromSorted | handlers/admin_handlers.go:216 | a page holds only listed rows, in the list's order |
| AdminHandlers.PlaceholdersMatchArguments | handlers/admin_handlers.go:209-217 | LIMIT and OFFSET take the last two placeholders, so the highest placeholder is the argument count: 2 without a search term, 3 with one |
| AdminHandlers.ViewPatients | handlers/admin_handlers.go:194-270 | the handler renders the admin's view as written: the rows at Go's wrapping offset, or the error page when a query fails or that offset is negative |
| AdminHandlers.AdminPatientListSound | handlers/admin_handlers.go:205-216 | the listing holds exactly the patients whose name or e-mail contains the term (all of them without a term), ordered by name |
| AdminHandlers.PatientsViewSound | handlers/admin_handlers.go:194-270 | the handler shows the error page exactly when a query fails or the wrapped offset is negative; otherwise its page holds at most ten matching patients in name order, and the page count covers every match |
| AdminHandlers.PatientsViewAgrees | handlers/admin_handlers.go:194-230 | whenever the intended offset fits 64 bits, the view as written is the corrected view |
| AdminHandlers.PatientsPageWrap | handlers/admin_handlers.go:194-230 | the admin's list shows the error page for page 922337203685477582 and patients 5 to 14 for page 1844674407370955163, where the corrected view shows an empty page for both |
| AdminHandlers.CountBy | handlers/admin_handlers.go:156-157 | a count query that succeeds reports the number of rows |
| AdminHandlers.DeleteUser | handlers/admin_handlers.go:147-191 | the handler deletes, flashes and redirects to the user list as the delete step says |
| AdminHandlers.DeleteUserGuard | handlers/admin_handlers.go:155-191 | a user is removed only if nothing references it, and then with a success flash; a user with history rows, or else with live appointments, is kept with the matching error flash |
| AdminHandlers.DeleteStepKeepsConsistent | handlers/admin_handlers.go:155-191 | whatever the guard decides, the schema's guarantees and recorded consents hold afterwards |
| AdminHandlers.CancelledAppointmentsStillBlock | handlers/admin_handlers.go:170-186 | a user with only cancelled appointments passes the guard, but the foreign key refuses the DELETE and the error flash is shown |
| AdminHandlers.FailedCountsDoNotBlock | handlers/admin_handlers.go:157-183 | when both count queries fail, an unreferenced user is still deleted |
| AdminHandlers.ToDate | handlers/admin_handlers.go:553-562 | `toDate` yields NULL or a date, never raw text |
| AdminHandlers.ToDateAccepted | handlers/admin_handlers.go:553-562 | the `DATE` column accepts whatever `toDate` yields, and it is a date exactly when the text parses |
| AdminHandlers.ToDateOfFormatted | handlers/admin_handlers.go:557 | a date written as YYYY-MM-DD comes back as that same day |
| AdminHandlers.LevelOf | handlers/admin_handlers.go:495-502 | a level read with `v, _ := Atoi` is a 64-bit integer |
| AdminHandlers.NonNumericLevelIsZero | handlers/admin_handlers.go:497-502 | a level field with no digits is stored as 0 |
| AdminHandlers.PostEditPatient | handlers/admin_handlers.go:474-541 | the handler's two writes and its redirect (or panic without an integer session user) are those of the edit step |
| AdminHandlers.AdminEditIndependent | handlers/admin_handlers.go:504-538 | the patient table ends as the UPDATE alone leaves it and the history as the INSERT alone leaves it, whatever either's outcome; nothing else changes |
| AdminHandlers.AdminEditAgreement | handlers/admin_handlers.go:504-534 | when both writes succeed, the new history row carries the session user, the patient and the submitted levels and texts, and the patient row's clinical state equals it |
| AdminHandlers.AdminEditDivergence | handlers/admin_handlers.go:516-534 | when only the INSERT succeeds, the patient row keeps its old state while a history row is added |
| AdminHandlers.AdminEditKeepsConsistent | handlers/admin_handlers.go:474-541 | editing keeps the schema's guarantees and recorded consents |
| AdminHandlers.AdminStatus | handlers/admin_handlers.go:705-707 | an appointment left 'agendado' never lies in the past; the status is allowed after the rule exactly when it was before; a status other than 'agendado' is kept |
| AdminHandlers.AdminPostNewAppointment | handlers/admin_handlers.go:683-718 | the handler inserts and redirects as the scheduling step says |
| AdminHandlers.AdminNewAppointmentEffects | handlers/admin_handlers.go:697-717 | a new appointment starts at the submitted time, ends one hour later, carries the rule's status and a pending payment; a status outside the allowed set inserts nothing; the schema's guarantees hold |
| AdminHandlers.AdminCancelAppointment | handlers/admin_handlers.go:1028-1039 | the handler runs the UPDATE and always redirects to the profile |
| AdminHandlers.CancelOnlyTouchesStatus | handlers/admin_handlers.go:1032-1038 | cancelling changes only that appointment's status and modification time, and cancelling again changes nothing |
| AdminHandlers.JoinMembers | handlers/admin_handlers.go:898-901 | the joined rows are exactly the appointments whose patient and doctor both exist |
| AdminHandlers.AgendaRowsSound | handlers/admin_handlers.go:897-905 | the agenda query returns exactly the joined appointments starting inside the window, in ascending start order |
| AdminHandlers.BucketByDay | handlers/admin_handlers.go:921-929 | the loop files every row under its own day, each bucket in row order |
| AdminHandlers.WeekOf | handlers/admin_handlers.go:935-943 | the week always has seven day entries |
| AdminHandlers.BuildWeek | handlers/admin_handlers.go:935-943 | the loop builds exactly that week from the buckets |
| AdminHandlers.WeekOfSound | handlers/admin_handlers.go:935-943 | every appointment in a day's entry starts on that day |
| AdminHandlers.WeekOfComplete | handlers/admin_handlers.go:935-943 | every row starting within the seven days appears in its day's entry |
| AdminHandlers.ReferenceTime | handlers/admin_handlers.go:885-891 | with a date parameter the reference time is always a midnight, whether the text parses or not |
| AdminHandlers.WeekStart | handlers/admin_handlers.go:893-895 | the corrected week start is a Sunday midnight no later than the reference time, and less than a week before it |
| AdminHandlers.WeekStartAgrees | handlers/admin_handlers.go:893-895 | at midnight (always the case with a date parameter) the week start as written equals the corrected one |
| AdminHandlers.ViewAgenda | handlers/admin_handlers.go:884-953 | the handler renders the agenda with the week start as written, or the error page when the query fails; the secretary's agenda (handlers/secretaria_handlers.go:38-95) is the same code and uses this model |
| AdminHandlers.WeekStartAsWrittenShape | handlers/admin_handlers.go:893-895 | the week start as written is a Sunday at the reference time's time of day, no later than the reference and less than a week before it |
| AdminHandlers.AgendaWeekShapeAsWritten | handlers/admin_handlers.go:884-943 | the rendered week as written has seven consecutive days starting on the Sunday of the reference time's week, at that time of day; the links point a week back and forward; the error page appears exactly when the query fails |
| AdminHandlers.AgendaViewAgrees | handlers/admin_handlers.go:884-895 | with a date parameter the agenda as written is the corrected agenda |
| AdminHandlers.AgendaForSound | handlers/admin_handlers.go:893-943 | each day of the week lists only joinable appointments starting on that day and inside the week, in ascending start order |
| AdminHandlers.AgendaWeekShape | handlers/secretaria_handlers.go:47-85 | the corrected week has seven consecutive days starting on the Sunday midnight of the reference time's week; the links point a week back and forward; the error page appears exactly when the query fails |
| AdminHandlers.AgendaForComplete | handlers/admin_handlers.go:897-943 | every joinable appointment starting in the week appears in its own day's entry |
| AdminHandlers.AgendaWeekComplete | handlers/secretaria_handlers.go:47-85 | in the corrected agenda, every joinable appointment of the reference time's week is shown in its own day's entry |
| AdminHandlers.AsWrittenWeekStartKeepsTimeOfDay | handlers/admin_handlers.go:887-895 | without a date parameter the week start as written keeps the clock's time of day instead of starting at midnight |
| AdminHandlers.AgendaWeekStartFinding | handlers/admin_handlers.go:893-929 | as written, with the clock on a Wednesday afternoon, that week's Sunday-morning appointment is shown on no day, and the next Sunday's morning appointment is fetched by the query yet shown on no day |
| AdminHandlers.AgendaWeekStartCorrected | handlers/admin_handlers.go:893-943 | with the week starting at midnight, the early-Sunday appointment is shown on Sunday |
| TerapeutaHandlers.GateOpenIffLinked | handlers/terapeuta_handlers.go:127-134 | the gate opens exactly when the count query succeeds and some appointment links the patient and the therapist |
| TerapeutaHandlers.CancelledAppointmentOpensGate | handlers/terapeuta_handlers.go:130 | a cancelled appointment alone opens the gate |
| TerapeutaHandlers.ShowPatientRecord | handlers/terapeuta_handlers.go:88-117 | the handler renders the page of the show step |
| TerapeutaHandlers.ShowGate | handlers/terapeuta_handlers.go:94-107 | the record is shown only behind an open gate, and then with the form posting back to the record path |
| TerapeutaHandlers.ProcessPatientRecord | handlers/terapeuta_handlers.go:121-196 | the handler's gate, two writes, audit entry and redirect are those of the record step as written, binding the raw birth-date text |
| TerapeutaHandlers.RecordDenied | handlers/terapeuta_handlers.go:127-134 | behind a closed gate nothing is written and access is denied, as written and corrected |
| TerapeutaHandlers.RecordWriteEffects | handlers/terapeuta_handlers.go:137-195 | with the gate open the patient table ends as the UPDATE alone leaves it and the history as the INSERT alone leaves it; the audit entry is added exactly when the INSERT succeeded |
| TerapeutaHandlers.UpdateKeepsOtherTables | handlers/terapeuta_handlers.go:155-166 | the projection UPDATE touches only the patient table |
| TerapeutaHandlers.InsertAfterUpdate | handlers/terapeuta_handlers.go:177-183 | the history INSERT succeeds or fails the same way before or after the UPDATE |
| TerapeutaHandlers.RecordAgreement | handlers/terapeuta_handlers.go:155-193 | when both writes succeed, the new history row is authored by the therapist and the patient row's clinical state equals it |
| TerapeutaHandlers.RecordWriteUpdateRejected | handlers/terapeuta_handlers.go:164-183 | a refused UPDATE leaves the patient row as it was while the INSERT still runs |
| TerapeutaHandlers.RecordStepKeepsConsistent | handlers/terapeuta_handlers.go:121-196 | writing a record, as written or corrected, keeps the schema's guarantees and recorded consents |
| TerapeutaHandlers.EmptyDobRejectedAsWritten | handlers/terapeuta_handlers.go:158 | as written, an empty birth date makes the projection UPDATE fail, so only the history changes |
| TerapeutaHandlers.EmptyDobAcceptedCorrected | handlers/terapeuta_handlers.go:155-166 | with the birth date read as `toDate` reads it, the same form (its levels and age within `INT`, its texts within their `VARCHAR` widths) updates the patient row too: no birth date, the contact block as the columns keep it, the new clinical state |
| TerapeutaHandlers.TerapeutaDashboard | handlers/terapeuta_handlers.go:27-83 | the handler's two lists are those of the dashboard view, each empty when its query fails |
| TerapeutaHandlers.UpcomingSound | handlers/terapeuta_handlers.go:34-52 | at most ten appointments, in ascending start order, each this therapist's, scheduled and not yet started; they are the soonest ten: an upcoming appointment left out means ten are listed, none starting after it, so all of them are listed when fewer than ten come back |
| TerapeutaHandlers.MyPatientIdsSound | handlers/terapeuta_handlers.go:55-60 | the listed ids are exactly the live patients of this therapist that match, each once |
| TerapeutaHandlers.LinkedPatientsSound | handlers/terapeuta_handlers.go:55-75 | the summaries are exactly those of this therapist's live matching patients |
| TerapeutaHandlers.MyPatientsSound | handlers/terapeuta_handlers.go:55-75 | the patient list is ordered by name, holds each matching live patient of this therapist exactly once, and nobody else |
| TerapeutaHandlers.SearchMyPatientsAPI | handlers/terapeuta_handlers.go:200-242 | the handler answers with the search's result, copying the names one by one |
| TerapeutaHandlers.SearchMyPatientsSound | handlers/terapeuta_handlers.go:218-226 | at most ten distinct names in order, each of a live patient of this therapist starting with the term; all of them when fewer than ten come back |
| TerapeutaHandlers.FirstDistinctNames | handlers/terapeuta_handlers.go:219-224 | `DISTINCT ... ORDER BY ... LIMIT 10` yields the first ten distinct names, ordered, drawn from the input and complete when short |
| SecretariaHandlers.IdParam | handlers/secretaria_handlers.go:252-253 | an id in the URL is read as the integer it spells, or makes the statement fail |
| SecretariaHandlers.ViewPatients | handlers/secretaria_handlers.go:99-159 | the handler renders the secretary's view as written: the rows at Go's wrapping offset, or the error page when a query fails or that offset is negative |
| SecretariaHandlers.SecretaryPatientListSound | handlers/secretaria_handlers.go:109-113 | the list holds exactly the patients whose name contains the term, ordered by name, and every patient when the term is empty |
| SecretariaHandlers.SecretaryPatientsViewSound | handlers/secretaria_handlers.go:100-126 | the error page appears exactly when the count or list query fails or the wrapped offset is negative; otherwise a page holds at most ten matching patients in name order, and the page count covers every match |
| SecretariaHandlers.SecretaryPatientsViewAgrees | handlers/secretaria_handlers.go:99-126 | whenever the intended offset fits 64 bits, the secretary's view as written is the corrected view |
| SecretariaHandlers.SecretaryPatientsPageWrap | handlers/secretaria_handlers.go:107 | the secretary's list shows the error page for page 922337203685477582 and patients 5 to 14 for page 1844674407370955163, where the corrected view shows an empty page for both |
| SecretariaHandlers.SecretaryListWithinAdminList | handlers/secretaria_handlers.go:109 | the secretary's search (names only) never shows a patient the administrator's search (names or e-mails) would not |
| SecretariaHandlers.SecretaryStatus | handlers/secretaria_handlers.go:229-234 | the status is 'concluido' exactly when the start is before now, 'agendado' otherwise, and always an allowed status |
| SecretariaHandlers.SecretaryStatusIsAdminRule | handlers/secretaria_handlers.go:229-234 | the secretary's rule is the administrator's rule applied to a submitted 'agendado' |
| SecretariaHandlers.PostNewAppointment | handlers/secretaria_handlers.go:212-243 | the handler inserts and redirects as the scheduling step says |
| SecretariaHandlers.NewAppointmentEffects | handlers/secretaria_handlers.go:221-242 | an appointment is added exactly when date and time parse, the statement does not fail and patient and doctor exist; it starts at the submitted time, ends an hour later, is done exactly when it lies in the past, awaits payment, and nothing else changes |
| SecretariaHandlers.CancelAppointment | handlers/secretaria_handlers.go:246-271 | the handler runs the UPDATE and answers as the cancel step says |
| SecretariaHandlers.CancelEffects | handlers/secretaria_handlers.go:252-270 | the secretary's cancel writes what the administrator's does; the error page appears exactly when the statement fails; an id that matches nothing changes nothing yet redirects |
| SecretariaHandlers.MarkAppointmentAsPaid | handlers/secretaria_handlers.go:443-468 | the handler runs the UPDATE, audits and redirects as the settle step says |
| SecretariaHandlers.MarkPaidEffects | handlers/secretaria_handlers.go:447-463 | settling changes only that appointment's payment status and modification time, keeps the schema's guarantees, and adds exactly the audit entry naming the appointment exactly when the statement does not fail |
| SecretariaHandlers.MarkPaidAuditsUnknownId | handlers/secretaria_handlers.go:448-462 | an id that names no appointment changes nothing yet is still audited as settled |
| SecretariaHandlers.VisitsByTime | handlers/secretaria_handlers.go:370-381 | the query answers exactly when it does not fail and the patient id fits the column |
| SecretariaHandlers.AppointmentsByTime | handlers/secretaria_handlers.go:370-411 | the function copies the selected rows one by one |
| SecretariaHandlers.SelectedSound | handlers/secretaria_handlers.go:371-377 | a selection holds exactly the patient's appointments with an existing doctor on its side of the clock, latest first |
| SecretariaHandlers.VisitsLatestFirst | handlers/secretaria_handlers.go:376 | the rows are listed latest first |
| SecretariaHandlers.OneClockSplits | handlers/secretaria_handlers.go:375-378 | with one clock reading, no appointment is both future and past, and together the lists hold each of the patient's appointments exactly once |
| SecretariaHandlers.TwoClocksOverlap | handlers/secretaria_handlers.go:186-187 | the profile reads the clock twice: an appointment starting between the readings is in both lists, and none is in neither |
| SecretariaHandlers.SearchPatientsAPI | handlers/secretaria_handlers.go:274-300 | the handler answers with the search's result, copying the names one by one |
| SecretariaHandlers.SearchPatientsSound | handlers/secretaria_handlers.go:281-297 | at most ten names in order, each of a patient starting with the term; they are the first ten in order: a matching name left out means ten came back, none after it; when fewer than ten come back, they are every match, once per patient |
| Storage.VarcharSound | data_manager.go:36-51 | a text is refused by a `VARCHAR(n)` column exactly when a non-space character lies past the n-th; otherwise the column keeps it whole when it fits, or its first n characters, the rest being spaces |
| Storage.UpdatePatient | handlers/admin_handlers.go:481-518 | the UPDATE fails exactly on a fault, an id outside `INT`, or a parameter its column refuses (a date or integer that does not convert, a text too long for its `VARCHAR` width), changes only that patient otherwise, and affects no row for an unknown id |
| Storage.InsertRecord | data_manager.go:57-63 | a history INSERT fails exactly on a fault, an out-of-range level or a missing patient or doctor; otherwise it appends one row with the next id |
| Storage.InsertAppointment | data_manager.go:65-74 | an appointment INSERT fails exactly on a fault, a status outside the CHECK set or a missing patient or doctor; otherwise it adds one row with a pending payment |
| Storage.UpdateAppointment | data_manager.go:65-74 | a status or payment UPDATE fails on a fault, an id that is not a 32-bit integer or a value outside the CHECK set; it changes exactly the named row, if there is one |
| Storage.DeleteUserRow | data_manager.go:57-67 | the foreign keys refuse to delete a user named by any history row or any appointment |
| Storage.InsertPatient | data_manager.go:34-51 | a patient INSERT fails exactly on a fault, a name or e-mail too long for `VARCHAR(255)`, a phone or mobile number too long for `VARCHAR(50)`, a token too long for `VARCHAR(64)` or a token already taken; otherwise it adds the next id with the token and no consent |
| Storage.UpdateAppointmentKeepsConsistent | data_manager.go:65-74 | appointment updates keep the schema's guarantees |
| Storage.DeleteUserRowKeepsConsistent | data_manager.go:57-67 | deleting a user keeps every foreign key intact |
| Storage.InsertPatientKeepsConsistent | data_manager.go:34-36 | registering a patient keeps the schema's guarantees, among them unique tokens that fit their column |
| Strconv.AtoiWithoutDigits | handlers/admin_handlers.go:495-502 | a field without any digit (empty, "abc", "-") is a syntax error and `v, _ := Atoi` leaves 0 |
| Strconv.AtoiTrailingJunk | handlers/admin_handlers.go:196 | digits followed by anything else are a syntax error, so "12abc" is not read as 12 |
| Strconv.AtoiItoa | handlers/patient_handlers.go:77 | every 64-bit number written with `Itoa` reads back as itself |
| Clock.ParseFormatDate | handlers/admin_handlers.go:557 | parsing a date written as YYYY-MM-DD gives that date back |
| Clock.FormatParseDate | handlers/admin_handlers.go:557 | a text that parses as a date is exactly that date's YYYY-MM-DD form |
| Clock.RFC3339Examples | storage/models.go:66-67 | a `time.Time` field reads RFC 3339: UTC and offset forms, a one-digit hour and a comma fraction are accepted; a space for 'T', a day the month lacks, a missing zone and plain words are refused |
| Clock.ParseDateTimeOfForm | handlers/secretaria_handlers.go:221 | the form's date and HH:MM time joined by one space parse to that date and time |

## Left out

- HTTP, templates, JSON rendering and logging are outside the model. A handler's answer is a datatype (redirect target, page contents, error page), and `log.Printf` calls are dropped.
- Go renders a nil slice as JSON `null`. Both autocompletes return `[]` for an empty term, but `null` when the query matches nothing. The model returns the empty sequence in both cases.
- bcrypt, the login handlers, `AuthRequired`/`RoleRequired`, the AI summary services, the JavaScript and the seeding CLI are not part of this model.
- The audit helper's actor columns are not modelled: an audit entry records action, target type and target id. The fallback to user 0 / "Sistema" is among them. An audit INSERT is taken to succeed.
- `ILIKE` folds ASCII letters only, and `%` or `_` typed by a user are treated as ordinary characters.
- `ORDER BY name` compares code points and not the database collation. Rows with equal keys keep ascending id order.
- NULL text columns read as the empty string. Times are UTC Unix seconds, and day keys are day numbers rather than `Format("2006-01-02")` strings. The agenda's previous/next links are times, not URLs.
- Each request reads the clock once. The model has one `now`, except where the profile page's two readings matter (`SecretariaHandlers.TwoClocksOverlap`).
- The price column is left out: the admin's `strconv.ParseFloat` of the form's price and the profile lists' `price` are floating point. So is `math.Ceil`, which is modelled by integer ceiling division.
- Handlers run concurrently and without transactions. The model treats each handler as a sequence of separate statements on one state and does not interleave requests.
- An id taken from the URL is passed to PostgreSQL as text. The model reads it as `Atoi` does (`SecretariaHandlers.IdParam`), or as an `Option<int>` for the administrator's delete and cancel; PostgreSQL also accepts surrounding spaces.
- `SERIAL` values are modelled without gaps.
- Only `2006-01-02` and `2006-01-02 15:04` are parsed into times, without time zones; RFC 3339 text is only recognised (`Clock.IsRFC3339`), since the bound `CreatedAt` and `UpdatedAt` values are never used.
- PatientHandlers.BindNewPatient: gin's form binding also reads URL query parameters and takes the first of repeated fields; the model reads the posted form only, one value per field.
- Storage.DateColumn: a `DATE` column reads text only in the `YYYY-MM-DD` form. PostgreSQL also accepts other date input (single-digit fields such as `2024-1-5`, surrounding blanks, other date styles), so `TerapeutaHandlers.RecordStepAsWritten` refuses some birth dates the source would store. The empty text, on which the birth-date finding rests, PostgreSQL refuses too.
- `PortalHandlers.IsLetter`: `\p{L}` is modelled for the Latin ranges only, not for every Unicode letter.
- The health-questionnaire columns of the patient row are not modelled; no core handler reads them.
- A failing `rows.Scan` skips its row in the source. The model takes every scan to succeed.
- On the therapist routes the session's user id is taken to be an integer; the source would panic otherwise. On the admin edit route the panic is modelled.
- `GetPatientDataForForm`, used by the therapist's record page, also loads the history. The model keeps only the patient row and the gate.
- `GetPatientProfile`, `ShowPatientToken`, `GetEditAppointmentForm`, `PostEditAppointment`, `DeletePatient` and `SystemMonitoring` are not part of this model. Of the profile page, only its two appointment queries are modelled.

## Findings

| source | as written | input that shows it | evidently intended | confidence | as-written member | corrected member |
|---|---|---|---|---|---|---|
| handlers/admin_handlers.go:887-895 | without a `date` parameter the week starts at `now − weekday` days, keeping the current time of day; the query window and the day buckets both start at that time (the secretary's agenda, handlers/secretaria_handlers.go:41-48, is the same code) | clock at Wednesday 1970-01-07 15:00 UTC (572400): the week starts Sunday 15:00 (313200), so an appointment on Sunday 09:00 (291600) is shown on no day of that week, and one on the next Sunday 09:00 (896400) is fetched but lands in no day bucket | the week starts at Sunday midnight | not executed | AdminHandlers.AgendaWeekStartFinding | AdminHandlers.AgendaWeekStartCorrected |
| handlers/admin_handlers.go:202 | `offset := (page - 1) * pageSize` in Go's 64-bit `int` wraps for huge page numbers: a negative offset makes PostgreSQL refuse the query and the list shows the error page, and an offset that wraps past zero shows rows of an earlier page | `page=922337203685477582` gives offset −9223372036854775806 and the error page; `page=1844674407370955163` gives offset 4 and patients 5 to 14 | an empty page past the end of the list | not executed | AdminHandlers.PatientsPageWrap | AdminHandlers.PagesCoverList |
| handlers/secretaria_handlers.go:107 | the secretary's list computes the same wrapping offset, with the same two outcomes | `page=922337203685477582` shows the error page; `page=1844674407370955163` shows patients 5 to 14 | an empty page past the end of the list | not executed | SecretariaHandlers.SecretaryPatientsPageWrap | AdminHandlers.PagesCoverList |
| handlers/terapeuta_handlers.go:158 | the therapist's UPDATE binds the birth-date field as raw text to the `DATE` column, where the admin path uses `toDate`; PostgreSQL refuses the empty string, so the whole projection UPDATE fails while the history row is still inserted | any form with an empty `dob` field | an empty birth date is stored as NULL and the rest of the row is updated | not executed | TerapeutaHandlers.EmptyDobRejectedAsWritten | TerapeutaHandlers.EmptyDobAcceptedCorrected |

=== FILE: admin_handlers.dfy ===
/** The administrator's handlers: the paginated patient list, removing users,
    editing a patient (projection plus history), scheduling and cancelling
    appointments, and the week agenda. */
module AdminHandlers {
  import opened Prelude
  import opened Strconv
  import opened Clock
  import opened Storage
  import opened Web

  // ---------------------------------------------------------------------------
  // Pagination
  // ---------------------------------------------------------------------------

  const PageSize: int := 10

  /** The `page` query parameter: anything that is not an integer of at least
      1 (missing, empty, junk, out of range, zero, negative) means page 1. */
  function PageNumber(pageStr: string): (page: int)
    ensures page >= 1
    ensures Atoi(pageStr).Parsed? && Atoi(pageStr).value >= 1 ==> page == Atoi(pageStr).value
    ensures !(Atoi(pageStr).Parsed? && Atoi(pageStr).value >= 1) ==> page == 1
  {
    match Atoi(pageStr)
    case Parsed(v) => if v < 1 then 1 else v
    case _ => 1
  }

  /** `offset := (page - 1) * pageSize` as a Go `int`, which wraps around. */
  function OffsetAsWritten(page: int): (offset: int)
    ensures InInt64(offset)
  {
    Wrap64((page - 1) * PageSize)
  }

  /** The offset meant: the rows of the pages before this one. */
  function Offset(page: int): (offset: int)
    requires page >= 1
    ensures offset >= 0 && offset % PageSize == 0
    ensures page == 1 ==> offset == 0
  {
    (page - 1) * PageSize
  }

  /** The largest page number whose offset still fits is 922337203685477581;
      the next one, well within the 64-bit range, wraps `OffsetAsWritten` to a
      negative value, and PostgreSQL rejects a negative OFFSET, so the list
      answers with an error page instead of an empty page. */
  const OverflowPage: int := 922337203685477582

  lemma OffsetOverflow()
    ensures PageNumber(Itoa(OverflowPage)) == OverflowPage
    ensures OffsetAsWritten(OverflowPage) == -9223372036854775806
    ensures Offset(OverflowPage) == 9223372036854775810
  {
    AtoiItoa(OverflowPage);
    var x := (OverflowPage - 1) * PageSize;
    assert x == 9223372036854775810;
    assert x % TwoTo64 == x;
  }

  /** The offset agrees with the intended one on every page whose offset fits
      a Go `int`. */
  lemma OffsetAsWrittenAgrees(page: int)
    requires page >= 1 && Offset(page) <= Int64Max
    ensures OffsetAsWritten(page) == Offset(page)
  {
  }

  /** `int(math.Ceil(float64(total) / float64(pageSize)))`. */
  function TotalPages(total: nat): (pages: nat)
    ensures pages * PageSize >= total
    ensures pages > 0 ==> (pages - 1) * PageSize < total
    ensures total == 0 <==> pages == 0
  {
    (total + PageSize - 1) / PageSize
  }

  /** `LIMIT 10 OFFSET offset` over the ordered list, for an offset PostgreSQL
      accepts. */
  function RowsFrom<T>(list: seq<T>, offset: nat): (r: seq<T>)
    ensures |r| <= PageSize
    ensures offset < |list| ==> r == list[offset..if offset + PageSize < |list| then offset + PageSize else |list|]
    ensures offset >= |list| ==> r == []
  {
    var from := if offset < |list| then offset else |list|;
    Take(list[from..], PageSize)
  }

  /** The page meant: the rows at the intended offset. */
  function PageRows<T>(list: seq<T>, page: int): (r: seq<T>)
    requires page >= 1
    ensures |r| <= PageSize
    ensures Offset(page) < |list| ==> r == list[Offset(page)..if Offset(page) + PageSize < |list| then Offset(page) + PageSize else |list|]
    ensures Offset(page) >= |list| ==> r == []
  {
    RowsFrom(list, Offset(page))
  }

  /** The list query as the handlers issue it, at the wrapped offset:
      PostgreSQL refuses a negative OFFSET, so the query fails there. */
  function PageRowsAsWritten<T>(list: seq<T>, page: int): Option<seq<T>>
  {
    var offset := OffsetAsWritten(page);
    if offset < 0 then None else Some(RowsFrom(list, offset))
  }

  /** Wherever the intended offset fits a Go `int`, the query as written
      returns the intended page. */
  lemma PageRowsAsWrittenAgrees<T>(list: seq<T>, page: int)
    requires page >= 1 && Offset(page) <= Int64Max
    ensures PageRowsAsWritten(list, page) == Some(PageRows(list, page))
  {
    OffsetAsWrittenAgrees(page);
  }

  /** A page number, well inside the 64-bit range, whose offset wraps past
      2^64 back to 4. */
  const WrapPage: int := 1844674407370955163

  /** The two outcomes of the wrap: at `OverflowPage` the query fails, and at
      `WrapPage` a list of at least five rows shows its rows 5 to 14, where the
      intended page is empty. */
  lemma PageWrapFinding<T>(list: seq<T>)
    ensures PageNumber(Itoa(OverflowPage)) == OverflowPage && PageNumber(Itoa(WrapPage)) == WrapPage
    ensures PageRowsAsWritten(list, OverflowPage) == None
    ensures |list| >= 5 ==>
      PageRowsAsWritten(list, WrapPage) == Some(list[4..if 14 < |list| then 14 else |list|])
    ensures |list| <= Int64Max ==> PageRows(list, OverflowPage) == [] && PageRows(list, WrapPage) == []
  {
    OffsetOverflow();
    AtoiItoa(WrapPage);
    var x := (WrapPage - 1) * PageSize;
    assert x == TwoTo64 + 4;
    assert x % TwoTo64 == 4;
    assert OffsetAsWritten(WrapPage) == 4;
  }

  /** Pages 1..n laid end to end. */
  function PagesUpTo<T>(list: seq<T>, n: nat): seq<T>
  {
    if n == 0 then [] else PagesUpTo(list, n - 1) + PageRows(list, n)
  }

  lemma {:induction false} PagesUpToIsPrefix<T>(list: seq<T>, n: nat)
    ensures var end := if n * PageSize < |list| then n * PageSize else |list|;
      PagesUpTo(list, n) == list[..end]
  {
    if n > 0 {
      PagesUpToIsPrefix(list, n - 1);
      var end := if (n - 1) * PageSize < |list| then (n - 1) * PageSize else |list|;
      if (n - 1) * PageSize < |list| {
        assert list[..end] + PageRows(list, n) == list[..if n * PageSize < |list| then n * PageSize else |list|];
      }
    }
  }

  /** Paging through pages 1..totalPages shows every matching row exactly
      once, in list order, and a page number is within range exactly when its
      page is non-empty. */
  lemma PagesCoverList<T>(list: seq<T>)
    ensures PagesUpTo(list, TotalPages(|list|)) == list
    ensures forall page :: 1 <= page ==> (page <= TotalPages(|list|) <==> PageRows(list, page) != [])
  {
    PagesUpToIsPrefix(list, TotalPages(|list|));
    assert list[..|list|] == list;
  }

  /** A page is a stretch of the list: its rows come from the list, in the
      list's order, whatever the offset. */
  lemma RowsFromSorted<T>(list: seq<T>, offset: nat, le: (T, T) -> bool)
    ensures forall x :: x in RowsFrom(list, offset) ==> x in list
    ensures SortedBy(list, le) ==> SortedBy(RowsFrom(list, offset), le)
  {
    var rows := RowsFrom(list, offset);
    if offset < |list| {
      var from := offset;
      forall i, j | 0 <= i < j < |rows| && SortedBy(list, le) ensures le(rows[i], rows[j]) {
        assert rows[i] == list[from + i] && rows[j] == list[from + j];
      }
    }
  }

  // ---------------------------------------------------------------------------
  // The patient list query
  // ---------------------------------------------------------------------------

  datatype SqlArg = TextArg(text: string) | IntArg(n: int)

  const PatientListBase: string := "SELECT id, name, email, phone, consent_given_at, access_token FROM patients"
  const PatientSearchCondition: string := " WHERE name ILIKE $1 OR email ILIKE $1"

  /** The query text and its arguments as `ViewPatients` assembles them. */
  function PatientListQuery(search: string, offset: int): (q: (string, seq<SqlArg>))
  {
    var (text, args) :=
      if search != "" then (PatientListBase + PatientSearchCondition, [TextArg("%" + search + "%")])
      else (PatientListBase, []);
    (text + " ORDER BY name ASC LIMIT $" + Itoa(|args| + 1) + " OFFSET $" + Itoa(|args| + 2),
     args + [IntArg(PageSize), IntArg(offset)])
  }

  /** Placeholder numbering: the LIMIT and OFFSET placeholders are the last two
      arguments, so the highest placeholder is the argument count (2, or 3 with
      a search term whose pattern is `$1`). */
  lemma PlaceholdersMatchArguments(search: string, offset: int)
    ensures var (text, args) := PatientListQuery(search, offset);
      && |args| == (if search == "" then 2 else 3)
      && args[|args| - 2] == IntArg(PageSize) && args[|args| - 1] == IntArg(offset)
      && (search != "" ==> args[0] == TextArg("%" + search + "%"))
      && Atoi(Itoa(|args| - 1)) == Parsed(|args| - 1) && Atoi(Itoa(|args|)) == Parsed(|args|)
      && exists head :: text == head + " ORDER BY name ASC LIMIT $" + Itoa(|args| - 1) + " OFFSET $" + Itoa(|args|)
  {
    var (text, args) := PatientListQuery(search, offset);
    AtoiItoa(|args| - 1);
    AtoiItoa(|args|);
    var head := if search != "" then PatientListBase + PatientSearchCondition else PatientListBase;
    assert text == head + " ORDER BY name ASC LIMIT $" + Itoa(|args| - 1) + " OFFSET $" + Itoa(|args|);
  }

  /** The admin's search condition: name or e-mail contains the term, ignoring
      case; no term lists every patient, deleted or not. */
  predicate AdminPatientMatches(p: Patient, search: string)
  {
    search == "" || ILikeContains(p.contact.name, search) || ILikeContains(p.contact.email, search)
  }

  /** The matching patients ordered by name. */
  function AdminPatientList(s: DbState, search: string): (r: seq<Patient>)
  {
    SortBy(Filter(RowsOf(s.patients), (p: Patient) => AdminPatientMatches(p, search)), PatientNameLe)
  }

  datatype PatientListPage =
    | ListError                                                         // 500
    | ListPage(patients: seq<Patient>, totalPages: int, currentPage: int, searchTerm: string)

  /** The page of a list: the error page when the count or the list query
      fails, otherwise its rows and the page count. */
  function ListView(list: seq<Patient>, rows: Option<seq<Patient>>, page: int, search: string,
                    countFault: bool, listFault: bool): PatientListPage
  {
    if countFault || listFault || rows.None? then ListError
    else ListPage(rows.value, TotalPages(|list|), page, search)
  }

  /** What `ViewPatients` renders, at the wrapped offset. */
  function AdminPatientsViewAsWritten(s: DbState, query: Form, countFault: bool, listFault: bool): PatientListPage
  {
    var page := PageNumber(PostForm(query, "page"));
    var search := PostForm(query, "search");
    var list := AdminPatientList(s, search);
    ListView(list, PageRowsAsWritten(list, page), page, search, countFault, listFault)
  }

  /** The view meant: the page at the intended offset. */
  function AdminPatientsView(s: DbState, query: Form, countFault: bool, listFault: bool): PatientListPage
  {
    var page := PageNumber(PostForm(query, "page"));
    var search := PostForm(query, "search");
    var list := AdminPatientList(s, search);
    ListView(list, Some(PageRows(list, page)), page, search, countFault, listFault)
  }

  /** `ViewPatients`: counts, then runs the list query at the offset as Go
      computes it and copies the rows of the page one by one. */
  method ViewPatients(db: Database, query: Form, countFault: bool, listFault: bool) returns (v: PatientListPage)
    ensures v == AdminPatientsViewAsWritten(db.State(), query, countFault, listFault)
  {
    var page := PageNumber(PostForm(query, "page"));
    var search := PostForm(query, "search");
    var offset := OffsetAsWritten(page);
    var list := AdminPatientList(db.State(), search);
    if countFault {
      return ListError;
    }
    var totalPages := TotalPages(|list|);
    if listFault || offset < 0 {
      return ListError;
    }
    var patients := ScanRows(RowsFrom(list, offset));
    return ListPage(patients, totalPages, page, search);
  }

  /** The listing holds exactly the matching patients, ordered by name. */
  lemma AdminPatientListSound(s: DbState, search: string)
    ensures var list := AdminPatientList(s, search);
      && (forall p :: p in list <==> p in s.patients.Values && AdminPatientMatches(p, search))
      && SortedBy(list, PatientNameLe)
  {
    var f := Filter(RowsOf(s.patients), (p: Patient) => AdminPatientMatches(p, search));
    var list := AdminPatientList(s, search);
    PatientNameOrder();
    SortByIsSorted(f, PatientNameLe);
    forall p ensures p in list <==> p in s.patients.Values && AdminPatientMatches(p, search) {
      calc {
        p in list;
        p in multiset(list);
        p in multiset(f);
        p in f;
      }
      if p in s.patients.Values && AdminPatientMatches(p, search) {
        var id :| id in s.patients && s.patients[id] == p;
        FilterKeeps(RowsOf(s.patients), (p: Patient) => AdminPatientMatches(p, search), p);
      }
    }
  }

  /** The handler shows a page exactly when neither query fails and the
      wrapped offset is not negative; every listed patient then matches the
      search, the page is ordered by name and holds at most ten patients, and
      the page count covers all matches. */
  lemma PatientsViewSound(s: DbState, query: Form, countFault: bool, listFault: bool)
    ensures var v := AdminPatientsViewAsWritten(s, query, countFault, listFault);
      var search := PostForm(query, "search");
      && (v.ListPage? <==> !countFault && !listFault && OffsetAsWritten(PageNumber(PostForm(query, "page"))) >= 0)
      && (v.ListPage? ==>
            && |v.patients| <= PageSize
            && (forall p :: p in v.patients ==> p in s.patients.Values && AdminPatientMatches(p, search))
            && SortedBy(v.patients, PatientNameLe)
            && v.totalPages * PageSize >= |AdminPatientList(s, search)|)
  {
    var search := PostForm(query, "search");
    var list := AdminPatientList(s, search);
    var offset := OffsetAsWritten(PageNumber(PostForm(query, "page")));
    AdminPatientListSound(s, search);
    if offset >= 0 {
      RowsFromSorted(list, offset, PatientNameLe);
    }
  }

  /** Wherever the intended offset fits a Go `int`, the handler renders the
      intended page. */
  lemma PatientsViewAgrees(s: DbState, query: Form, countFault: bool, listFault: bool)
    requires Offset(PageNumber(PostForm(query, "page"))) <= Int64Max
    ensures AdminPatientsViewAsWritten(s, query, countFault, listFault) == AdminPatientsView(s, query, countFault, listFault)
  {
    PageRowsAsWrittenAgrees(AdminPatientList(s, PostForm(query, "search")), PageNumber(PostForm(query, "page")));
  }

  /** As written, page 922337203685477582 shows the error page and page
      1844674407370955163 shows rows 5 to 14 of a list of at least five;
      the intended view shows an empty page for both. */
  lemma PatientsPageWrap(s: DbState, query: Form)
    ensures PostForm(query, "page") == Itoa(OverflowPage) ==>
      AdminPatientsViewAsWritten(s, query, false, false) == ListError
    ensures var search := PostForm(query, "search");
      var list := AdminPatientList(s, search);
      PostForm(query, "page") == Itoa(WrapPage) && |list| >= 5 ==>
        AdminPatientsViewAsWritten(s, query, false, false) ==
          ListPage(list[4..if 14 < |list| then 14 else |list|], TotalPages(|list|), WrapPage, search)
    ensures var list := AdminPatientList(s, PostForm(query, "search"));
      PostForm(query, "page") in {Itoa(OverflowPage), Itoa(WrapPage)} && |list| <= Int64Max ==>
        AdminPatientsView(s, query, false, false).patients == []
  {
    PageWrapFinding(AdminPatientList(s, PostForm(query, "search")));
  }

  // ---------------------------------------------------------------------------
  // DeleteUser
  // ---------------------------------------------------------------------------

  const UsersPath: string := "/admin/users"
  const DeleteFailedMessage: string := "Ocorreu um erro ao tentar remover o usuário."
  const DeletedMessage: string := "Usuário removido com sucesso!"

  function RecordsBlockMessage(n: int): string
  {
    "Não é possível excluir este usuário, pois ele é responsável por " + Itoa(n) + " registro(s) de prontuário."
  }

  function AppointmentsBlockMessage(n: int): string
  {
    "Não é possível excluir este usuário, pois ele possui " + Itoa(n) + " agendamento(s) na agenda."
  }

  function RecordsBy(s: DbState, id: int): seq<ClinicalRecord>
  {
    Filter(s.records, (r: ClinicalRecord) => r.doctorId == id)
  }

  function LiveAppointmentsOf(s: DbState, id: int): seq<Appointment>
  {
    Filter(RowsOf(s.appointments), (a: Appointment) => a.doctorId == id && a.status != Cancelado)
  }

  /** `SELECT COUNT(*) ... WHERE doctor_id = $1`, or `None` when the query
      fails (including an id PostgreSQL cannot read as an integer). */
  function CountBy(n: nat, id: Option<int>, fault: bool): (r: Option<nat>)
    ensures r.Some? ==> r.value == n
  {
    if fault || id.None? || !InInt32(id.value) then None else Some(n)
  }

  /** `DeleteUser`: refuse while the user authored history rows, else while
      they have appointments that are not cancelled; a count that fails does
      not refuse; otherwise delete and report how that went. */
  function DeleteStep(s: DbState, id: Option<int>, recordsFault: bool, appointmentsFault: bool, deleteFault: bool)
    : (r: (DbState, Flash))
  {
    var records := CountBy(if id.Some? then |RecordsBy(s, id.value)| else 0, id, recordsFault);
    if records.Some? && records.value > 0 then (s, Flash("error", RecordsBlockMessage(records.value)))
    else
      var live := CountBy(if id.Some? then |LiveAppointmentsOf(s, id.value)| else 0, id, appointmentsFault);
      if live.Some? && live.value > 0 then (s, Flash("error", AppointmentsBlockMessage(live.value)))
      else
        var (t, e) := DeleteUserRow(s, id, deleteFault);
        if e == Failed then (s, Flash("error", DeleteFailedMessage)) else (t, Flash("success", DeletedMessage))
  }

  method DeleteUser(db: Database, session: Session, id: Option<int>,
                    recordsFault: bool, appointmentsFault: bool, deleteFault: bool) returns (location: string)
    modifies db, session
    ensures var (t, flash) := DeleteStep(old(db.State()), id, recordsFault, appointmentsFault, deleteFault);
      db.State() == t && session.flashes == old(session.flashes) + [flash]
    ensures session.values == old(session.values)
    ensures location == UsersPath
  {
    var recordCount := CountBy(if id.Some? then |RecordsBy(db.State(), id.value)| else 0, id, recordsFault);
    if recordCount.Some? && recordCount.value > 0 {
      session.AddFlash(RecordsBlockMessage(recordCount.value), "error");
      return UsersPath;
    }
    var appointmentCount := CountBy(if id.Some? then |LiveAppointmentsOf(db.State(), id.value)| else 0, id, appointmentsFault);
    if appointmentCount.Some? && appointmentCount.value > 0 {
      session.AddFlash(AppointmentsBlockMessage(appointmentCount.value), "error");
      return UsersPath;
    }
    var e := db.ExecDeleteUser(id, deleteFault);
    if e == Failed {
      session.AddFlash(DeleteFailedMessage, "error");
    } else {
      session.AddFlash(DeletedMessage, "success");
    }
    return UsersPath;
  }

  lemma FilterEmpty<T>(s: seq<T>, p: T -> bool)
    requires forall i :: 0 <= i < |s| ==> !p(s[i])
    ensures Filter(s, p) == []
  {
  }

  /** The guard: a user who authored history rows, or else has live
      appointments, is refused with the count in the message and nothing is
      deleted; a user is only ever removed when no history row and no
      appointment at all names them. */
  lemma DeleteUserGuard(s: DbState, id: Option<int>, f1: bool, f2: bool, f3: bool)
    ensures var r := DeleteStep(s, id, f1, f2, f3);
      r.0 != s ==>
        id.Some? && r.0 == s.(users := s.users - {id.value}) &&
        !UserReferenced(s, id.value) && r.1 == Flash("success", DeletedMessage)
    ensures var r := DeleteStep(s, id, f1, f2, f3);
      !f1 && id.Some? && InInt32(id.value) && |RecordsBy(s, id.value)| > 0 ==>
        r == (s, Flash("error", RecordsBlockMessage(|RecordsBy(s, id.value)|)))
    ensures var r := DeleteStep(s, id, f1, f2, f3);
      !f2 && id.Some? && InInt32(id.value) && (f1 || |RecordsBy(s, id.value)| == 0) &&
      |LiveAppointmentsOf(s, id.value)| > 0 ==>
        r == (s, Flash("error", AppointmentsBlockMessage(|LiveAppointmentsOf(s, id.value)|)))
  {
    DeleteStepShape(s, id, f1, f2, f3);
    if !f1 && id.Some? && InInt32(id.value) && |RecordsBy(s, id.value)| > 0 {
      RecordsBlockDelete(s, id.value, f2, f3);
    }
    if !f2 && id.Some? && InInt32(id.value) && (f1 || |RecordsBy(s, id.value)| == 0) &&
       |LiveAppointmentsOf(s, id.value)| > 0 {
      AppointmentsBlockDelete(s, id.value, f1, f3);
    }
  }

  /** Whatever the guard decides, the schema's guarantees and recorded
      consents survive. */
  lemma DeleteStepKeepsConsistent(s: DbState, id: Option<int>, f1: bool, f2: bool, f3: bool)
    requires Consistent(s)
    ensures var r := DeleteStep(s, id, f1, f2, f3);
      Consistent(r.0) && ConsentKept(s, r.0)
  {
    DeleteUserRowKeepsConsistent(s, id, f3);
    DeleteStepShape(s, id, f1, f2, f3);
  }

  /** The step either leaves the state alone or is a successful DELETE. */
  lemma DeleteStepShape(s: DbState, id: Option<int>, f1: bool, f2: bool, f3: bool)
    ensures var r := DeleteStep(s, id, f1, f2, f3);
      var d := DeleteUserRow(s, id, f3);
      r.0 == s || (d.1 == Done(1) && r.0 == d.0 && r.1 == Flash("success", DeletedMessage))
  {
  }

  lemma RecordsBlockDelete(s: DbState, id: int, f2: bool, f3: bool)
    requires InInt32(id) && |RecordsBy(s, id)| > 0
    ensures DeleteStep(s, Some(id), false, f2, f3) == (s, Flash("error", RecordsBlockMessage(|RecordsBy(s, id)|)))
  {
    assert CountBy(|RecordsBy(s, id)|, Some(id), false) == Some(|RecordsBy(s, id)|);
  }

  lemma AppointmentsBlockDelete(s: DbState, id: int, f1: bool, f3: bool)
    requires InInt32(id) && (f1 || |RecordsBy(s, id)| == 0) && |LiveAppointmentsOf(s, id)| > 0
    ensures DeleteStep(s, Some(id), f1, false, f3) ==
      (s, Flash("error", AppointmentsBlockMessage(|LiveAppointmentsOf(s, id)|)))
  {
    var records := CountBy(|RecordsBy(s, id)|, Some(id), f1);
    assert !(records.Some? && records.value > 0);
    assert CountBy(|LiveAppointmentsOf(s, id)|, Some(id), false) == Some(|LiveAppointmentsOf(s, id)|);
  }

  /** The guard skips cancelled appointments, but the foreign key does not: a
      user whose only appointments are cancelled passes the guard and the
      DELETE then fails, reported as a generic error. */
  lemma CancelledAppointmentsStillBlock(s: DbState, id: int, f3: bool)
    requires InInt32(id)
    requires forall i :: 0 <= i < |s.records| ==> s.records[i].doctorId != id
    requires forall k :: k in s.appointments && s.appointments[k].doctorId == id ==> s.appointments[k].status == Cancelado
    requires exists k :: k in s.appointments && s.appointments[k].doctorId == id
    ensures DeleteStep(s, Some(id), false, false, f3) == (s, Flash("error", DeleteFailedMessage))
  {
    assert RecordsBy(s, id) == [] by {
      FilterEmpty(s.records, (r: ClinicalRecord) => r.doctorId == id);
    }
    assert LiveAppointmentsOf(s, id) == [] by {
      NoLiveAppointments(s, id);
    }
    assert DeleteUserRow(s, Some(id), f3).1 == Failed by {
      var k :| k in s.appointments && s.appointments[k].doctorId == id;
      assert UserReferenced(s, id);
    }
    UnblockedDeleteStep(s, id, f3);
  }

  /** With neither count blocking, the outcome is the DELETE's. */
  lemma UnblockedDeleteStep(s: DbState, id: int, f3: bool)
    requires InInt32(id) && RecordsBy(s, id) == [] && LiveAppointmentsOf(s, id) == []
    ensures var d := DeleteUserRow(s, Some(id), f3);
      DeleteStep(s, Some(id), false, false, f3) ==
        if d.1 == Failed then (s, Flash("error", DeleteFailedMessage)) else (d.0, Flash("success", DeletedMessage))
  {
  }

  lemma NoLiveAppointments(s: DbState, id: int)
    requires forall k :: k in s.appointments && s.appointments[k].doctorId == id ==> s.appointments[k].status == Cancelado
    ensures LiveAppointmentsOf(s, id) == []
  {
    var rows := RowsOf(s.appointments);
    forall i | 0 <= i < |rows| ensures !(rows[i].doctorId == id && rows[i].status != Cancelado) {
      assert rows[i] in rows;
      var k :| k in s.appointments && s.appointments[k] == rows[i];
    }
    FilterEmpty(rows, (a: Appointment) => a.doctorId == id && a.status != Cancelado);
  }

  /** Failing count queries do not protect anything: the DELETE still runs. */
  lemma FailedCountsDoNotBlock(s: DbState, id: int)
    requires InInt32(id) && id in s.users && !UserReferenced(s, id)
    ensures DeleteStep(s, Some(id), true, true, false) == (s.(users := s.users - {id}), Flash("success", DeletedMessage))
  {
  }

  // ---------------------------------------------------------------------------
  // toDate and PostEditPatient
  // ---------------------------------------------------------------------------

  /** `toDate`: an empty or unparsable field becomes NULL, a valid
      `YYYY-MM-DD` date becomes that day. */
  function ToDate(text: string): (p: DateParam)
    ensures p.NullDate? || p.DateValue?
  {
    if text == "" then NullDate
    else match ParseDate(text)
      case Some(d) => DateValue(DayNumber(d))
      case None => NullDate
  }

  /** What `toDate` hands to a `DATE` column is never rejected, and a date it
      is given in the form's own format comes back as that very day. */
  lemma ToDateAccepted(text: string)
    ensures DateColumn(ToDate(text)).Some?
    ensures ToDate(text).DateValue? <==> ParseDate(text).Some?
  {
  }

  lemma ToDateOfFormatted(d: Date)
    requires ValidDate(d) && 0 <= d.year <= 9999
    ensures ToDate(FormatDate(d)) == DateValue(DayNumber(d))
  {
    ParseFormatDate(d);
  }

  /** A level as the handlers read it: `v, _ := strconv.Atoi(field)`. */
  function LevelOf(form: Form, key: string): (v: int)
    ensures InInt64(v)
  {
    AtoiValue(PostForm(form, key))
  }

  /** A field with no digit in it is stored as level 0. */
  lemma NonNumericLevelIsZero(form: Form, key: string)
    requires forall i :: 0 <= i < |PostForm(form, key)| ==> !IsDigit(PostForm(form, key)[i])
    ensures LevelOf(form, key) == 0
  {
    AtoiWithoutDigits(PostForm(form, key));
  }

  /** The six levels and five texts written to both tables. */
  function ClinicalForm(form: Form): ClinicalState
  {
    ClinicalState(
      LevelOf(form, "anxiety_level"), LevelOf(form, "anger_level"), LevelOf(form, "fear_level"),
      LevelOf(form, "sadness_level"), LevelOf(form, "joy_level"), LevelOf(form, "energy_level"),
      PostForm(form, "main_complaint"), PostForm(form, "complaint_history"), PostForm(form, "signs_symptoms"),
      PostForm(form, "current_treatment"), PostForm(form, "notes"))
  }

  function AddressForm(form: Form): Address
  {
    Address(PostForm(form, "address_street"), PostForm(form, "address_number"),
            PostForm(form, "address_neighborhood"), PostForm(form, "address_city"), PostForm(form, "address_state"))
  }

  function AdminContactForm(form: Form): ContactForm
  {
    ContactForm(PostForm(form, "client_name"), AddressForm(form), PostForm(form, "phone"), PostForm(form, "mobile"),
                ToDate(PostForm(form, "dob")), LevelOf(form, "age"), PostForm(form, "email"), PostForm(form, "profession"))
  }

  function AdminTermsForm(form: Form): TermsForm
  {
    TermsForm(ToDate(PostForm(form, "consent_date")), PostForm(form, "consent_name_inline"),
              PostForm(form, "consent_cpf_rg_inline"), ToDate(PostForm(form, "signature_date")),
              PostForm(form, "signature_location"))
  }

  function AdminPersonalForm(form: Form): Personal
  {
    Personal(PostForm(form, "gender"), PostForm(form, "marital_status"), PostForm(form, "children"),
             LevelOf(form, "num_children"), PostForm(form, "emergency_contact_name"),
             PostForm(form, "emergency_contact_phone"), PostForm(form, "emergency_contact_other"))
  }

  function AdminUpdate(form: Form, now: Time): PatientEdit
  {
    PatientEdit.AdminEdit(AdminTermsForm(form), AdminContactForm(form), AdminPersonalForm(form), ClinicalForm(form), now)
  }

  /** How a staff handler ends: a redirect, or a panic on a session whose user
      id is not an int (gin's recovery then answers 500). */
  datatype EditOutcome = EditRedirect(location: string) | EditPanic

  /** `PostEditPatient`: the projection UPDATE, then the history INSERT
      authored by the session user, as two independent statements whose errors
      are only logged. */
  function AdminEditStep(s: DbState, idStr: string, form: Form, user: Option<SessionValue>, now: Time,
                         updateFault: bool, insertFault: bool): (r: (DbState, EditOutcome))
  {
    var pid := AtoiValue(idStr);
    var (s1, _) := UpdatePatient(s, pid, AdminUpdate(form, now), updateFault);
    if !(user.Some? && user.value.IntValue?) then (s1, EditPanic)
    else
      var (s2, _) := InsertRecord(s1, pid, user.value.n, ClinicalForm(form), now, insertFault);
      (s2, EditRedirect("/admin/patients/edit/" + idStr))
  }

  method PostEditPatient(db: Database, session: Session, idStr: string, form: Form, now: Time,
                         updateFault: bool, insertFault: bool) returns (outcome: EditOutcome)
    modifies db
    ensures (db.State(), outcome) ==
      AdminEditStep(old(db.State()), idStr, form, session.Get(UserKey), now, updateFault, insertFault)
  {
    var patientID := AtoiValue(idStr);
    var _ := db.ExecUpdatePatient(patientID, AdminUpdate(form, now), updateFault);
    var user := session.Get(UserKey);
    if !(user.Some? && user.value.IntValue?) {
      return EditPanic;
    }
    var _ := db.ExecInsertRecord(patientID, user.value.n, ClinicalForm(form), now, insertFault);
    return EditRedirect("/admin/patients/edit/" + idStr);
  }

  /** The two writes do not depend on each other: the patient table ends as
      the UPDATE alone leaves it, and the history as the INSERT alone leaves
      it, whichever of them fails. */
  lemma AdminEditIndependent(s: DbState, idStr: string, form: Form, uid: int, now: Time, f1: bool, f2: bool)
    ensures var r := AdminEditStep(s, idStr, form, Some(IntValue(uid)), now, f1, f2);
      var pid := AtoiValue(idStr);
      && r.0.patients == UpdatePatient(s, pid, AdminUpdate(form, now), f1).0.patients
      && r.0.records == InsertRecord(s, pid, uid, ClinicalForm(form), now, f2).0.records
      && r.0.appointments == s.appointments && r.0.users == s.users && r.0.audit == s.audit
      && r.1 == EditRedirect("/admin/patients/edit/" + idStr)
  {
  }

  /** Projection and history agree only when both writes succeed: then the
      patient's latest state is the new history row's state, authored by the
      session user. */
  lemma AdminEditAgreement(s: DbState, idStr: string, form: Form, uid: int, now: Time)
    requires var pid := AtoiValue(idStr);
      UpdatePatient(s, pid, AdminUpdate(form, now), false).1 == Done(1) &&
      InsertRecord(s, pid, uid, ClinicalForm(form), now, false).1 == Done(1)
    ensures var r := AdminEditStep(s, idStr, form, Some(IntValue(uid)), now, false, false);
      var pid := AtoiValue(idStr);
      var last := r.0.records[|r.0.records| - 1];
      && |r.0.records| == |s.records| + 1
      && r.0.patients[pid].clinical == Some(last.state)
      && last.patientId == pid && last.doctorId == uid && last.state == ClinicalForm(form)
  {
  }

  /** When only the history insert succeeds, the patient row keeps its old
      state while the history gains the new one. */
  lemma AdminEditDivergence(s: DbState, idStr: string, form: Form, uid: int, now: Time)
    requires InsertRecord(s, AtoiValue(idStr), uid, ClinicalForm(form), now, false).1 == Done(1)
    ensures var r := AdminEditStep(s, idStr, form, Some(IntValue(uid)), now, true, false);
      r.0.patients == s.patients && r.0.records == s.records + [r.0.records[|s.records|]] &&
      r.0.records[|s.records|].state == ClinicalForm(form)
  {
  }

  lemma AdminEditKeepsConsistent(s: DbState, idStr: string, form: Form, user: Option<SessionValue>, now: Time,
                                 f1: bool, f2: bool)
    requires Consistent(s)
    ensures Consistent(AdminEditStep(s, idStr, form, user, now, f1, f2).0)
    ensures ConsentKept(s, AdminEditStep(s, idStr, form, user, now, f1, f2).0)
  {
    var pid := AtoiValue(idStr);
    var s1 := UpdatePatient(s, pid, AdminUpdate(form, now), f1).0;
    UpdatePatientKeepsConsistent(s, pid, AdminUpdate(form, now), f1);
    if user.Some? && user.value.IntValue? {
      InsertRecordKeepsConsistent(s1, pid, user.value.n, ClinicalForm(form), now, f2);
    }
  }

  // ---------------------------------------------------------------------------
  // PostNewAppointment and CancelAppointment
  // ---------------------------------------------------------------------------

  /** An appointment lasts one hour. */
  const AppointmentLength: int := SecondsPerHour

  /** The admin's status rule: a past appointment submitted as scheduled is
      recorded as done; any other submitted status is kept. */
  function AdminStatus(status: string, start: Time, now: Time): (st: string)
    ensures IsAppointmentStatus(st) <==> IsAppointmentStatus(status)
    ensures st == Agendado ==> now <= start
    ensures status != Agendado ==> st == status
  {
    if status == Agendado && start < now then Concluido else status
  }

  function ProfilePath(patientIdStr: string): string
  {
    "/admin/patients/profile/" + patientIdStr
  }

  /** `PostNewAppointment` (admin): an unparsable date or time inserts
      nothing; otherwise the insert runs and its error is only logged. */
  function AdminNewAppointmentStep(s: DbState, form: Form, now: Time, fault: bool): (r: (DbState, string))
  {
    var pidStr := PostForm(form, "patient_id");
    match ParseDateTime(PostForm(form, "appointment_date") + " " + PostForm(form, "start_time"))
    case None => (s, ProfilePath(pidStr))
    case Some(dt) =>
      var start := ToTime(dt);
      var status := AdminStatus(PostForm(form, "status"), start, now);
      var (t, _) := InsertAppointment(s, AtoiValue(pidStr), AtoiValue(PostForm(form, "doctor_id")),
                                      start, start + AppointmentLength, status, PostForm(form, "notes"), now, fault);
      (t, ProfilePath(pidStr))
  }

  method AdminPostNewAppointment(db: Database, form: Form, now: Time, fault: bool) returns (location: string)
    modifies db
    ensures (db.State(), location) == AdminNewAppointmentStep(old(db.State()), form, now, fault)
  {
    var patientIDStr := PostForm(form, "patient_id");
    var patientID := AtoiValue(patientIDStr);
    var doctorID := AtoiValue(PostForm(form, "doctor_id"));
    var parsed := ParseDateTime(PostForm(form, "appointment_date") + " " + PostForm(form, "start_time"));
    if parsed.None? {
      return ProfilePath(patientIDStr);
    }
    var startTime := ToTime(parsed.value);
    var endTime := startTime + AppointmentLength;
    var status := PostForm(form, "status");
    if status == Agendado && startTime < now {
      status := Concluido;
    }
    var _ := db.ExecInsertAppointment(patientID, doctorID, startTime, endTime, status, PostForm(form, "notes"), now, fault);
    return ProfilePath(patientIDStr);
  }

  /** A new appointment starts at the submitted date and time, ends one hour
      later, carries the status rule's status and a pending payment; a status
      outside the allowed set inserts nothing. */
  lemma AdminNewAppointmentEffects(s: DbState, form: Form, now: Time, fault: bool)
    requires Consistent(s)
    ensures var r := AdminNewAppointmentStep(s, form, now, fault);
      Consistent(r.0) && ConsentKept(s, r.0) && r.1 == ProfilePath(PostForm(form, "patient_id"))
    ensures var r := AdminNewAppointmentStep(s, form, now, fault);
      r.0 != s ==>
        var dt := ParseDateTime(PostForm(form, "appointment_date") + " " + PostForm(form, "start_time"));
        var a := r.0.appointments[s.nextAppointmentId];
        && dt.Some? && s.nextAppointmentId in r.0.appointments
        && r.0.appointments == s.appointments[s.nextAppointmentId := a]
        && a.start == ToTime(dt.value) && a.end == a.start + SecondsPerHour
        && a.status == AdminStatus(PostForm(form, "status"), a.start, now)
        && a.patientId == AtoiValue(PostForm(form, "patient_id"))
        && a.paymentStatus == "pendente"
    ensures !IsAppointmentStatus(PostForm(form, "status")) ==> AdminNewAppointmentStep(s, form, now, fault).0 == s
  {
    var dt := ParseDateTime(PostForm(form, "appointment_date") + " " + PostForm(form, "start_time"));
    if dt.Some? {
      var start := ToTime(dt.value);
      InsertAppointmentKeepsConsistent(s, AtoiValue(PostForm(form, "patient_id")), AtoiValue(PostForm(form, "doctor_id")),
        start, start + AppointmentLength, AdminStatus(PostForm(form, "status"), start, now), PostForm(form, "notes"), now, fault);
    }
  }

  /** `CancelAppointment` (admin): the UPDATE's error is only logged and the
      browser always returns to the patient's profile. */
  function AdminCancelStep(s: DbState, id: Option<int>, patientIdStr: string, now: Time, fault: bool)
    : (r: (DbState, string))
  {
    (UpdateAppointment(s, id, SetStatus(Cancelado), now, fault).0, ProfilePath(patientIdStr))
  }

  method AdminCancelAppointment(db: Database, id: Option<int>, patientIdStr: string, now: Time, fault: bool)
    returns (location: string)
    modifies db
    ensures (db.State(), location) == AdminCancelStep(old(db.State()), id, patientIdStr, now, fault)
  {
    var _ := db.ExecUpdateAppointment(id, SetStatus(Cancelado), now, fault);
    return ProfilePath(patientIdStr);
  }

  /** Cancelling changes only the status (and modification time) of that one
      appointment, and cancelling again changes nothing more. */
  lemma CancelOnlyTouchesStatus(s: DbState, id: Option<int>, patientIdStr: string, now: Time, fault: bool)
    requires Consistent(s)
    ensures var t := AdminCancelStep(s, id, patientIdStr, now, fault).0;
      && Consistent(t) && ConsentKept(s, t)
      && t.patients == s.patients && t.users == s.users && t.records == s.records && t.audit == s.audit
      && t.appointments.Keys == s.appointments.Keys
      && (forall k :: k in s.appointments && (id.None? || k != id.value) ==> t.appointments[k] == s.appointments[k])
      && (t != s ==>
            id.Some? && t.appointments[id.value] == s.appointments[id.value].(status := Cancelado, updatedAt := now))
    ensures var t := AdminCancelStep(s, id, patientIdStr, now, fault).0;
      AdminCancelStep(t, id, patientIdStr, now, fault).0 == t
  {
    UpdateAppointmentKeepsConsistent(s, id, SetStatus(Cancelado), now, fault);
    var t := AdminCancelStep(s, id, patientIdStr, now, fault).0;
    if t != s {
      assert t.appointments[id.value] == s.appointments[id.value].(status := Cancelado, updatedAt := now);
    }
  }

  // ---------------------------------------------------------------------------
  // ViewAgenda (the secretary's agenda runs the same code)
  // ---------------------------------------------------------------------------

  /** One row of the agenda query: the appointment joined with its patient's
      and doctor's names. */
  datatype AgendaEntry = AgendaEntry(id: int, start: Time, status: string, patientName: string,
                                     doctorName: string, patientId: int)

  /** The inner joins keep an appointment only when both ends exist. */
  predicate Joinable(s: DbState, a: Appointment)
  {
    a.patientId in s.patients && a.doctorId in s.users
  }

  function EntryOf(s: DbState, a: Appointment): AgendaEntry
    requires Joinable(s, a)
  {
    AgendaEntry(a.id, a.start, a.status, s.patients[a.patientId].contact.name, s.users[a.doctorId].name, a.patientId)
  }

  function Join(s: DbState, rows: seq<Appointment>): seq<AgendaEntry>
  {
    if rows == [] then []
    else
      var a := rows[|rows| - 1];
      Join(s, rows[..|rows| - 1]) + (if Joinable(s, a) then [EntryOf(s, a)] else [])
  }

  /** The joined rows are exactly the appointments whose patient and doctor
      both exist. */
  lemma {:induction false} JoinMembers(s: DbState, rows: seq<Appointment>)
    ensures forall a :: a in rows && Joinable(s, a) ==> EntryOf(s, a) in Join(s, rows)
    ensures forall e :: e in Join(s, rows) ==> exists a :: a in rows && Joinable(s, a) && e == EntryOf(s, a)
  {
    if rows != [] {
      var init := rows[..|rows| - 1];
      var a := rows[|rows| - 1];
      JoinMembers(s, init);
      assert rows == init + [a];
      var j := Join(s, rows);
      assert j == Join(s, init) + (if Joinable(s, a) then [EntryOf(s, a)] else []);
      forall b | b in rows && Joinable(s, b) ensures EntryOf(s, b) in j {
        if b != a {
          assert b in init;
        }
      }
      forall e | e in j ensures exists b :: b in rows && Joinable(s, b) && e == EntryOf(s, b) {
        if e in Join(s, init) {
          var b :| b in init && Joinable(s, b) && e == EntryOf(s, b);
          assert b in rows;
        } else {
          assert e == EntryOf(s, a);
        }
      }
    }
  }

  function StartLe(a: AgendaEntry, b: AgendaEntry): bool
  {
    a.start <= b.start
  }

  lemma StartOrder()
    ensures TotalPreorder(StartLe)
  {
  }

  predicate InWindow(e: AgendaEntry, from: Time, to: Time)
  {
    from <= e.start < to
  }

  /** `... WHERE a.start_time >= $1 AND a.start_time < $2 ORDER BY a.start_time ASC`. */
  function AgendaRows(s: DbState, from: Time, to: Time): seq<AgendaEntry>
  {
    SortBy(Filter(Join(s, RowsOf(s.appointments)), (e: AgendaEntry) => InWindow(e, from, to)), StartLe)
  }

  /** The query returns exactly the joined appointments starting inside the
      window, in ascending start order. */
  lemma AgendaRowsSound(s: DbState, from: Time, to: Time)
    ensures SortedBy(AgendaRows(s, from, to), StartLe)
    ensures forall e :: e in AgendaRows(s, from, to) <==>
      e in Join(s, RowsOf(s.appointments)) && InWindow(e, from, to)
  {
    var joined := Join(s, RowsOf(s.appointments));
    var p := (e: AgendaEntry) => InWindow(e, from, to);
    var f := Filter(joined, p);
    StartOrder();
    SortByIsSorted(f, StartLe);
    var r := AgendaRows(s, from, to);
    assert multiset(r) == multiset(f);
    forall e ensures e in r <==> e in joined && InWindow(e, from, to) {
      assert e in r <==> e in multiset(r);
      assert e in f <==> e in multiset(f);
      assert e in f ==> e in joined && p(e);
      if e in joined && InWindow(e, from, to) {
        FilterKeeps(joined, p, e);
      }
    }
  }

  /** The appointments of day `d` (a day number) among `rows`, in their order. */
  function RowsOnDay(rows: seq<AgendaEntry>, d: int): seq<AgendaEntry>
  {
    Filter(rows, (e: AgendaEntry) => DayOf(e.start) == d)
  }

  /** A Go map lookup: a day without appointments reads as an empty list. */
  function DayBucket(byDay: map<int, seq<AgendaEntry>>, d: int): seq<AgendaEntry>
  {
    if d in byDay then byDay[d] else []
  }

  lemma RowsOnDayAppend(rows: seq<AgendaEntry>, x: AgendaEntry, d: int)
    ensures RowsOnDay(rows + [x], d) == RowsOnDay(rows, d) + (if DayOf(x.start) == d then [x] else [])
  {
    FilterAppend(rows, x, (e: AgendaEntry) => DayOf(e.start) == d);
  }

  /** The `appointmentsByDay` loop: each row is appended to its day's list. */
  method BucketByDay(rows: seq<AgendaEntry>) returns (byDay: map<int, seq<AgendaEntry>>)
    ensures forall d :: DayBucket(byDay, d) == RowsOnDay(rows, d)
  {
    byDay := map[];
    var i := 0;
    while i < |rows|
      invariant 0 <= i <= |rows|
      invariant forall d :: DayBucket(byDay, d) == RowsOnDay(rows[..i], d)
    {
      var app := rows[i];
      var dayKey := DayOf(app.start);
      byDay := byDay[dayKey := DayBucket(byDay, dayKey) + [app]];
      assert rows[..i + 1] == rows[..i] + [app];
      forall d ensures DayBucket(byDay, d) == RowsOnDay(rows[..i + 1], d) {
        RowsOnDayAppend(rows[..i], app, d);
      }
      i := i + 1;
    }
    assert rows[..i] == rows;
  }

  /** One column of the agenda: a day and its appointments. */
  datatype DaySchedule = DaySchedule(date: Time, appointments: seq<AgendaEntry>)

  /** The seven columns starting at `start`, each holding its day's rows. */
  function WeekOf(start: Time, rows: seq<AgendaEntry>): (w: seq<DaySchedule>)
    ensures |w| == 7
  {
    seq(7, i requires 0 <= i < 7 => DaySchedule(AddDays(start, i), RowsOnDay(rows, DayOf(AddDays(start, i)))))
  }

  /** The `weekSchedule` loop: seven days from the week start, each with the
      list filed under its date. */
  method BuildWeek(startOfWeek: Time, byDay: map<int, seq<AgendaEntry>>, ghost rows: seq<AgendaEntry>)
    returns (week: seq<DaySchedule>)
    requires forall d :: DayBucket(byDay, d) == RowsOnDay(rows, d)
    ensures week == WeekOf(startOfWeek, rows)
  {
    week := [];
    var i := 0;
    while i < 7
      invariant 0 <= i <= 7
      invariant week == WeekOf(startOfWeek, rows)[..i]
    {
      var day := AddDays(startOfWeek, i);
      week := week + [DaySchedule(day, DayBucket(byDay, DayOf(day)))];
      i := i + 1;
    }
  }

  /** Each column holds only rows of its own day, in the rows' order. */
  lemma WeekOfSound(start: Time, rows: seq<AgendaEntry>)
    ensures forall i, e :: 0 <= i < 7 && e in WeekOf(start, rows)[i].appointments ==>
      e in rows && DayOf(e.start) == DayOf(start) + i
    ensures SortedBy(rows, StartLe) ==>
      forall i :: 0 <= i < 7 ==> SortedBy(WeekOf(start, rows)[i].appointments, StartLe)
  {
    if SortedBy(rows, StartLe) {
      forall i | 0 <= i < 7 ensures SortedBy(WeekOf(start, rows)[i].appointments, StartLe) {
        FilterSorted(rows, (e: AgendaEntry) => DayOf(e.start) == DayOf(AddDays(start, i)), StartLe);
      }
    }
  }

  /** A row of one of the seven days is in that day's column. */
  lemma WeekOfComplete(start: Time, rows: seq<AgendaEntry>, e: AgendaEntry)
    requires e in rows && DayOf(start) <= DayOf(e.start) < DayOf(start) + 7
    ensures e in WeekOf(start, rows)[DayOf(e.start) - DayOf(start)].appointments
  {
    var i := DayOf(e.start) - DayOf(start);
    FilterKeeps(rows, (x: AgendaEntry) => DayOf(x.start) == DayOf(AddDays(start, i)), e);
  }

  /** The page: the week, or the error page when the query fails; the links to
      the previous and next week are given by their start times. */
  datatype AgendaPage = AgendaError | AgendaPage(week: seq<DaySchedule>, prevWeek: Time, nextWeek: Time)

  /** The agenda of the week starting at `startOfWeek`. */
  function AgendaFor(s: DbState, startOfWeek: Time, fault: bool): AgendaPage
  {
    if fault then AgendaError
    else WeekPage(startOfWeek, AgendaRows(s, startOfWeek, AddDays(startOfWeek, 7)))
  }

  /** The page for the fetched rows of the week starting at `startOfWeek`. */
  function WeekPage(startOfWeek: Time, rows: seq<AgendaEntry>): AgendaPage
  {
    AgendaPage(WeekOf(startOfWeek, rows), AddDays(startOfWeek, -7), AddDays(startOfWeek, 7))
  }

  /** The reference time: now without a `date` parameter, else the parameter's
      midnight, or Go's zero time when it does not parse. */
  function ReferenceTime(dateParam: string, now: Time): (t: Time)
    ensures dateParam != "" ==> t % SecondsPerDay == 0
  {
    if dateParam == "" then now
    else match ParseDate(dateParam)
      case Some(d) => DayNumber(d) * SecondsPerDay
      case None => ZeroTime
  }

  /** `referenceDate.AddDate(0, 0, -weekday)`: the Sunday of the reference's
      week, at the reference's own time of day. */
  function WeekStartAsWritten(ref: Time): Time
  {
    AddDays(ref, -Weekday(ref))
  }

  /** The midnight that starts the Sunday of the reference's week. */
  function WeekStart(ref: Time): (w: Time)
    ensures w % SecondsPerDay == 0 && Weekday(w) == 0
    ensures DayOf(w) <= DayOf(ref) < DayOf(w) + 7
  {
    (DayOf(ref) - Weekday(ref)) * SecondsPerDay
  }

  /** With a `date` parameter both readings give the same week start. */
  lemma WeekStartAgrees(ref: Time)
    requires ref % SecondsPerDay == 0
    ensures WeekStartAsWritten(ref) == WeekStart(ref)
  {
  }

  function AgendaViewAsWritten(s: DbState, dateParam: string, now: Time, fault: bool): AgendaPage
  {
    AgendaFor(s, WeekStartAsWritten(ReferenceTime(dateParam, now)), fault)
  }

  function AgendaView(s: DbState, dateParam: string, now: Time, fault: bool): AgendaPage
  {
    AgendaFor(s, WeekStart(ReferenceTime(dateParam, now)), fault)
  }

  /** `ViewAgenda`, with the week start computed as the source computes it. */
  method ViewAgenda(db: Database, dateParam: string, now: Time, fault: bool) returns (page: AgendaPage)
    ensures page == AgendaViewAsWritten(db.State(), dateParam, now, fault)
  {
    var referenceDate := ReferenceTime(dateParam, now);
    var startOfWeek := WeekStartAsWritten(referenceDate);
    var endOfWeek := AddDays(startOfWeek, 7);
    if fault {
      return AgendaError;
    }
    var rows := ScanRows(AgendaRows(db.State(), startOfWeek, endOfWeek));
    var appointmentsByDay := BucketByDay(rows);
    var weekSchedule := BuildWeek(startOfWeek, appointmentsByDay, rows);
    return AgendaPage(weekSchedule, AddDays(startOfWeek, -7), AddDays(startOfWeek, 7));
  }

  /** Whatever the week start, every listed appointment is a joined row that
      starts inside the fetched window and on the column's own day, and each
      column is in ascending start order. */
  lemma AgendaForSound(s: DbState, startOfWeek: Time, fault: bool)
    ensures var page := AgendaFor(s, startOfWeek, fault);
      page.AgendaPage? ==>
        forall i, e :: 0 <= i < 7 && e in page.week[i].appointments ==>
          && e in Join(s, RowsOf(s.appointments))
          && startOfWeek <= e.start < AddDays(startOfWeek, 7)
          && DayOf(e.start) == DayOf(startOfWeek) + i
    ensures var page := AgendaFor(s, startOfWeek, fault);
      page.AgendaPage? ==> forall i :: 0 <= i < 7 ==> SortedBy(page.week[i].appointments, StartLe)
  {
    AgendaRowsSound(s, startOfWeek, AddDays(startOfWeek, 7));
    WeekOfSound(startOfWeek, AgendaRows(s, startOfWeek, AddDays(startOfWeek, 7)));
  }

  /** The week: seven consecutive midnights starting on a Sunday, the week
      that contains the reference day, with links one week either way. */
  lemma AgendaWeekShape(s: DbState, dateParam: string, now: Time, fault: bool)
    ensures var page := AgendaView(s, dateParam, now, fault);
      page.AgendaPage? ==>
        var first := page.week[0].date;
        && |page.week| == 7
        && first % SecondsPerDay == 0 && Weekday(first) == 0
        && (forall i :: 0 <= i < 6 ==> page.week[i + 1].date == page.week[i].date + SecondsPerDay)
        && DayOf(first) <= DayOf(ReferenceTime(dateParam, now)) < DayOf(first) + 7
        && page.prevWeek == first - 7 * SecondsPerDay && page.nextWeek == first + 7 * SecondsPerDay
    ensures AgendaView(s, dateParam, now, fault).AgendaError? <==> fault
  {
  }

  /** As written, the week is seven consecutive days starting on the Sunday
      of the reference day at the reference's own time of day, with links one
      week either way. */
  lemma AgendaWeekShapeAsWritten(s: DbState, dateParam: string, now: Time, fault: bool)
    ensures var page := AgendaViewAsWritten(s, dateParam, now, fault);
      var ref := ReferenceTime(dateParam, now);
      page.AgendaPage? ==>
        var first := page.week[0].date;
        && |page.week| == 7
        && Weekday(first) == 0 && first % SecondsPerDay == ref % SecondsPerDay
        && (forall i :: 0 <= i < 6 ==> page.week[i + 1].date == page.week[i].date + SecondsPerDay)
        && DayOf(first) <= DayOf(ref) < DayOf(first) + 7
        && page.prevWeek == first - 7 * SecondsPerDay && page.nextWeek == first + 7 * SecondsPerDay
    ensures AgendaViewAsWritten(s, dateParam, now, fault).AgendaError? <==> fault
  {
    WeekStartAsWrittenShape(ReferenceTime(dateParam, now));
  }

  /** The week start as written is a Sunday at the reference's time of day,
      less than a week before it. */
  lemma WeekStartAsWrittenShape(ref: Time)
    ensures var w := WeekStartAsWritten(ref);
      && Weekday(w) == 0 && w % SecondsPerDay == ref % SecondsPerDay
      && DayOf(w) <= DayOf(ref) < DayOf(w) + 7
  {
    var w := WeekStartAsWritten(ref);
    var d := DayOf(ref);
    var k := Weekday(ref);
    assert DayOf(w) == d - k;
    assert (d + 4) - k == 7 * ((d + 4) / 7);
    assert DayOf(w) + 4 == 7 * ((d + 4) / 7);
  }

  /** With a `date` parameter the handler shows the intended week. */
  lemma AgendaViewAgrees(s: DbState, dateParam: string, now: Time, fault: bool)
    requires dateParam != ""
    ensures AgendaViewAsWritten(s, dateParam, now, fault) == AgendaView(s, dateParam, now, fault)
  {
    WeekStartAgrees(ReferenceTime(dateParam, now));
  }

  lemma JoinedAppointment(s: DbState, k: int)
    requires k in s.appointments && Joinable(s, s.appointments[k])
    ensures EntryOf(s, s.appointments[k]) in Join(s, RowsOf(s.appointments))
  {
    assert s.appointments[k] in RowsOf(s.appointments);
    JoinMembers(s, RowsOf(s.appointments));
  }

  /** A joined appointment of one of the seven days is fetched. */
  lemma AgendaRowsHave(s: DbState, w: Time, k: int)
    requires k in s.appointments && Joinable(s, s.appointments[k])
    requires w % SecondsPerDay == 0
    requires DayOf(w) <= DayOf(s.appointments[k].start) < DayOf(w) + 7
    ensures EntryOf(s, s.appointments[k]) in AgendaRows(s, w, AddDays(w, 7))
  {
    JoinedAppointment(s, k);
    AgendaRowsSound(s, w, AddDays(w, 7));
  }

  /** A joined appointment of one of the seven days starting at a midnight
      is in the column of its day. */
  lemma AgendaForComplete(s: DbState, w: Time, k: int)
    requires k in s.appointments && Joinable(s, s.appointments[k])
    requires w % SecondsPerDay == 0
    requires DayOf(w) <= DayOf(s.appointments[k].start) < DayOf(w) + 7
    ensures var i := DayOf(s.appointments[k].start) - DayOf(w);
      EntryOf(s, s.appointments[k]) in AgendaFor(s, w, false).week[i].appointments
  {
    AgendaRowsHave(s, w, k);
    EntryStart(s, s.appointments[k]);
    PageColumnHas(AgendaFor(s, w, false), w, AgendaRows(s, w, AddDays(w, 7)), EntryOf(s, s.appointments[k]), s.appointments[k].start);
  }

  lemma EntryStart(s: DbState, a: Appointment)
    requires Joinable(s, a)
    ensures EntryOf(s, a).start == a.start
  {
  }

  /** A fetched row is in the column of its day on the page built from the rows. */
  lemma PageColumnHas(page: AgendaPage, w: Time, rows: seq<AgendaEntry>, e: AgendaEntry, t: Time)
    requires page == WeekPage(w, rows)
    requires e in rows && e.start == t
    requires DayOf(w) <= DayOf(t) < DayOf(w) + 7
    ensures page.AgendaPage? && e in page.week[DayOf(t) - DayOf(w)].appointments
  {
    WeekOfComplete(w, rows, e);
  }

  /** Every joined appointment of the week lands in the column of its own day. */
  lemma AgendaWeekComplete(s: DbState, dateParam: string, now: Time, k: int)
    requires k in s.appointments && Joinable(s, s.appointments[k])
    requires var w := WeekStart(ReferenceTime(dateParam, now));
      DayOf(w) <= DayOf(s.appointments[k].start) < DayOf(w) + 7
    ensures var page := AgendaView(s, dateParam, now, false);
      var w := WeekStart(ReferenceTime(dateParam, now));
      EntryOf(s, s.appointments[k]) in page.week[DayOf(s.appointments[k].start) - DayOf(w)].appointments
  {
    AgendaForComplete(s, WeekStart(ReferenceTime(dateParam, now)), k);
  }

  /** On a Wednesday at 15:00 (day 6, 1970-01-07) the week as written starts
      on Sunday at 15:00 instead of midnight. */
  lemma AsWrittenWeekStartKeepsTimeOfDay()
    ensures Weekday(572400) == 3 && 572400 % SecondsPerDay == 15 * SecondsPerHour
    ensures WeekStartAsWritten(572400) == 313200 && WeekStart(572400) == 259200
  {
  }

  /** With that week start, a Sunday-morning appointment of the week is never
      fetched, and one on the following Sunday morning is fetched but lands in
      no column. */
  lemma {:induction false} AgendaWeekStartFinding(s: DbState, sunday: int, nextSunday: int)
    requires sunday in s.appointments && Joinable(s, s.appointments[sunday])
    requires nextSunday in s.appointments && Joinable(s, s.appointments[nextSunday])
    requires s.appointments[sunday].start == 291600 && s.appointments[nextSunday].start == 896400
    ensures var page := AgendaViewAsWritten(s, "", 572400, false);
      forall i :: 0 <= i < 7 ==>
        EntryOf(s, s.appointments[sunday]) !in page.week[i].appointments &&
        EntryOf(s, s.appointments[nextSunday]) !in page.week[i].appointments
    ensures EntryOf(s, s.appointments[nextSunday]) in AgendaRows(s, 313200, 918000)
  {
    AsWrittenWeekStartKeepsTimeOfDay();
    AgendaForSound(s, 313200, false);
    JoinedAppointment(s, nextSunday);
    AgendaRowsSound(s, 313200, 918000);
  }

  /** The corrected week start shows that Sunday-morning appointment in its
      Sunday column. */
  lemma AgendaWeekStartCorrected(s: DbState, sunday: int)
    requires sunday in s.appointments && Joinable(s, s.appointments[sunday])
    requires s.appointments[sunday].start == 291600
    ensures EntryOf(s, s.appointments[sunday]) in AgendaView(s, "", 572400, false).week[0].appointments
  {
    AsWrittenWeekStartKeepsTimeOfDay();
    AgendaForComplete(s, 259200, sunday);
  }
}

=== FILE: clock.dfy ===
/** Instants, calendar days and the two `time.Parse` layouts the handlers use
    ("2006-01-02" for dates, "2006-01-02 15:04" for appointment start times).
    Every instant is a whole number of seconds since 1970-01-01 00:00:00 UTC;
    parsed values are in UTC, as Go's `time.Parse` returns them. */
module Clock {
  import opened Prelude
  import opened Strconv

  /** Seconds since the Unix epoch. */
  type Time = int

  const SecondsPerDay: int := 86400
  const SecondsPerHour: int := 3600

  /** Go's zero `time.Time`: 0001-01-01 00:00:00 UTC. */
  const ZeroTime: Time := -62135596800

  /** Day number (days since 1970-01-01) of the UTC date containing `t`. */
  function DayOf(t: Time): int { t / SecondsPerDay }

  /** `t.Weekday()`, with 0 for Sunday; 1970-01-01 was a Thursday. */
  function Weekday(t: Time): (w: int)
    ensures 0 <= w < 7
  {
    (DayOf(t) + 4) % 7
  }

  /** `t.AddDate(0, 0, n)` in UTC: the same time of day, `n` days later. */
  function AddDays(t: Time, n: int): (r: Time)
    ensures DayOf(r) == DayOf(t) + n
    ensures r % SecondsPerDay == t % SecondsPerDay
  {
    t + n * SecondsPerDay
  }

  // ---------------------------------------------------------------------------
  // Proleptic Gregorian calendar
  // ---------------------------------------------------------------------------

  datatype Date = Date(year: int, month: int, day: int)

  predicate IsLeap(y: int) { y % 4 == 0 && (y % 100 != 0 || y % 400 == 0) }

  function DaysIn(month: int, year: int): (n: int)
    requires 1 <= month <= 12
    ensures 28 <= n <= 31
  {
    if month == 2 then (if IsLeap(year) then 29 else 28)
    else if month == 4 || month == 6 || month == 9 || month == 11 then 30
    else 31
  }

  function YearLength(y: int): int { if IsLeap(y) then 366 else 365 }

  predicate ValidDate(d: Date)
  {
    1 <= d.month <= 12 && 1 <= d.day <= DaysIn(d.month, d.year)
  }

  /** Days from 0001-01-01 to January 1st of year `y` (negative before year 1). */
  function DaysBeforeYear(y: int): int
  {
    365 * (y - 1) + (y - 1) / 4 - (y - 1) / 100 + (y - 1) / 400
  }

  /** Days from January 1st to the first of `month`. */
  function DaysBeforeMonth(year: int, month: int): (n: int)
    requires 1 <= month <= 13
    ensures 0 <= n <= YearLength(year)
  {
    var common := [0, 31, 59, 90, 120, 151, 181, 212, 243, 273, 304, 334, 365][month - 1];
    common + (if month > 2 && IsLeap(year) then 1 else 0)
  }

  /** Days since 1970-01-01 of a calendar date. */
  function DayNumber(d: Date): int
    requires ValidDate(d)
  {
    DaysBeforeYear(d.year) + DaysBeforeMonth(d.year, d.month) + d.day - 1 - 719162
  }

  /** The calendar date that follows `d`. */
  function NextDate(d: Date): (n: Date)
    requires ValidDate(d)
    ensures ValidDate(n)
  {
    if d.day < DaysIn(d.month, d.year) then Date(d.year, d.month, d.day + 1)
    else if d.month < 12 then Date(d.year, d.month + 1, 1)
    else Date(d.year + 1, 1, 1)
  }

  lemma DivStep4(y: int)
    ensures y / 4 - (y - 1) / 4 == if y % 4 == 0 then 1 else 0
  {
    var q := (y - 1) / 4;
    var r := (y - 1) % 4;
    assert y - 1 == 4 * q + r && 0 <= r < 4;
    if r == 3 {
      assert y == 4 * (q + 1) + 0;
    } else {
      assert y == 4 * q + (r + 1);
    }
  }
  lemma DivStep100(y: int)
    ensures y / 100 - (y - 1) / 100 == if y % 100 == 0 then 1 else 0
  {
    var q := (y - 1) / 100;
    var r := (y - 1) % 100;
    assert y - 1 == 100 * q + r && 0 <= r < 100;
    if r == 99 {
      assert y == 100 * (q + 1) + 0;
    } else {
      assert y == 100 * q + (r + 1);
    }
  }
  lemma DivStep400(y: int)
    ensures y / 400 - (y - 1) / 400 == if y % 400 == 0 then 1 else 0
  {
    var q := (y - 1) / 400;
    var r := (y - 1) % 400;
    assert y - 1 == 400 * q + r && 0 <= r < 400;
    if r == 399 {
      assert y == 400 * (q + 1) + 0;
    } else {
      assert y == 400 * q + (r + 1);
    }
  }
  lemma Century(y: int)
    ensures y % 100 == 0 ==> y % 4 == 0
    ensures y % 400 == 0 ==> y % 100 == 0
  {
    if y % 100 == 0 {
      var q := y / 100;
      assert y == 4 * (25 * q);
    }
    if y % 400 == 0 {
      var q := y / 400;
      assert y == 100 * (4 * q);
    }
  }

  lemma YearStep(y: int)
    ensures DaysBeforeYear(y + 1) == DaysBeforeYear(y) + YearLength(y)
  {
    var d4, d100, d400 := y / 4 - (y - 1) / 4, y / 100 - (y - 1) / 100, y / 400 - (y - 1) / 400;
    assert DaysBeforeYear(y + 1) == DaysBeforeYear(y) + 365 + d4 - d100 + d400;
    DivStep4(y);
    DivStep100(y);
    DivStep400(y);
    Century(y);
  }

  /** Consecutive calendar dates have consecutive day numbers. */
  lemma NextDateIsNextDay(d: Date)
    requires ValidDate(d)
    ensures DayNumber(NextDate(d)) == DayNumber(d) + 1
  {
    if d.day == DaysIn(d.month, d.year) && d.month == 12 {
      YearStep(d.year);
    }
  }

  lemma {:induction false} DaysBeforeYearGrows(a: int, b: int)
    requires a < b
    ensures DaysBeforeYear(a) + YearLength(a) <= DaysBeforeYear(b)
    decreases b - a
  {
    YearStep(a);
    if a + 1 < b {
      DaysBeforeYearGrows(a + 1, b);
    }
  }

  lemma MonthBounds(d: Date)
    requires ValidDate(d)
    ensures DaysBeforeMonth(d.year, d.month) + d.day - 1 < DaysBeforeMonth(d.year, d.month + 1)
  {
  }

  lemma {:induction false} DaysBeforeMonthGrows(y: int, a: int, b: int)
    requires 1 <= a < b <= 12
    ensures DaysBeforeMonth(y, a + 1) <= DaysBeforeMonth(y, b)
  {
  }

  /** Different dates have different day numbers. */
  lemma DayNumberInjective(a: Date, b: Date)
    requires ValidDate(a) && ValidDate(b) && a != b
    ensures DayNumber(a) != DayNumber(b)
  {
    MonthBounds(a);
    MonthBounds(b);
    if a.year < b.year {
      DaysBeforeYearGrows(a.year, b.year);
    } else if b.year < a.year {
      DaysBeforeYearGrows(b.year, a.year);
    } else if a.month < b.month {
      DaysBeforeMonthGrows(a.year, a.month, b.month);
    } else if b.month < a.month {
      DaysBeforeMonthGrows(a.year, b.month, a.month);
    }
  }

  // ---------------------------------------------------------------------------
  // time.Parse("2006-01-02", s) and its inverse, Format("2006-01-02")
  // ---------------------------------------------------------------------------

  /** The number written by the digits `s[i..j]`. */
  function NumberAt(s: string, i: int, j: int): nat
    requires 0 <= i <= j <= |s| && AllDigits(s[i..j])
  {
    DecimalValue(s[i..j])
  }

  predicate DigitsAt(s: string, i: int, j: int)
    requires 0 <= i <= j <= |s|
  {
    AllDigits(s[i..j])
  }

  /** Exactly four year digits, '-', two month digits, '-', two day digits and
      nothing else; the month must be 1..12 and the day must exist in that
      month of that year.  Anything else is a parse error. */
  function ParseDate(s: string): (r: Option<Date>)
    ensures r.Some? ==> ValidDate(r.value) && 0 <= r.value.year <= 9999
  {
    if |s| != 10 || s[4] != '-' || s[7] != '-' then None
    else if !DigitsAt(s, 0, 4) || !DigitsAt(s, 5, 7) || !DigitsAt(s, 8, 10) then None
    else
      Pad4Bound(s[0..4]);
      var d := Date(NumberAt(s, 0, 4), NumberAt(s, 5, 7), NumberAt(s, 8, 10));
      if 1 <= d.month <= 12 && 1 <= d.day <= DaysIn(d.month, d.year) then Some(d) else None
  }

  lemma {:induction false} DecimalBound(s: string)
    requires AllDigits(s)
    ensures DecimalValue(s) < Pow10(|s|)
  {
    if s != [] {
      DecimalBound(s[..|s| - 1]);
    }
  }

  lemma Pad4Bound(s: string)
    requires |s| == 4 && AllDigits(s)
    ensures DecimalValue(s) <= 9999
  {
    DecimalBound(s);
  }

  /** `n` written with exactly `width` digits, zero-padded on the left. */
  function Pad(n: nat, width: nat): (s: string)
    ensures |s| == width && AllDigits(s)
  {
    if width == 0 then []
    else Pad(n / 10, width - 1) + [DigitChar(n % 10)]
  }

  lemma {:induction false} PadValue(n: nat, width: nat, bound: nat)
    requires bound == Pow10(width) && n < bound
    ensures DecimalValue(Pad(n, width)) == n
  {
    if width > 0 {
      var s := Pad(n, width);
      assert s[..|s| - 1] == Pad(n / 10, width - 1);
      assert n / 10 < Pow10(width - 1);
      PadValue(n / 10, width - 1, Pow10(width - 1));
      assert DecimalValue(s) == DecimalValue(s[..|s| - 1]) * 10 + n % 10;
    }
  }

  function Pow10(k: nat): (p: nat)
    ensures p >= 1
  {
    if k == 0 then 1 else 10 * Pow10(k - 1)
  }

  /** `t.Format("2006-01-02")` for dates with a four-digit year. */
  function FormatDate(d: Date): (s: string)
    requires 0 <= d.year <= 9999 && 1 <= d.month <= 12 && 1 <= d.day <= 31
    ensures |s| == 10
  {
    Pad(d.year, 4) + "-" + Pad(d.month, 2) + "-" + Pad(d.day, 2)
  }

  /** Parsing accepts exactly the canonical text of a valid date: whatever it
      accepts prints back to the same text, and every valid date with a
      four-digit year is read back from its printed form. */
  lemma ParseFormatDate(d: Date)
    requires ValidDate(d) && 0 <= d.year <= 9999
    ensures ParseDate(FormatDate(d)) == Some(d)
  {
    var s := FormatDate(d);
    assert s[0..4] == Pad(d.year, 4);
    assert s[5..7] == Pad(d.month, 2);
    assert s[8..10] == Pad(d.day, 2);
    PadValue(d.year, 4, 10000);
    PadValue(d.month, 2, 100);
    PadValue(d.day, 2, 100);
  }

  lemma FormatParseDate(s: string)
    requires ParseDate(s).Some?
    ensures FormatDate(ParseDate(s).value) == s
  {
    var d := ParseDate(s).value;
    PadOfValue(s[0..4]);
    PadOfValue(s[5..7]);
    PadOfValue(s[8..10]);
    var t := FormatDate(d);
    assert t[0..4] == s[0..4] && t[5..7] == s[5..7] && t[8..10] == s[8..10];
    assert forall i :: 0 <= i < 10 ==> t[i] == s[i] by {
      forall i | 0 <= i < 10 ensures t[i] == s[i] {
        if i < 4 { assert t[i] == t[0..4][i]; }
        else if 5 <= i < 7 { assert t[i] == t[5..7][i - 5]; }
        else if 8 <= i { assert t[i] == t[8..10][i - 8]; }
      }
    }
  }

  /** A string of digits is the zero-padded form of its own value. */
  lemma {:induction false} PadOfValue(s: string)
    requires AllDigits(s)
    ensures Pad(DecimalValue(s), |s|) == s
  {
    if s != [] {
      var init := s[..|s| - 1];
      var n := DecimalValue(s);
      var last := DigitValue(s[|s| - 1]);
      assert n / 10 == DecimalValue(init) && n % 10 == last;
      PadOfValue(init);
      assert s == init + [s[|s| - 1]];
    }
  }

  // ---------------------------------------------------------------------------
  // time.Parse("2006-01-02 15:04", s)
  // ---------------------------------------------------------------------------

  datatype DateTime = DateTime(date: Date, hour: int, minute: int)

  predicate ValidDateTime(dt: DateTime)
  {
    ValidDate(dt.date) && 0 <= dt.hour < 24 && 0 <= dt.minute < 60
  }

  /** The UTC instant a parsed date and time of day denote. */
  function ToTime(dt: DateTime): (t: Time)
    requires ValidDateTime(dt)
    ensures DayOf(t) == DayNumber(dt.date)
    ensures t % SecondsPerDay == dt.hour * SecondsPerHour + dt.minute * 60
  {
    DayNumber(dt.date) * SecondsPerDay + dt.hour * SecondsPerHour + dt.minute * 60
  }

  /** Strips the leading spaces: a space in the layout matches a run of them. */
  function DropSpaces(s: string): (r: string)
    ensures |r| <= |s| && r == s[|s| - |r|..]
    ensures r == [] || r[0] != ' '
  {
    if s != [] && s[0] == ' ' then DropSpaces(s[1..]) else s
  }

  /** "15:04": an hour of one or two digits below 24, ':', a minute of exactly
      two digits below 60, and nothing after it. */
  function ParseClock(s: string): (r: Option<(int, int)>)
    ensures r.Some? ==> 0 <= r.value.0 < 24 && 0 <= r.value.1 < 60
  {
    if s == [] || !IsDigit(s[0]) then None
    else
      var h := if |s| >= 2 && IsDigit(s[1]) then 2 else 1;
      var hour := NumberAt(s, 0, h);
      var rest := s[h..];
      if |rest| != 3 || rest[0] != ':' || !DigitsAt(rest, 1, 3) then None
      else
        var minute := NumberAt(rest, 1, 3);
        if hour < 24 && minute < 60 then Some((hour, minute)) else None
  }

  function ParseDateTime(s: string): (r: Option<DateTime>)
    ensures r.Some? ==> ValidDateTime(r.value)
  {
    if |s| < 10 then None
    else match ParseDate(s[..10])
      case None => None
      case Some(d) =>
        var rest := s[10..];
        if rest == [] || rest[0] != ' ' then None
        else match ParseClock(DropSpaces(rest))
          case None => None
          case Some(hm) => Some(DateTime(d, hm.0, hm.1))
  }

  /** The form's date and "HH:MM" time, joined by one space as the handlers
      join them, parse to that date and time. */
  lemma ParseDateTimeOfForm(d: Date, hour: int, minute: int)
    requires ValidDate(d) && 0 <= d.year <= 9999 && 0 <= hour < 24 && 0 <= minute < 60
    ensures ParseDateTime(FormatDate(d) + " " + Pad(hour, 2) + ":" + Pad(minute, 2))
            == Some(DateTime(d, hour, minute))
  {
    var c := Pad(hour, 2) + ":" + Pad(minute, 2);
    var s := FormatDate(d) + " " + c;
    assert FormatDate(d) + " " + Pad(hour, 2) + ":" + Pad(minute, 2) == s;
    assert s[..10] == FormatDate(d);
    ParseFormatDate(d);
    assert ParseDate(s[..10]) == Some(d);
    assert s[10..] == " " + c;
    assert DropSpaces(s[10..]) == c by {
      assert (" " + c)[1..] == c;
      assert c[0] != ' ';
    }
    ParseClockOfForm(hour, minute);
  }

  lemma ParseClockOfForm(hour: int, minute: int)
    requires 0 <= hour < 24 && 0 <= minute < 60
    ensures ParseClock(Pad(hour, 2) + ":" + Pad(minute, 2)) == Some((hour, minute))
  {
    JoinedClockSlices(Pad(hour, 2), Pad(minute, 2));
    PadValue(hour, 2, 100);
    PadValue(minute, 2, 100);
  }

  lemma JoinedClockSlices(hh: string, mm: string)
    requires |hh| == 2 && |mm| == 2
    ensures (hh + ":" + mm)[0..2] == hh && (hh + ":" + mm)[2..] == ":" + mm && (":" + mm)[1..3] == mm
  {
  }

  // ---------------------------------------------------------------------------
  // time.Parse(time.RFC3339, s), as gin binds a `time.Time` form field
  // ---------------------------------------------------------------------------

  function DropDigits(s: string): (r: string)
    ensures |r| <= |s| && (r == [] || !IsDigit(r[0]))
  {
    if s != [] && IsDigit(s[0]) then DropDigits(s[1..]) else s
  }

  /** A fraction of a second, '.' or ',' and at least one digit, which Go's
      parser takes after the seconds although the layout has none. */
  function DropFraction(s: string): (r: string)
    ensures |r| <= |s|
  {
    if |s| >= 2 && (s[0] == '.' || s[0] == ',') && IsDigit(s[1]) then DropDigits(s[1..]) else s
  }

  /** "Z07:00": the letter Z, or a sign, two hour digits up to 24, ':' and two
      minute digits up to 60. */
  predicate IsZone(z: string)
  {
    z == "Z" ||
    (|z| == 6 && (z[0] == '+' || z[0] == '-') && z[3] == ':' && DigitsAt(z, 1, 3) && DigitsAt(z, 4, 6) &&
     NumberAt(z, 1, 3) <= 24 && NumberAt(z, 4, 6) <= 60)
  }

  /** "15:04:05" (an hour of one or two digits below 24, minutes and seconds of
      exactly two digits below 60), an optional fraction, then the zone and
      nothing after it. */
  predicate IsClockAndZone(s: string)
  {
    s != [] && IsDigit(s[0]) &&
    var h := if |s| >= 2 && IsDigit(s[1]) then 2 else 1;
    var rest := s[h..];
    DigitsAt(s, 0, h) && NumberAt(s, 0, h) < 24 &&
    |rest| >= 6 && rest[0] == ':' && rest[3] == ':' && DigitsAt(rest, 1, 3) && DigitsAt(rest, 4, 6) &&
    NumberAt(rest, 1, 3) < 60 && NumberAt(rest, 4, 6) < 60 &&
    IsZone(DropFraction(rest[6..]))
  }

  /** Whether Go's `time.Parse(time.RFC3339, s)` succeeds: a date as
      `ParseDate` reads it, the letter 'T', then the time of day and zone. */
  predicate IsRFC3339(s: string)
  {
    |s| >= 11 && ParseDate(s[..10]).Some? && s[10] == 'T' && IsClockAndZone(s[11..])
  }

  /** Accepted and refused instances: UTC and offset forms, a one-digit hour
      and a comma fraction are accepted; a space for 'T', a day the month
      lacks, a missing zone and plain words are refused. */
  lemma RFC3339Examples()
    ensures IsRFC3339("2024-01-05T10:30:00Z")
    ensures IsRFC3339("2024-01-05T9:30:00,25-03:00")
    ensures !IsRFC3339("2024-01-05 10:30:00Z")
    ensures !IsRFC3339("2023-02-29T10:30:00Z")
    ensures !IsRFC3339("2024-01-05T10:30:00")
    ensures !IsRFC3339("yesterday")
  {
    UtcAccepted();
    OffsetAccepted();
    LeapDayRefused();
    SpaceRefused();
    NoZoneRefused();
  }

  lemma SpaceRefused()
    ensures !IsRFC3339("2024-01-05 10:30:00Z")
  {
    var s := "2024-01-05 10:30:00Z";
    assert s[10] == ' ';
  }

  lemma NoZoneRefused()
    ensures !IsRFC3339("2024-01-05T10:30:00")
  {
    var s := "2024-01-05T10:30:00";
    var c := s[11..];
    assert c == "10:30:00" && c[2..] == ":30:00" && c[2..][6..] == [];
    assert !IsZone([]);
  }

  lemma UtcAccepted()
    ensures IsRFC3339("2024-01-05T10:30:00Z")
  {
    var utc := "2024-01-05T10:30:00Z";
    DateOf20240105(utc);
    assert utc[..10] == "2024-01-05" && utc[10] == 'T' && utc[11..] == "10:30:00Z";
    UtcClock();
  }

  lemma UtcClock()
    ensures IsClockAndZone("10:30:00Z")
  {
    var c := "10:30:00Z";
    assert c[2..] == ":30:00Z" && c[2..][6..] == "Z";
    TwoDigitValue(c, 0); TwoDigitValue(c[2..], 1); TwoDigitValue(c[2..], 4);
  }

  lemma OffsetAccepted()
    ensures IsRFC3339("2024-01-05T9:30:00,25-03:00")
  {
    var off := "2024-01-05T9:30:00,25-03:00";
    DateOf20240105(off);
    assert off[..10] == "2024-01-05" && off[10] == 'T' && off[11..] == "9:30:00,25-03:00";
    OffsetClock();
  }

  lemma OffsetClock()
    ensures IsClockAndZone("9:30:00,25-03:00")
  {
    var d := "9:30:00,25-03:00";
    assert d[1..] == ":30:00,25-03:00";
    assert d[0..1] == "9";
    assert DecimalValue("9") == 9 by { assert "9"[..0] == []; }
    TwoDigitValue(d[1..], 1); TwoDigitValue(d[1..], 4);
    assert d[1..][6..] == ",25-03:00";
    CommaFractionZone();
  }

  lemma CommaFractionZone()
    ensures IsZone(DropFraction(",25-03:00"))
  {
    var z := ",25-03:00";
    var a := z[1..];
    assert a == "25-03:00" && a[1..] == "5-03:00" && a[1..][1..] == "-03:00";
    assert DropDigits("-03:00") == "-03:00";
    assert DropDigits(a[1..]) == DropDigits(a[1..][1..]);
    assert DropFraction(z) == DropDigits(a);
    TwoDigitValue("-03:00", 1); TwoDigitValue("-03:00", 4);
  }

  lemma LeapDayRefused()
    ensures !IsRFC3339("2023-02-29T10:30:00Z")
  {
    var leap := "2023-02-29T10:30:00Z";
    assert leap[..10] == "2023-02-29";
    NoLeapDay2023();
  }

  lemma NoLeapDay2023()
    ensures ParseDate("2023-02-29") == None
  {
    var t := "2023-02-29";
    FourDigitValue(t, 0); TwoDigitValue(t, 5); TwoDigitValue(t, 8);
    assert NumberAt(t, 0, 4) == 2023 && NumberAt(t, 5, 7) == 2 && NumberAt(t, 8, 10) == 29;
    Year2023Common();
  }

  lemma Year2023Common()
    ensures DaysIn(2, 2023) == 28
  {
    assert 2023 % 4 == 3;
  }

  lemma DateOf20240105(s: string)
    requires |s| >= 10 && s[..10] == "2024-01-05"
    ensures ParseDate(s[..10]) == Some(Date(2024, 1, 5))
  {
    var t := s[..10];
    FourDigitValue(t, 0); TwoDigitValue(t, 5); TwoDigitValue(t, 8);
  }

  lemma TwoDigitValue(s: string, i: nat)
    requires i + 2 <= |s| && IsDigit(s[i]) && IsDigit(s[i + 1])
    ensures DigitsAt(s, i, i + 2) && NumberAt(s, i, i + 2) == DigitValue(s[i]) * 10 + DigitValue(s[i + 1])
  {
    var t := s[i..i + 2];
    assert t[..1] == [s[i]] && t[..1][..0] == [] && t[1] == s[i + 1];
    assert DecimalValue(t[..1]) == DigitValue(s[i]);
  }

  lemma FourDigitValue(s: string, i: nat)
    requires i + 4 <= |s| && forall k :: i <= k < i + 4 ==> IsDigit(s[k])
    ensures DigitsAt(s, i, i + 4) &&
      NumberAt(s, i, i + 4) == ((DigitValue(s[i]) * 10 + DigitValue(s[i + 1])) * 10 + DigitValue(s[i + 2])) * 10 + DigitValue(s[i + 3])
  {
    var t := s[i..i + 4];
    assert t[0] == s[i];
    assert t[..3][..2] == t[..2] && t[..2][..1] == [s[i]] && t[..2][..1][..0] == [];
    assert t[..2][1] == s[i + 1] && t[..3][2] == s[i + 2] && t[3] == s[i + 3];
    assert DecimalValue(t[..2][..1]) == DigitValue(s[i]);
    assert DecimalValue(t[..2]) == DigitValue(s[i]) * 10 + DigitValue(s[i + 1]);
    assert DecimalValue(t[..3]) == (DigitValue(s[i]) * 10 + DigitValue(s[i + 1])) * 10 + DigitValue(s[i + 2]);
  }
}

=== FILE: patient_handlers.dfy ===
/** Registering a patient: the secretary's form creates the row together with
    a fresh portal token, 32 random bytes written as 64 lowercase hex digits. */
module PatientHandlers {
  import opened Prelude
  import opened Strconv
  import opened Clock
  import opened Storage
  import opened Web
  import opened PortalHandlers

  newtype byte = x: int | 0 <= x < 256

  // ---------------------------------------------------------------------------
  // `encoding/hex`
  // ---------------------------------------------------------------------------

  const HexAlphabet: string := "0123456789abcdef"

  function HexDigit(v: int): (c: char)
    requires 0 <= v < 16
    ensures c in HexAlphabet
  {
    HexAlphabet[v]
  }

  /** The value of a hex digit as `hex.DecodeString` reads it (either case). */
  function HexValue(c: char): (r: Option<int>)
    ensures r.Some? ==> 0 <= r.value < 16
  {
    if '0' <= c <= '9' then Some(c as int - '0' as int)
    else if 'a' <= c <= 'f' then Some(c as int - 'a' as int + 10)
    else if 'A' <= c <= 'F' then Some(c as int - 'A' as int + 10)
    else None
  }

  /** `hex.EncodeToString`: two lowercase digits per byte, high nibble first. */
  function EncodeToString(b: seq<byte>): (s: string)
    ensures |s| == 2 * |b|
    ensures forall i :: 0 <= i < |s| ==> s[i] in HexAlphabet
  {
    if b == [] then ""
    else [HexDigit(b[0] as int / 16), HexDigit(b[0] as int % 16)] + EncodeToString(b[1..])
  }

  /** `hex.DecodeString`: `None` for an odd length or a non-hex character. */
  function DecodeString(s: string): (r: Option<seq<byte>>)
    ensures r.Some? ==> 2 * |r.value| == |s|
  {
    if s == [] then Some([])
    else if |s| == 1 then None
    else
      match (HexValue(s[0]), HexValue(s[1]), DecodeString(s[2..]))
      case (Some(hi), Some(lo), Some(rest)) => Some([(hi * 16 + lo) as byte] + rest)
      case _ => None
  }

  lemma HexDigitValue(v: int)
    requires 0 <= v < 16
    ensures HexValue(HexDigit(v)) == Some(v)
  {
  }

  lemma DecodePair(c0: char, c1: char, rest: string, hi: int, lo: int, tail: seq<byte>)
    requires HexValue(c0) == Some(hi) && HexValue(c1) == Some(lo)
    requires DecodeString(rest) == Some(tail)
    ensures DecodeString([c0, c1] + rest) == Some([(hi * 16 + lo) as byte] + tail)
  {
    var s := [c0, c1] + rest;
    assert s[0] == c0 && s[1] == c1 && s[2..] == rest;
  }

  lemma Nibbles(x: int)
    requires 0 <= x < 256
    ensures 0 <= x / 16 < 16 && 0 <= x % 16 < 16 && (x / 16) * 16 + x % 16 == x
  {
  }

  /** Decoding undoes encoding. */
  lemma {:induction false} DecodeEncode(b: seq<byte>)
    ensures DecodeString(EncodeToString(b)) == Some(b)
  {
    if b != [] {
      var x := b[0] as int;
      var hi, lo := x / 16, x % 16;
      Nibbles(x);
      HexDigitValue(hi);
      HexDigitValue(lo);
      var rest := EncodeToString(b[1..]);
      assert EncodeToString(b) == [HexDigit(hi), HexDigit(lo)] + rest;
      DecodeEncode(b[1..]);
      DecodePair(HexDigit(hi), HexDigit(lo), rest, hi, lo, b[1..]);
      assert [(hi * 16 + lo) as byte] + b[1..] == b;
    }
  }

  /** Different bytes give different tokens. */
  lemma EncodeInjective(a: seq<byte>, b: seq<byte>)
    requires EncodeToString(a) == EncodeToString(b)
    ensures a == b
  {
    DecodeEncode(a);
    DecodeEncode(b);
  }

  // ---------------------------------------------------------------------------
  // `generateSecureToken`
  // ---------------------------------------------------------------------------

  /** The operating system's random source: unavailable, or the bytes it would
      hand out next. */
  datatype Entropy = Unavailable | Stream(bytes: seq<byte>)

  predicate Supplies(rng: Entropy, n: int)
  {
    rng.Stream? && n <= |rng.bytes|
  }

  /** `rand.Read(buf)`: fills the whole buffer or reports an error. */
  method ReadRandom(buf: array<byte>, rng: Entropy) returns (err: bool)
    modifies buf
    ensures err <==> !Supplies(rng, buf.Length)
    ensures !err ==> buf[..] == rng.bytes[..buf.Length]
    ensures err ==> buf[..] == old(buf[..])
  {
    if !Supplies(rng, buf.Length) {
      return true;
    }
    var i := 0;
    while i < buf.Length
      invariant 0 <= i <= buf.Length
      invariant buf[..i] == rng.bytes[..i]
    {
      buf[i] := rng.bytes[i];
      i := i + 1;
    }
    return false;
  }

  /** The token `generateSecureToken(length)` yields, or `None` on error. */
  function SecureToken(length: nat, rng: Entropy): (t: Option<string>)
    ensures t.Some? <==> Supplies(rng, length)
  {
    if Supplies(rng, length) then Some(EncodeToString(rng.bytes[..length])) else None
  }

  method GenerateSecureToken(length: nat, rng: Entropy) returns (token: string, err: bool)
    ensures err <==> !Supplies(rng, length)
    ensures !err ==> token == EncodeToString(rng.bytes[..length]) && |token| == 2 * length
    ensures err ==> token == ""
  {
    var bytes := new byte[length];
    var readErr := ReadRandom(bytes, rng);
    if readErr {
      return "", true;
    }
    return EncodeToString(bytes[..]), false;
  }

  /** What a token is: twice as many lowercase hex digits as random bytes,
      decoding back to exactly those bytes, so distinct bytes give distinct
      tokens. */
  lemma SecureTokenShape(length: nat, rng: Entropy)
    requires Supplies(rng, length)
    ensures var t := SecureToken(length, rng).value;
      |t| == 2 * length &&
      (forall i :: 0 <= i < |t| ==> t[i] in HexAlphabet) &&
      DecodeString(t) == Some(rng.bytes[..length])
  {
    DecodeEncode(rng.bytes[..length]);
  }

  lemma SecureTokensDiffer(length: nat, a: Entropy, b: Entropy)
    requires Supplies(a, length) && Supplies(b, length)
    requires a.bytes[..length] != b.bytes[..length]
    ensures SecureToken(length, a) != SecureToken(length, b)
  {
    if SecureToken(length, a) == SecureToken(length, b) {
      EncodeInjective(a.bytes[..length], b.bytes[..length]);
    }
  }

  // ---------------------------------------------------------------------------
  // `CreatePatient`
  // ---------------------------------------------------------------------------

  /** Random bytes per token. */
  const TokenBytes: nat := 32

  /** Form fields bound into Go `int` fields of the patient struct; `ID` has
      no `form` tag, so gin binds it under the field's own name. */
  const PatientIntFields: seq<string> :=
    ["age", "num_children", "anxiety_level", "anger_level", "fear_level",
     "sadness_level", "joy_level", "energy_level", "ID"]

  /** How gin binds a `time.Time` field without a `time_format` tag: an empty
      field is the zero time, anything else must parse as RFC 3339. */
  predicate TimeBinds(text: string)
  {
    text == "" || IsRFC3339(text)
  }

  datatype NewPatientForm = NewPatientForm(name: string, email: string, phone: string, mobile: string)

  /** Whether `c.ShouldBind(&patient)` succeeds on the registration form: the
      string fields always bind, the `int` and `time.Time` fields can fail.  The
      two `time.Time` fields, `CreatedAt` and `UpdatedAt`, have no `form` tag
      and bind under their field names. */
  predicate PatientBinds(form: Form)
  {
    (forall i :: 0 <= i < |PatientIntFields| ==> BindInt(PostForm(form, PatientIntFields[i])).Some?) &&
    TimeBinds(PostForm(form, "CreatedAt")) && TimeBinds(PostForm(form, "UpdatedAt"))
  }

  /** `c.ShouldBind(&patient)` on the registration form; of the result the
      handler uses name, e-mail and phones. */
  function BindNewPatient(form: Form): (r: Option<NewPatientForm>)
    ensures r.Some? <==>
      && (forall i :: 0 <= i < |PatientIntFields| ==> BindInt(PostForm(form, PatientIntFields[i])).Some?)
      && TimeBinds(PostForm(form, "CreatedAt")) && TimeBinds(PostForm(form, "UpdatedAt"))
    ensures r.Some? ==> r.value.name == PostForm(form, "client_name") && r.value.email == PostForm(form, "email")
  {
    if PatientBinds(form) then
      Some(NewPatientForm(PostForm(form, "client_name"), PostForm(form, "email"),
                          PostForm(form, "phone"), PostForm(form, "mobile")))
    else None
  }

  const DashboardPath: string := "/secretaria/dashboard"
  const TokenPagePrefix: string := "/secretaria/pacientes/token/"

  /** `CreatePatient` as a state transition returning the redirect target: any
      failure (binding, randomness, insert) goes back to the dashboard without
      a change; success shows the new patient's token page. */
  function CreateStep(s: DbState, form: Form, rng: Entropy, now: Time, fault: bool): (r: (DbState, string))
    ensures r.1 == DashboardPath ==> r.0 == s
  {
    match BindNewPatient(form)
    case None => (s, DashboardPath)
    case Some(p) =>
      match SecureToken(TokenBytes, rng)
      case None => (s, DashboardPath)
      case Some(token) =>
        var (t, id) := InsertPatient(s, p.name, p.email, p.phone, p.mobile, token, now, fault);
        if id.None? then (s, DashboardPath) else (t, TokenPagePrefix + Itoa(id.value))
  }

  method CreatePatient(db: Database, form: Form, rng: Entropy, now: Time, fault: bool) returns (location: string)
    modifies db
    ensures (db.State(), location) == CreateStep(old(db.State()), form, rng, now, fault)
  {
    var patient := BindNewPatient(form);
    if patient.None? {
      return DashboardPath;
    }
    var token, err := GenerateSecureToken(TokenBytes, rng);
    if err {
      return DashboardPath;
    }
    var p := patient.value;
    var id := db.ExecInsertPatient(p.name, p.email, p.phone, p.mobile, token, now, fault);
    if id.None? {
      return DashboardPath;
    }
    return TokenPagePrefix + Itoa(id.value);
  }

  /** A registered patient holds a fresh 64-digit token that fits its column,
      has not consented, and can open the portal with that token at once; the
      redirect names the new id; the schema's guarantees still hold. */
  lemma CreatedPatientCanLogIn(s: DbState, form: Form, rng: Entropy, now: Time, fault: bool)
    requires Consistent(s)
    ensures var r := CreateStep(s, form, rng, now, fault);
      Consistent(r.0) && ConsentKept(s, r.0)
    ensures var r := CreateStep(s, form, rng, now, fault);
      r.1 != DashboardPath ==>
        var id := s.nextPatientId;
        && r.1 == TokenPagePrefix + Itoa(id)
        && id !in s.patients && id in r.0.patients
        && r.0.patients[id].accessToken == SecureToken(TokenBytes, rng)
        && |SecureToken(TokenBytes, rng).value| == TokenColumnWidth
        && r.0.patients[id].consentGivenAt.None?
        && LoginStep(r.0, SecureToken(TokenBytes, rng).value, false) == Some(id)
  {
    var r := CreateStep(s, form, rng, now, fault);
    var p := BindNewPatient(form);
    if p.Some? && SecureToken(TokenBytes, rng).Some? {
      var token := SecureToken(TokenBytes, rng).value;
      InsertPatientKeepsConsistent(s, p.value.name, p.value.email, p.value.phone, p.value.mobile, token, now, fault);
      if r.1 != DashboardPath {
        var id := s.nextPatientId;
        assert r.0.patients[id].accessToken == Some(token);
        TokenLookupFindsOwner(r.0, token, id);
      }
    }
  }

  /** The id in the redirect reads back as the new patient's id. */
  lemma RedirectNamesNewPatient(s: DbState, form: Form, rng: Entropy, now: Time, fault: bool)
    requires InInt64(s.nextPatientId)
    ensures var r := CreateStep(s, form, rng, now, fault);
      r.1 != DashboardPath ==>
        |TokenPagePrefix| <= |r.1| && r.1[..|TokenPagePrefix|] == TokenPagePrefix &&
        Atoi(r.1[|TokenPagePrefix|..]) == Parsed(s.nextPatientId)
  {
    var r := CreateStep(s, form, rng, now, fault);
    if r.1 != DashboardPath {
      AtoiItoa(s.nextPatientId);
      assert r.1[|TokenPagePrefix|..] == Itoa(s.nextPatientId);
    }
  }

  /** A phone longer than its `VARCHAR(50)` column, other than by trailing
      spaces, makes PostgreSQL refuse the INSERT: the handler goes back to the
      dashboard and nothing is written. */
  lemma OverlongPhoneRefused(s: DbState, form: Form, rng: Entropy, now: Time, fault: bool)
    requires exists i :: NarrowColumn <= i < |PostForm(form, "phone")| && PostForm(form, "phone")[i] != ' '
    ensures CreateStep(s, form, rng, now, fault) == (s, DashboardPath)
  {
    var p := BindNewPatient(form);
    if p.Some? {
      assert p.value.phone == PostForm(form, "phone");
      assert Varchar(p.value.phone, NarrowColumn).None?;
    }
  }

  /** A request carrying a `CreatedAt` field that is not an RFC 3339 time
      (`CreatedAt=yesterday`) fails to bind, so nothing is written; a non-numeric
      `ID` field likewise. */
  lemma MalformedUntaggedFieldRefused(s: DbState, form: Form, rng: Entropy, now: Time, fault: bool)
    requires PostForm(form, "CreatedAt") == "yesterday" || PostForm(form, "ID") == "abc"
    ensures CreateStep(s, form, rng, now, fault) == (s, DashboardPath)
  {
    if PostForm(form, "CreatedAt") == "yesterday" {
      assert !TimeBinds("yesterday");
    } else {
      AtoiWithoutDigits("abc");
      assert !BindInt(PostForm(form, PatientIntFields[8])).Some?;
    }
    assert BindNewPatient(form).None?;
  }

  /** A form whose age is not a number is refused before anything is written. */
  lemma NonNumericAgeRefused(s: DbState, form: Form, rng: Entropy, now: Time, fault: bool)
    requires PostForm(form, "age") != "" && !Atoi(PostForm(form, "age")).Parsed?
    ensures CreateStep(s, form, rng, now, fault) == (s, DashboardPath)
  {
    assert PatientIntFields[0] == "age";
  }
}

=== FILE: portal_handlers.dfy ===
/** The patient portal: a patient opens a session with the one-time token the
    clinic issued, then signs the consent form.  A token opens a session only
    while its patient has not consented, so recording consent retires it. */
module PortalHandlers {
  import opened Prelude
  import opened Clock
  import opened Strconv
  import opened Storage
  import opened Web
  import opened ValidationHelper

  /** The session key holding the patient's id. */
  const PatientKey: string := "patient_id"

  // ---------------------------------------------------------------------------
  // Token login
  // ---------------------------------------------------------------------------

  /** The login query's condition: `access_token = $1 AND consent_given_at IS NULL`. */
  predicate TokenOpens(p: Patient, token: string)
  {
    p.accessToken == Some(token) && p.consentGivenAt.None?
  }

  function FirstOpened(ids: seq<int>, patients: map<int, Patient>, token: string): (r: Option<int>)
    requires forall i :: 0 <= i < |ids| ==> ids[i] in patients
    ensures r.Some? ==> r.value in ids && TokenOpens(patients[r.value], token)
    ensures r.None? ==> forall i :: 0 <= i < |ids| ==> !TokenOpens(patients[ids[i]], token)
  {
    if ids == [] then None
    else if TokenOpens(patients[ids[0]], token) then Some(ids[0])
    else
      var r := FirstOpened(ids[1..], patients, token);
      assert forall i :: 1 <= i < |ids| ==> ids[i] == ids[1..][i - 1];
      r
  }

  /** `SELECT id FROM patients WHERE access_token = $1 AND consent_given_at IS NULL`
      read with `QueryRow`: the first matching row, if any. */
  function TokenLookup(s: DbState, token: string): (r: Option<int>)
    ensures r.Some? ==> r.value in s.patients && TokenOpens(s.patients[r.value], token)
    ensures r.None? ==> forall id :: id in s.patients ==> !TokenOpens(s.patients[id], token)
  {
    var ids := SortedIds(s.patients.Keys);
    var r := FirstOpened(ids, s.patients, token);
    assert r.None? ==> forall id :: id in s.patients ==> !TokenOpens(s.patients[id], token) by {
      if r.None? {
        forall id | id in s.patients ensures !TokenOpens(s.patients[id], token) {
          var i :| 0 <= i < |ids| && ids[i] == id;
        }
      }
    }
    r
  }

  /** Since tokens are unique, the token of a patient who has not consented
      opens exactly that patient's session. */
  lemma TokenLookupFindsOwner(s: DbState, token: string, id: int)
    requires Consistent(s)
    requires id in s.patients && TokenOpens(s.patients[id], token)
    ensures TokenLookup(s, token) == Some(id)
  {
    var r := TokenLookup(s, token);
    assert r.Some?;
  }

  /** The patient whose session a login attempt opens, or `None` when the
      answer is 401 (unknown token, token already used, or a failed query). */
  function LoginStep(s: DbState, token: string, fault: bool): (r: Option<int>)
    ensures r.Some? ==> r.value in s.patients && s.patients[r.value].accessToken == Some(token)
    ensures r.Some? ==> s.patients[r.value].consentGivenAt.None?
  {
    if fault then None else TokenLookup(s, token)
  }

  /** `ProcessTokenLogin`: on success stores the patient id in the session and
      redirects to the consent form; otherwise answers 401 and leaves the
      session alone. */
  method ProcessTokenLogin(db: Database, session: Session, token: string, fault: bool)
    returns (status: int, location: string)
    modifies session
    ensures var r := LoginStep(db.State(), token, fault);
      && (r.None? ==> status == StatusUnauthorized && session.values == old(session.values))
      && (r.Some? ==> status == StatusFound && location == "/portal/consent" &&
                      session.values == old(session.values)[PatientKey := IntValue(r.value)])
    ensures session.flashes == old(session.flashes)
  {
    var found := if fault then None else TokenLookup(db.State(), token);
    if found.None? {
      return StatusUnauthorized, "";
    }
    session.Set(PatientKey, IntValue(found.value));
    return StatusFound, "/portal/consent";
  }

  // ---------------------------------------------------------------------------
  // The full-name pattern `^[\p{L}´]+\s[\p{L}´\s]+$`
  // ---------------------------------------------------------------------------

  /** `\p{L}`, for the Latin scripts: ASCII letters, the Latin-1 letters
      (ª µ º À–Ö Ø–ö ø–ÿ) and Latin Extended-A and -B (U+0100–U+024F). */
  predicate IsLetter(c: char)
  {
    ('A' <= c <= 'Z') || ('a' <= c <= 'z') ||
    c == '\U{AA}' || c == '\U{B5}' || c == '\U{BA}' ||
    ('\U{C0}' <= c <= '\U{D6}') || ('\U{D8}' <= c <= '\U{F6}') || ('\U{F8}' <= c <= '\U{24F}')
  }

  /** `[\p{L}´]`: a letter or the acute accent U+00B4. */
  predicate IsNameChar(c: char) { IsLetter(c) || c == '\U{B4}' }

  /** RE2's `\s`: tab, newline, form feed, carriage return, space. */
  predicate IsRegexSpace(c: char)
  {
    c == ' ' || c == '\t' || c == '\n' || c == '\U{C}' || c == '\r'
  }

  predicate AllNameChars(s: string) { forall i :: 0 <= i < |s| ==> IsNameChar(s[i]) }

  predicate AllNameCharsOrSpaces(s: string)
  {
    forall i :: 0 <= i < |s| ==> IsNameChar(s[i]) || IsRegexSpace(s[i])
  }

  /** The pattern read literally: some non-empty run of name characters, one
      whitespace character, then a non-empty run of name characters and
      whitespace reaching the end of the text. */
  ghost predicate FullNamePattern(s: string)
  {
    exists k :: 1 <= k && k + 1 < |s| && AllNameChars(s[..k]) && IsRegexSpace(s[k]) &&
      AllNameCharsOrSpaces(s[k + 1..])
  }

  function LeadingNameChars(s: string): (k: nat)
    ensures k <= |s| && AllNameChars(s[..k])
    ensures k < |s| ==> !IsNameChar(s[k])
  {
    if s == [] || !IsNameChar(s[0]) then 0
    else
      var k := 1 + LeadingNameChars(s[1..]);
      assert s[..k] == [s[0]] + s[1..][..k - 1];
      k
  }

  /** `nameRegex.MatchString`: the first group cannot hold whitespace, so the
      whitespace it is followed by must be the first character that is not a
      name character. */
  function MatchesFullName(s: string): (ok: bool)
    ensures ok <==> FullNamePattern(s)
  {
    var k := LeadingNameChars(s);
    var ok := 1 <= k && k + 1 < |s| && IsRegexSpace(s[k]) && AllNameCharsOrSpaces(s[k + 1..]);
    assert FullNamePattern(s) ==> ok by {
      if FullNamePattern(s) {
        var j :| 1 <= j && j + 1 < |s| && AllNameChars(s[..j]) && IsRegexSpace(s[j]) &&
          AllNameCharsOrSpaces(s[j + 1..]);
        assert !IsNameChar(s[j]);
        assert forall i :: 0 <= i < j ==> IsNameChar(s[i]) by {
          forall i | 0 <= i < j ensures IsNameChar(s[i]) { assert s[..j][i] == s[i]; }
        }
        assert forall i :: 0 <= i < k ==> IsNameChar(s[i]) by {
          forall i | 0 <= i < k ensures IsNameChar(s[i]) { assert s[..k][i] == s[i]; }
        }
        assert j == k;
      }
    }
    assert ok ==> FullNamePattern(s) by {
      if ok {
        assert 1 <= k && k + 1 < |s| && AllNameChars(s[..k]) && IsRegexSpace(s[k]) &&
          AllNameCharsOrSpaces(s[k + 1..]);
      }
    }
    ok
  }

  /** A single word, however long, is not a full name. */
  lemma SingleWordRejected(s: string)
    requires forall i :: 0 <= i < |s| ==> !IsRegexSpace(s[i])
    ensures !MatchesFullName(s)
  {
  }

  /** Digits are refused anywhere in the name. */
  lemma DigitRejected(s: string, i: int)
    requires 0 <= i < |s| && IsDigit(s[i])
    ensures !MatchesFullName(s)
  {
  }

  /** Two words of name characters separated by a space are a full name. */
  lemma TwoWordsAccepted(first: string, last: string)
    requires first != [] && last != [] && AllNameChars(first) && AllNameChars(last)
    ensures MatchesFullName(first + " " + last)
  {
    var s := first + " " + last;
    assert s[..|first|] == first;
    assert s[|first|] == ' ';
    assert s[|first| + 1..] == last;
  }

  lemma SilvaExample()
    ensures MatchesFullName("Maria Silva")
    ensures !MatchesFullName("Maria")
    ensures !MatchesFullName(" Maria Silva")
  {
    TwoWordsAccepted("Maria", "Silva");
    assert "Maria" + " " + "Silva" == "Maria Silva";
    SingleWordRejected("Maria");
    assert LeadingNameChars(" Maria Silva") == 0;
  }

  // ---------------------------------------------------------------------------
  // Consent form
  // ---------------------------------------------------------------------------

  const NameError: string := "Por favor, insira o nome completo, sem números ou caracteres especiais."
  const CpfError: string := "O CPF informado é inválido. Por favor, verifique."
  const ConsentAction: string := "Paciente forneceu o termo de consentimento através do portal."

  /** The errors shown above the form, keyed by field. */
  function ConsentErrors(name: string, cpf: string): (errors: map<string, string>)
    ensures "Name" in errors <==> !MatchesFullName(name)
    ensures "CPF" in errors <==> !IsValidCPF(cpf)
    ensures errors.Keys <= {"Name", "CPF"}
  {
    (if MatchesFullName(name) then map[] else map["Name" := NameError]) +
    (if IsValidCPF(cpf) then map[] else map["CPF" := CpfError])
  }

  datatype ConsentOutcome =
    | NotAPatientSession                                       // returns without a response
    | FormRejected(errors: map<string, string>, nameValue: string, cpfValue: string)  // 400, form again
    | SaveFailed                                               // returns without a response
    | ConsentRecorded                                          // 302 to /portal/success

  /** `ProcessConsentForm` as a state transition: the session value must be an
      int; the form is re-shown with its inputs on a bad name or CPF; otherwise
      the patient row is stamped with the consent, and only a successful update
      is audited. */
  function ConsentStep(s: DbState, sessionValue: Option<SessionValue>, name: string, cpf: string,
                       howFound: string, now: Time, fault: bool): (r: (DbState, ConsentOutcome))
    ensures r.1 != ConsentRecorded ==> r.0 == s
  {
    if !(sessionValue.Some? && sessionValue.value.IntValue?) then (s, NotAPatientSession)
    else
      var pid := sessionValue.value.n;
      var errors := ConsentErrors(name, cpf);
      if |errors| > 0 then (s, FormRejected(errors, name, cpf))
      else
        var (t, e) := UpdatePatient(s, pid, ConsentEdit(name, DigitsOnly(cpf), howFound, now), fault);
        if e == Failed then (s, SaveFailed)
        else (AppendAudit(t, AuditEntry(ConsentAction, "Paciente", pid)), ConsentRecorded)
  }

  /** The handler's validation block: one message per failing field. */
  method ValidateConsent(name: string, cpf: string) returns (errors: map<string, string>)
    ensures errors == ConsentErrors(name, cpf)
  {
    errors := map[];
    if !MatchesFullName(name) {
      errors := errors["Name" := NameError];
    }
    var cpfOk := IsCPFValid(cpf);
    if !cpfOk {
      errors := errors["CPF" := CpfError];
    }
  }

  method ProcessConsentForm(db: Database, session: Session, name: string, cpf: string,
                            howFound: string, now: Time, fault: bool) returns (outcome: ConsentOutcome)
    modifies db
    ensures (db.State(), outcome) == ConsentStep(old(db.State()), session.Get(PatientKey), name, cpf, howFound, now, fault)
  {
    var v := session.Get(PatientKey);
    if !(v.Some? && v.value.IntValue?) {
      return NotAPatientSession;
    }
    var pid := v.value.n;

    var errors := ValidateConsent(name, cpf);
    if |errors| > 0 {
      return FormRejected(errors, name, cpf);
    }

    var cpfClean := DigitsOnly(cpf);
    var e := db.ExecUpdatePatient(pid, ConsentEdit(name, cpfClean, howFound, now), fault);
    if e == Failed {
      return SaveFailed;
    }
    db.ExecAppendAudit(AuditEntry(ConsentAction, "Paciente", pid));
    return ConsentRecorded;
  }

  /** A rejected form changes nothing, names exactly the fields that are wrong,
      and echoes what was typed. */
  lemma ConsentRejection(s: DbState, pid: int, name: string, cpf: string, howFound: string, now: Time, fault: bool)
    ensures var r := ConsentStep(s, Some(IntValue(pid)), name, cpf, howFound, now, fault);
      r.1.FormRejected? <==> !MatchesFullName(name) || !IsValidCPF(cpf)
    ensures var r := ConsentStep(s, Some(IntValue(pid)), name, cpf, howFound, now, fault);
      r.1.FormRejected? ==>
        r.0 == s && r.1.nameValue == name && r.1.cpfValue == cpf &&
        ("Name" in r.1.errors <==> !MatchesFullName(name)) && ("CPF" in r.1.errors <==> !IsValidCPF(cpf))
  {
    var errors := ConsentErrors(name, cpf);
    if MatchesFullName(name) && IsValidCPF(cpf) {
      assert errors == map[];
    } else {
      assert "Name" in errors || "CPF" in errors;
    }
  }

  /** What a recorded consent leaves behind: the patient row carries the name,
      the CPF's eleven digits without separators, the consent instant and the
      day of signature, and nothing else about it changes; one audit entry is
      added; the schema's guarantees still hold. */
  lemma ConsentRecordedEffects(s: DbState, pid: int, name: string, cpf: string, howFound: string,
                               now: Time, fault: bool)
    requires Consistent(s)
    ensures var r := ConsentStep(s, Some(IntValue(pid)), name, cpf, howFound, now, fault);
      r.1 == ConsentRecorded ==>
        && MatchesFullName(name) && IsValidCPF(cpf)
        && r.0.audit == s.audit + [AuditEntry(ConsentAction, "Paciente", pid)]
        && r.0.patients.Keys == s.patients.Keys
        && (pid in s.patients ==>
              var p, q := s.patients[pid], r.0.patients[pid];
              && q.consentGivenAt == Some(now)
              && Varchar(name, WideColumn).Some? && q.terms.consentName == Varchar(name, WideColumn).value
              && q.terms.consentCpfRg == DigitsOnly(cpf) && |DigitsOnly(cpf)| == 11
              && q.terms.consentDate == Some(DayOf(now)) && q.terms.signatureDate == Some(DayOf(now))
              && Varchar(howFound, WideColumn).Some? && q.howFound == Varchar(howFound, WideColumn).value
              && q.accessToken == p.accessToken && q.contact == p.contact && q.clinical == p.clinical)
        && (forall id :: id in s.patients && id != pid ==> r.0.patients[id] == s.patients[id])
    ensures Consistent(ConsentStep(s, Some(IntValue(pid)), name, cpf, howFound, now, fault).0)
    ensures ConsentKept(s, ConsentStep(s, Some(IntValue(pid)), name, cpf, howFound, now, fault).0)
  {
    var r := ConsentStep(s, Some(IntValue(pid)), name, cpf, howFound, now, fault);
    if r.1 == ConsentRecorded {
      var e := ConsentEdit(name, DigitsOnly(cpf), howFound, now);
      var entry := AuditEntry(ConsentAction, "Paciente", pid);
      var u := UpdatePatient(s, pid, e, fault);
      ConsentRecordedOpen(s, pid, name, cpf, howFound, now, fault);
      UpdatePatientKeepsConsistent(s, pid, e, fault);
      AppendAuditKeepsConsistent(u.0, entry);
      ConsentKeptChain(s, u.0, r.0);
      ConsentRowWritten(s, pid, e, fault);
      if pid in s.patients && u.0 != s {
        ConsentEditApplied(s.patients[pid], name, DigitsOnly(cpf), howFound, now);
      }
    }
  }

  /** A recorded consent passed validation, and is the UPDATE followed by one
      audit entry. */
  lemma ConsentRecordedOpen(s: DbState, pid: int, name: string, cpf: string, howFound: string,
                            now: Time, fault: bool)
    requires ConsentStep(s, Some(IntValue(pid)), name, cpf, howFound, now, fault).1 == ConsentRecorded
    ensures MatchesFullName(name) && IsValidCPF(cpf)
    ensures var u := UpdatePatient(s, pid, ConsentEdit(name, DigitsOnly(cpf), howFound, now), fault);
      u.1 != Failed &&
      ConsentStep(s, Some(IntValue(pid)), name, cpf, howFound, now, fault).0 ==
        AppendAudit(u.0, AuditEntry(ConsentAction, "Paciente", pid))
  {
    ConsentRejection(s, pid, name, cpf, howFound, now, fault);
  }

  /** A successful patient UPDATE rewrites the one row it names. */
  lemma ConsentRowWritten(s: DbState, pid: int, e: PatientEdit, fault: bool)
    requires UpdatePatient(s, pid, e, fault).1 != Failed
    ensures var t := UpdatePatient(s, pid, e, fault).0;
      && t.patients.Keys == s.patients.Keys
      && (forall id :: id in s.patients && id != pid ==> t.patients[id] == s.patients[id])
      && (pid in s.patients ==> EditFits(e) && t.patients[pid] == ApplyEdit(s.patients[pid], e))
  {
  }

  lemma ConsentEditApplied(p: Patient, name: string, cpf: string, howFound: string, now: Time)
    requires EditFits(ConsentEdit(name, cpf, howFound, now))
    ensures var q := ApplyEdit(p, ConsentEdit(name, cpf, howFound, now));
      && q.consentGivenAt == Some(now)
      && q.terms.consentName == Varchar(name, WideColumn).value
      && q.terms.consentCpfRg == Varchar(cpf, NarrowColumn).value
      && q.terms.consentDate == Some(DayOf(now)) && q.terms.signatureDate == Some(DayOf(now))
      && q.howFound == Varchar(howFound, WideColumn).value
      && q.accessToken == p.accessToken && q.contact == p.contact && q.clinical == p.clinical
  {
  }

  /** A form that passes validation is still refused by the database when the
      consent name or how-found text is too long for its `VARCHAR(255)` column
      (the eleven CPF digits always fit); nothing is then written. */
  lemma ConsentSaveFailure(s: DbState, pid: int, name: string, cpf: string, howFound: string, now: Time, fault: bool)
    requires MatchesFullName(name) && IsValidCPF(cpf)
    ensures var r := ConsentStep(s, Some(IntValue(pid)), name, cpf, howFound, now, fault);
      r.1 == SaveFailed <==>
        fault || !InInt32(pid) || Varchar(name, WideColumn).None? || Varchar(howFound, WideColumn).None?
    ensures var r := ConsentStep(s, Some(IntValue(pid)), name, cpf, howFound, now, fault);
      r.1 == SaveFailed ==> r.0 == s
  {
    ConsentRejection(s, pid, name, cpf, howFound, now, fault);
    assert |DigitsOnly(cpf)| == 11;
  }

  /** Recording consent retires the token that opened the session: logging
      in with it again is refused. */
  lemma TokenSingleUse(s: DbState, token: string, name: string, cpf: string, howFound: string,
                       now: Time, fault: bool)
    requires Consistent(s)
    requires LoginStep(s, token, false).Some?
    ensures var pid := LoginStep(s, token, false).value;
      var r := ConsentStep(s, Some(IntValue(pid)), name, cpf, howFound, now, fault);
      r.1 == ConsentRecorded ==> LoginStep(r.0, token, false).None?
  {
    var pid := LoginStep(s, token, false).value;
    var r := ConsentStep(s, Some(IntValue(pid)), name, cpf, howFound, now, fault);
    if r.1 == ConsentRecorded {
      ConsentRecordedEffects(s, pid, name, cpf, howFound, now, fault);
      var t := r.0;
      forall id | id in t.patients ensures !TokenOpens(t.patients[id], token) {
        if id != pid {
          assert t.patients[id] == s.patients[id];
          assert UniqueTokens(s.patients);
          assert s.patients[pid].accessToken == Some(token);
        }
      }
    }
  }

  /** The audit trail grows by exactly one entry when, and only when, consent
      was saved. */
  lemma ConsentAuditOnlyAfterSave(s: DbState, v: Option<SessionValue>, name: string, cpf: string,
                                  howFound: string, now: Time, fault: bool)
    ensures var r := ConsentStep(s, v, name, cpf, howFound, now, fault);
      (r.1 == ConsentRecorded ==> |r.0.audit| == |s.audit| + 1) &&
      (r.1 != ConsentRecorded ==> r.0.audit == s.audit) &&
      (fault ==> r.1 != ConsentRecorded)
  {
  }

  // ---------------------------------------------------------------------------
  // Portal guard
  // ---------------------------------------------------------------------------

  datatype GateOutcome = Proceed | RedirectToLogin

  /** `AuthPatientRequired`: a portal page is served only to a session that
      holds a patient id; any other request is sent to the token login. */
  function AuthPatientRequired(v: Option<SessionValue>): (r: GateOutcome)
    ensures r == Proceed <==> v.Some?
  {
    if v.None? then RedirectToLogin else Proceed
  }

  /** A successful token login lets the patient through the guard, and the
      consent handler then finds an int id in the session. */
  lemma LoginOpensPortal(s: DbState, token: string, fault: bool)
    requires LoginStep(s, token, fault).Some?
    ensures var v := Some(IntValue(LoginStep(s, token, fault).value));
      AuthPatientRequired(v) == Proceed &&
      forall name, cpf, how, now, f :: ConsentStep(s, v, name, cpf, how, now, f).1 != NotAPatientSession
  {
    var v := Some(IntValue(LoginStep(s, token, fault).value));
    forall name, cpf, how, now, f ensures ConsentStep(s, v, name, cpf, how, now, f).1 != NotAPatientSession {
      PatientSessionAccepted(s, v, name, cpf, how, now, f);
    }
  }

  lemma PatientSessionAccepted(s: DbState, v: Option<SessionValue>, name: string, cpf: string,
                               how: string, now: Time, f: bool)
    requires v.Some? && v.value.IntValue?
    ensures ConsentStep(s, v, name, cpf, how, now, f).1 != NotAPatientSession
  {
  }
}

=== FILE: prelude.dfy ===
/** Shared vocabulary: optional values, Go's 64-bit `int`, and the list operations
    that stand for SQL's WHERE, ORDER BY, DISTINCT and LIMIT over a table's rows. */
module Prelude {

  datatype Option<T> = None | Some(value: T)

  // ---------------------------------------------------------------------------
  // Go `int` (64 bits on the platforms the server is built for)
  // ---------------------------------------------------------------------------

  const Int64Min: int := -0x8000_0000_0000_0000
  const Int64Max: int := 0x7FFF_FFFF_FFFF_FFFF
  const TwoTo64: int := 0x1_0000_0000_0000_0000

  predicate InInt64(x: int) { Int64Min <= x <= Int64Max }

  /** The value a Go `int` expression takes when the exact result `x` is
      reduced modulo 2^64 into the signed range (two's-complement wrap-around). */
  function Wrap64(x: int): (r: int)
    ensures InInt64(r)
    ensures (x - r) % TwoTo64 == 0
    ensures InInt64(x) ==> r == x
  {
    var m := x % TwoTo64;
    assert x == TwoTo64 * (x / TwoTo64) + m;
    if m <= Int64Max then m else m - TwoTo64
  }

  // ---------------------------------------------------------------------------
  // WHERE: order-preserving selection
  // ---------------------------------------------------------------------------

  /** The rows of `s` that satisfy `p`, in their original order.  Defined from
      the end so that it matches a loop that appends one row at a time. */
  function Filter<T>(s: seq<T>, p: T -> bool): (r: seq<T>)
    ensures |r| <= |s|
    ensures forall x :: x in r ==> x in s && p(x)
  {
    if s == [] then []
    else Filter(s[..|s| - 1], p) + (if p(s[|s| - 1]) then [s[|s| - 1]] else [])
  }

  lemma FilterAppend<T>(s: seq<T>, x: T, p: T -> bool)
    ensures Filter(s + [x], p) == Filter(s, p) + (if p(x) then [x] else [])
  {
    assert (s + [x])[..|s|] == s;
  }

  /** Nothing that satisfies the condition is lost. */
  lemma {:induction false} FilterKeeps<T>(s: seq<T>, p: T -> bool, x: T)
    requires x in s && p(x)
    ensures x in Filter(s, p)
  {
    var init := s[..|s| - 1];
    if x != s[|s| - 1] {
      assert s == init + [s[|s| - 1]];
      assert x in init;
      FilterKeeps(init, p, x);
    }
  }

  /** A condition and its negation split the rows: together they hold every row
      exactly as often as the table does. */
  lemma {:induction false} FilterSplit<T>(s: seq<T>, p: T -> bool, q: T -> bool)
    requires forall x :: q(x) == !p(x)
    ensures multiset(Filter(s, p)) + multiset(Filter(s, q)) == multiset(s)
  {
    if s != [] {
      var init := s[..|s| - 1];
      FilterSplit(init, p, q);
      assert s == init + [s[|s| - 1]];
    }
  }

  // ---------------------------------------------------------------------------
  // ORDER BY: a stable insertion sort under a total preorder
  // ---------------------------------------------------------------------------

  predicate SortedBy<T>(s: seq<T>, le: (T, T) -> bool)
  {
    forall i, j :: 0 <= i < j < |s| ==> le(s[i], s[j])
  }

  ghost predicate TotalPreorder<T(!new)>(le: (T, T) -> bool)
  {
    (forall a, b :: le(a, b) || le(b, a)) &&
    (forall a, b, c :: le(a, b) && le(b, c) ==> le(a, c))
  }

  /** Insert `x` before the first element it does not exceed. */
  function Insert<T>(x: T, s: seq<T>, le: (T, T) -> bool): (r: seq<T>)
    ensures |r| == |s| + 1
  {
    if s == [] then [x]
    else if le(x, s[0]) then [x] + s
    else [s[0]] + Insert(x, s[1..], le)
  }

  lemma {:induction false} InsertPermutes<T>(x: T, s: seq<T>, le: (T, T) -> bool)
    ensures multiset(Insert(x, s, le)) == multiset(s) + multiset{x}
  {
    if s != [] {
      assert s == [s[0]] + s[1..];
      if !le(x, s[0]) {
        InsertPermutes(x, s[1..], le);
      }
    }
  }

  function SortBy<T>(s: seq<T>, le: (T, T) -> bool): (r: seq<T>)
    ensures |r| == |s|
  {
    if s == [] then []
    else Insert(s[0], SortBy(s[1..], le), le)
  }

  /** ORDER BY only reorders the selected rows. */
  lemma {:induction false} SortByPermutes<T>(s: seq<T>, le: (T, T) -> bool)
    ensures multiset(SortBy(s, le)) == multiset(s)
  {
    if s != [] {
      assert s == [s[0]] + s[1..];
      SortByPermutes(s[1..], le);
      InsertPermutes(s[0], SortBy(s[1..], le), le);
    }
  }

  lemma {:induction false} InsertSorted<T(!new)>(x: T, s: seq<T>, le: (T, T) -> bool)
    requires TotalPreorder(le) && SortedBy(s, le)
    ensures SortedBy(Insert(x, s, le), le)
  {
    if s != [] && !le(x, s[0]) {
      var rest := Insert(x, s[1..], le);
      InsertSorted(x, s[1..], le);
      InsertPermutes(x, s[1..], le);
      forall k | 0 <= k < |rest| ensures le(s[0], rest[k]) {
        assert rest[k] in multiset(rest);
        assert rest[k] == x || rest[k] in multiset(s[1..]);
        if rest[k] != x {
          assert rest[k] in s[1..];
        }
      }
    }
  }

  /** ORDER BY yields an ordered permutation of the selected rows. */
  lemma {:induction false} SortByIsSorted<T(!new)>(s: seq<T>, le: (T, T) -> bool)
    requires TotalPreorder(le)
    ensures SortedBy(SortBy(s, le), le)
    ensures multiset(SortBy(s, le)) == multiset(s)
  {
    SortByPermutes(s, le);
    if s != [] {
      SortByIsSorted(s[1..], le);
      InsertSorted(s[0], SortBy(s[1..], le), le);
    }
  }

  /** Selecting from an ordered list keeps it ordered. */
  lemma {:induction false} FilterSorted<T>(s: seq<T>, p: T -> bool, le: (T, T) -> bool)
    requires SortedBy(s, le)
    ensures SortedBy(Filter(s, p), le)
  {
    if s != [] {
      var init := s[..|s| - 1];
      var last := s[|s| - 1];
      FilterSorted(init, p, le);
      var f := Filter(init, p);
      forall y | y in f ensures le(y, last) {
        var i :| 0 <= i < |init| && init[i] == y;
      }
    }
  }

  // ---------------------------------------------------------------------------
  // LIMIT
  // ---------------------------------------------------------------------------

  /** The first `n` rows (all of them when there are fewer). */
  function Take<T>(s: seq<T>, n: nat): (r: seq<T>)
    ensures |r| == if |s| <= n then |s| else n
    ensures r == s[..|r|]
  {
    if |s| <= n then s else s[..n]
  }

  lemma TakeSorted<T>(s: seq<T>, n: nat, le: (T, T) -> bool)
    requires SortedBy(s, le)
    ensures SortedBy(Take(s, n), le)
  {
  }

  /** `ORDER BY … LIMIT n`: at most `n` rows, in order, each one of the
      selected rows; below the limit, every selected row exactly as often. */
  lemma {:induction false} TopSorted<T(!new)>(s: seq<T>, le: (T, T) -> bool, n: nat)
    requires TotalPreorder(le)
    ensures |Take(SortBy(s, le), n)| <= n
    ensures SortedBy(Take(SortBy(s, le), n), le)
    ensures forall x :: x in Take(SortBy(s, le), n) ==> x in s
    ensures |Take(SortBy(s, le), n)| < n ==> multiset(Take(SortBy(s, le), n)) == multiset(s)
  {
    var sorted := SortBy(s, le);
    var r := Take(sorted, n);
    SortByIsSorted(s, le);
    TakeSorted(sorted, n, le);
    forall x | x in r ensures x in s {
      var k :| 0 <= k < |r| && r[k] == x;
      assert sorted[k] == x;
      assert x in multiset(sorted);
    }
  }

  /** `ORDER BY … LIMIT n` keeps the first rows of the order: when a selected
      row is left out, the limit is reached and every kept row comes no later
      than it. */
  lemma TopIsLeast<T(!new)>(s: seq<T>, le: (T, T) -> bool, n: nat)
    requires TotalPreorder(le)
    ensures forall x :: x in s && x !in Take(SortBy(s, le), n) ==>
      |Take(SortBy(s, le), n)| == n && forall i :: 0 <= i < n ==> le(Take(SortBy(s, le), n)[i], x)
  {
    var sorted := SortBy(s, le);
    SortByIsSorted(s, le);
    forall x | x in s && x !in Take(sorted, n)
      ensures |Take(sorted, n)| == n && forall i :: 0 <= i < n ==> le(Take(sorted, n)[i], x)
    {
      assert x in multiset(sorted);
      var j :| 0 <= j < |sorted| && sorted[j] == x;
      forall i | 0 <= i < n ensures le(Take(sorted, n)[i], x) {
        assert Take(sorted, n)[i] == sorted[i];
      }
    }
  }

  // ---------------------------------------------------------------------------
  // DISTINCT over an ordered list
  // ---------------------------------------------------------------------------

  ghost predicate Antisymmetric<T(!new)>(le: (T, T) -> bool)
  {
    forall a, b :: le(a, b) && le(b, a) ==> a == b
  }

  /** Drops every element equal to its predecessor. */
  function DedupAdjacent<T(==, !new)>(s: seq<T>): (r: seq<T>)
    ensures forall x :: x in r <==> x in s
  {
    if |s| <= 1 then s
    else if s[0] == s[1] then DedupAdjacent(s[1..])
    else
      assert s == [s[0]] + s[1..];
      [s[0]] + DedupAdjacent(s[1..])
  }

  predicate NoDuplicates<T(==)>(s: seq<T>)
  {
    forall i, j :: 0 <= i < j < |s| ==> s[i] != s[j]
  }

  /** On a list ordered by an antisymmetric order, removing adjacent repeats
      removes every repeat, and the list stays ordered. */
  lemma {:induction false} DedupAdjacentDistinct<T(!new)>(s: seq<T>, le: (T, T) -> bool)
    requires SortedBy(s, le) && Antisymmetric(le)
    ensures NoDuplicates(DedupAdjacent(s)) && SortedBy(DedupAdjacent(s), le)
  {
    if |s| > 1 {
      DedupAdjacentDistinct(s[1..], le);
      var tail := DedupAdjacent(s[1..]);
      if s[0] != s[1] {
        forall y | y in tail ensures y != s[0] && le(s[0], y) {
          var i :| 1 <= i < |s| && s[i] == y;
          assert le(s[0], y);
          assert i == 1 || le(s[1], s[i]);
        }
        var r := [s[0]] + tail;
        forall i, j | 0 <= i < j < |r| ensures r[i] != r[j] && le(r[i], r[j]) {
          if i == 0 {
            assert r[j] in tail;
          } else {
            assert r[i] == tail[i - 1] && r[j] == tail[j - 1];
          }
        }
      }
    }
  }

  /** Inserting a new element into a list without repeats adds none. */
  lemma {:induction false} InsertDistinct<T>(x: T, s: seq<T>, le: (T, T) -> bool)
    requires NoDuplicates(s) && x !in s
    ensures NoDuplicates(Insert(x, s, le))
  {
    if s == [] {
    } else if le(x, s[0]) {
      var r := [x] + s;
      forall i, j | 0 <= i < j < |r| ensures r[i] != r[j] {
        assert r[j] == s[j - 1];
        if i > 0 {
          assert r[i] == s[i - 1];
        }
      }
    } else {
      assert NoDuplicates(s[1..]);
      InsertDistinct(x, s[1..], le);
      var rest := Insert(x, s[1..], le);
      InsertPermutes(x, s[1..], le);
      assert s[0] !in s[1..];
      assert s[0] !in multiset(s[1..]) + multiset{x};
      assert s[0] !in rest;
      var r := [s[0]] + rest;
      forall i, j | 0 <= i < j < |r| ensures r[i] != r[j] {
        assert r[j] == rest[j - 1];
        if i > 0 {
          assert r[i] == rest[i - 1];
        }
      }
    }
  }

  /** Sorting a list without repeats yields a list without repeats. */
  lemma {:induction false} SortByDistinct<T>(s: seq<T>, le: (T, T) -> bool)
    requires NoDuplicates(s)
    ensures NoDuplicates(SortBy(s, le))
  {
    if s != [] {
      assert NoDuplicates(s[1..]);
      SortByDistinct(s[1..], le);
      var rest := SortBy(s[1..], le);
      SortByPermutes(s[1..], le);
      assert s[0] !in s[1..];
      assert s[0] !in multiset(rest);
      InsertDistinct(s[0], rest, le);
    }
  }

  // ---------------------------------------------------------------------------
  // Text order (code-point lexicographic) and prefix / substring tests
  // ---------------------------------------------------------------------------

  predicate StringLe(a: string, b: string)
  {
    if a == [] then true
    else if b == [] then false
    else if a[0] != b[0] then a[0] < b[0]
    else StringLe(a[1..], b[1..])
  }

  lemma {:induction false} StringLeTotal(a: string, b: string)
    ensures StringLe(a, b) || StringLe(b, a)
  {
    if a != [] && b != [] && a[0] == b[0] {
      StringLeTotal(a[1..], b[1..]);
    }
  }

  lemma {:induction false} StringLeTransitive(a: string, b: string, c: string)
    requires StringLe(a, b) && StringLe(b, c)
    ensures StringLe(a, c)
  {
    if a != [] && b != [] && c != [] && a[0] == b[0] && b[0] == c[0] {
      StringLeTransitive(a[1..], b[1..], c[1..]);
    }
  }

  lemma {:induction false} StringLeAntisymmetric(a: string, b: string)
    requires StringLe(a, b) && StringLe(b, a)
    ensures a == b
  {
    if a != [] && b != [] {
      StringLeAntisymmetric(a[1..], b[1..]);
      assert a == [a[0]] + a[1..] && b == [b[0]] + b[1..];
    }
  }

  lemma StringOrder()
    ensures TotalPreorder(StringLe) && Antisymmetric(StringLe)
  {
    forall a, b ensures StringLe(a, b) || StringLe(b, a) {
      StringLeTotal(a, b);
    }
    forall a, b, c | StringLe(a, b) && StringLe(b, c) ensures StringLe(a, c) {
      StringLeTransitive(a, b, c);
    }
    forall a, b | StringLe(a, b) && StringLe(b, a) ensures a == b {
      StringLeAntisymmetric(a, b);
    }
  }

  predicate IsPrefix(p: string, s: string) { |p| <= |s| && s[..|p|] == p }

  /** `t` occurs somewhere in `s`. */
  predicate Contains(s: string, t: string)
  {
    IsPrefix(t, s) || (s != [] && Contains(s[1..], t))
  }

  // ---------------------------------------------------------------------------
  // Table order of rows kept in a map keyed by id: ascending id
  // ---------------------------------------------------------------------------

  lemma {:induction false} MinExists(ids: set<int>)
    requires ids != {}
    ensures exists m :: m in ids && forall k :: k in ids ==> m <= k
    decreases |ids|
  {
    if forall y :: y !in ids {
      assert false;
    }
    var x :| x in ids;
    var rest := ids - {x};
    assert forall k :: k in ids ==> k == x || k in rest;
    if forall y :: y !in rest {
      assert forall k :: k in ids ==> x <= k;
    } else {
      MinExists(rest);
      var m :| m in rest && forall k :: k in rest ==> m <= k;
      var w := if x < m then x else m;
      assert w in ids && forall k :: k in ids ==> w <= k;
    }
  }

  function Min(ids: set<int>): (m: int)
    requires ids != {}
    ensures m in ids && forall k :: k in ids ==> m <= k
  {
    MinExists(ids);
    var m :| m in ids && forall k :: k in ids ==> m <= k;
    m
  }

  /** The ids in ascending order, each once. */
  function SortedIds(ids: set<int>): (r: seq<int>)
    ensures |r| == |ids|
    ensures forall k :: k in r <==> k in ids
    decreases |ids|
  {
    if ids == {} then []
    else
      var m := Min(ids);
      [m] + SortedIds(ids - {m})
  }

  lemma {:induction false} SortedIdsAscending(ids: set<int>)
    ensures forall i, j :: 0 <= i < j < |SortedIds(ids)| ==> SortedIds(ids)[i] < SortedIds(ids)[j]
    decreases |ids|
  {
    if ids != {} {
      var m := Min(ids);
      var rest := SortedIds(ids - {m});
      SortedIdsAscending(ids - {m});
      var r := SortedIds(ids);
      assert r == [m] + rest;
      forall i, j | 0 <= i < j < |r| ensures r[i] < r[j] {
        if i == 0 {
          var k := rest[j - 1];
          assert r[j] == k && k in rest;
          assert k in ids && k != m;
          assert r[i] == m && m <= k;
        } else {
          assert r[i] == rest[i - 1] && r[j] == rest[j - 1];
        }
      }
    }
  }

  /** The rows of a table kept by id, in ascending id order. */
  function RowsOf<T>(m: map<int, T>): (r: seq<T>)
    ensures |r| == |m|
    ensures forall id :: id in m ==> m[id] in r
    ensures forall x :: x in r ==> exists id :: id in m && m[id] == x
  {
    var ids := SortedIds(m.Keys);
    var r := seq(|ids|, i requires 0 <= i < |ids| => m[ids[i]]);
    RowsListed(m, ids, r);
    r
  }

  lemma RowsListed<T>(m: map<int, T>, ids: seq<int>, r: seq<T>)
    requires forall k :: k in ids <==> k in m
    requires forall i :: 0 <= i < |ids| ==> ids[i] in m
    requires |r| == |ids| && forall i :: 0 <= i < |ids| ==> r[i] == m[ids[i]]
    ensures forall id :: id in m ==> m[id] in r
    ensures forall x :: x in r ==> exists id :: id in m && m[id] == x
  {
    forall id | id in m ensures m[id] in r {
      assert id in ids;
      var i :| 0 <= i < |ids| && ids[i] == id;
      assert r[i] == m[id];
    }
    forall x | x in r ensures exists id :: id in m && m[id] == x {
      var i :| 0 <= i < |r| && r[i] == x;
      var id := ids[i];
      assert id in m && m[id] == x;
    }
  }
}

=== FILE: secretaria_handlers.dfy ===
/** The secretary's handlers: the patient list, scheduling, cancelling and
    settling appointments, a patient's future and past appointments, and the
    name autocomplete.  The secretary's week agenda runs the same code as the
    administrator's (`AdminHandlers.ViewAgenda`). */
module SecretariaHandlers {
  import opened Prelude
  import opened Strconv
  import opened Clock
  import opened Storage
  import opened Web
  import opened AdminHandlers
  import opened TerapeutaHandlers

  /** The profile page the secretary's appointment actions return to. */
  function SecretaryProfilePath(patientIdStr: string): string
  {
    "/secretaria/patients/profile/" + patientIdStr
  }

  /** The id text of a URL as PostgreSQL reads it for an integer column:
      the integer it spells, or `None`, which makes the statement fail. */
  function IdParam(text: string): (id: Option<int>)
    ensures id.Some? <==> Atoi(text).Parsed?
    ensures id.Some? ==> id.value == AtoiValue(text) && InInt64(id.value)
  {
    match Atoi(text)
    case Parsed(v) => Some(v)
    case _ => None
  }

  // ---------------------------------------------------------------------------
  // ViewPatients
  // ---------------------------------------------------------------------------

  /** The secretary's search condition: the name contains the term, ignoring
      case.  The condition is always applied; the empty term makes it `%%`. */
  predicate NameMatches(p: Patient, term: string)
  {
    ILikeContains(p.contact.name, term)
  }

  /** `... WHERE name ILIKE '%' || term || '%' ORDER BY name ASC`. */
  function SecretaryPatientList(s: DbState, term: string): seq<Patient>
  {
    SortBy(Filter(RowsOf(s.patients), (p: Patient) => NameMatches(p, term)), PatientNameLe)
  }

  /** What `ViewPatients` renders: an error page when the count or the list
      query fails (a negative wrapped offset included), otherwise one page of
      ten and the page count. */
  function SecretaryPatientsViewAsWritten(s: DbState, query: Form, countFault: bool, listFault: bool): PatientListPage
  {
    var page := PageNumber(PostForm(query, "page"));
    var term := PostForm(query, "search");
    var list := SecretaryPatientList(s, term);
    ListView(list, PageRowsAsWritten(list, page), page, term, countFault, listFault)
  }

  /** The view meant: the page at the intended offset. */
  function SecretaryPatientsView(s: DbState, query: Form, countFault: bool, listFault: bool): PatientListPage
  {
    var page := PageNumber(PostForm(query, "page"));
    var term := PostForm(query, "search");
    var list := SecretaryPatientList(s, term);
    ListView(list, Some(PageRows(list, page)), page, term, countFault, listFault)
  }

  method ViewPatients(db: Database, query: Form, countFault: bool, listFault: bool) returns (v: PatientListPage)
    ensures v == SecretaryPatientsViewAsWritten(db.State(), query, countFault, listFault)
  {
    var page := PageNumber(PostForm(query, "page"));
    var term := PostForm(query, "search");
    var offset := OffsetAsWritten(page);
    var list := SecretaryPatientList(db.State(), term);
    if countFault {
      return ListError;
    }
    var totalPages := TotalPages(|list|);
    if listFault || offset < 0 {
      return ListError;
    }
    var patients := ScanRows(RowsFrom(list, offset));
    return ListPage(patients, totalPages, page, term);
  }

  lemma EmptyTermMatches(p: Patient)
    ensures NameMatches(p, "")
  {
    assert LowerString("") == "";
  }

  /** The list holds exactly the patients whose name contains the term,
      ordered by name; without a term it holds every patient. */
  lemma SecretaryPatientListSound(s: DbState, term: string)
    ensures var list := SecretaryPatientList(s, term);
      && (forall p :: p in list <==> p in s.patients.Values && NameMatches(p, term))
      && SortedBy(list, PatientNameLe)
    ensures term == "" ==> |SecretaryPatientList(s, term)| == |s.patients|
  {
    var rows := RowsOf(s.patients);
    var match_ := (p: Patient) => NameMatches(p, term);
    var f := Filter(rows, match_);
    var list := SecretaryPatientList(s, term);
    PatientNameOrder();
    SortByIsSorted(f, PatientNameLe);
    forall p ensures p in list <==> p in s.patients.Values && NameMatches(p, term) {
      assert p in list <==> p in multiset(list);
      assert p in f <==> p in multiset(f);
      if p in s.patients.Values && NameMatches(p, term) {
        FilterKeeps(rows, match_, p);
      }
    }
    if term == "" {
      forall p | p in rows ensures match_(p) {
        EmptyTermMatches(p);
      }
      FilterAll(rows, match_);
    }
  }

  /** A filter every row passes keeps every row. */
  lemma {:induction false} FilterAll<T>(s: seq<T>, p: T -> bool)
    requires forall x :: x in s ==> p(x)
    ensures Filter(s, p) == s
  {
    if s != [] {
      var init := s[..|s| - 1];
      var last := s[|s| - 1];
      assert s == init + [last];
      forall x | x in init ensures p(x) {
        assert x in s;
      }
      FilterAll(init, p);
      assert p(last);
    }
  }

  /** The handler shows a page exactly when neither query fails and the
      wrapped offset is not negative; every listed patient's name then
      contains the term, a page holds at most ten patients ordered by name,
      and the page count covers every match. */
  lemma SecretaryPatientsViewSound(s: DbState, query: Form, countFault: bool, listFault: bool)
    ensures var v := SecretaryPatientsViewAsWritten(s, query, countFault, listFault);
      var term := PostForm(query, "search");
      && (v.ListPage? <==> !countFault && !listFault && OffsetAsWritten(PageNumber(PostForm(query, "page"))) >= 0)
      && (v.ListPage? ==>
            && |v.patients| <= PageSize
            && (forall p :: p in v.patients ==> p in s.patients.Values && NameMatches(p, term))
            && SortedBy(v.patients, PatientNameLe)
            && v.totalPages * PageSize >= |SecretaryPatientList(s, term)|)
  {
    var term := PostForm(query, "search");
    var offset := OffsetAsWritten(PageNumber(PostForm(query, "page")));
    SecretaryPatientListSound(s, term);
    if offset >= 0 {
      RowsFromSorted(SecretaryPatientList(s, term), offset, PatientNameLe);
    }
  }

  /** Wherever the intended offset fits a Go `int`, the handler renders the
      intended page. */
  lemma SecretaryPatientsViewAgrees(s: DbState, query: Form, countFault: bool, listFault: bool)
    requires Offset(PageNumber(PostForm(query, "page"))) <= Int64Max
    ensures SecretaryPatientsViewAsWritten(s, query, countFault, listFault) ==
            SecretaryPatientsView(s, query, countFault, listFault)
  {
    PageRowsAsWrittenAgrees(SecretaryPatientList(s, PostForm(query, "search")), PageNumber(PostForm(query, "page")));
  }

  /** The offset wraps here as in the administrator's list: page
      922337203685477582 shows the error page and page 1844674407370955163
      shows rows 5 to 14 of a list of at least five, where the intended view
      shows an empty page. */
  lemma SecretaryPatientsPageWrap(s: DbState, query: Form)
    ensures PostForm(query, "page") == Itoa(OverflowPage) ==>
      SecretaryPatientsViewAsWritten(s, query, false, false) == ListError
    ensures var term := PostForm(query, "search");
      var list := SecretaryPatientList(s, term);
      PostForm(query, "page") == Itoa(WrapPage) && |list| >= 5 ==>
        SecretaryPatientsViewAsWritten(s, query, false, false) ==
          ListPage(list[4..if 14 < |list| then 14 else |list|], TotalPages(|list|), WrapPage, term)
    ensures var list := SecretaryPatientList(s, PostForm(query, "search"));
      PostForm(query, "page") in {Itoa(OverflowPage), Itoa(WrapPage)} && |list| <= Int64Max ==>
        SecretaryPatientsView(s, query, false, false).patients == []
  {
    PageWrapFinding(SecretaryPatientList(s, PostForm(query, "search")));
  }

  /** The secretary searches names only: whatever the secretary's list shows
      for a term, the administrator's list (names or e-mails) shows too. */
  lemma SecretaryListWithinAdminList(s: DbState, term: string)
    ensures forall p :: p in SecretaryPatientList(s, term) ==> p in AdminPatientList(s, term)
  {
    SecretaryPatientListSound(s, term);
    AdminPatientListSound(s, term);
  }

  // ---------------------------------------------------------------------------
  // PostNewAppointment
  // ---------------------------------------------------------------------------

  /** The secretary's status rule: a start in the past is recorded as done,
      any other as scheduled. */
  function SecretaryStatus(start: Time, now: Time): (st: string)
    ensures IsAppointmentStatus(st)
    ensures st == Concluido <==> start < now
    ensures st == Agendado <==> now <= start
  {
    if start < now then Concluido else Agendado
  }

  /** It is the administrator's rule applied to a submitted 'agendado'. */
  lemma SecretaryStatusIsAdminRule(start: Time, now: Time)
    ensures SecretaryStatus(start, now) == AdminStatus(Agendado, start, now)
  {
  }

  /** `PostNewAppointment`: an unparsable date or time inserts nothing;
      otherwise the insert runs (notes left empty) and its error is only
      logged; the browser always returns to the patient's profile. */
  function NewAppointmentStep(s: DbState, form: Form, now: Time, fault: bool): (r: (DbState, string))
  {
    var pidStr := PostForm(form, "patient_id");
    match ParseDateTime(PostForm(form, "appointment_date") + " " + PostForm(form, "start_time"))
    case None => (s, SecretaryProfilePath(pidStr))
    case Some(dt) =>
      var start := ToTime(dt);
      var (t, _) := InsertAppointment(s, AtoiValue(pidStr), AtoiValue(PostForm(form, "doctor_id")),
                                      start, start + AppointmentLength, SecretaryStatus(start, now), "", now, fault);
      (t, SecretaryProfilePath(pidStr))
  }

  method PostNewAppointment(db: Database, form: Form, now: Time, fault: bool) returns (location: string)
    modifies db
    ensures (db.State(), location) == NewAppointmentStep(old(db.State()), form, now, fault)
  {
    var patientIDStr := PostForm(form, "patient_id");
    var patientID := AtoiValue(patientIDStr);
    var doctorID := AtoiValue(PostForm(form, "doctor_id"));
    var parsed := ParseDateTime(PostForm(form, "appointment_date") + " " + PostForm(form, "start_time"));
    if parsed.None? {
      return SecretaryProfilePath(patientIDStr);
    }
    var startTime := ToTime(parsed.value);
    var endTime := startTime + AppointmentLength;
    var status: string;
    if startTime < now {
      status := Concluido;
    } else {
      status := Agendado;
    }
    var _ := db.ExecInsertAppointment(patientID, doctorID, startTime, endTime, status, "", now, fault);
    return SecretaryProfilePath(patientIDStr);
  }

  /** An appointment is added exactly when the date and time parse, the
      statement does not fail and both patient and doctor exist; it starts at
      the submitted time, lasts an hour, is done when it lies in the past and
      scheduled otherwise, and awaits payment. */
  lemma NewAppointmentEffects(s: DbState, form: Form, now: Time, fault: bool)
    requires Consistent(s)
    ensures var r := NewAppointmentStep(s, form, now, fault);
      Consistent(r.0) && ConsentKept(s, r.0) && r.1 == SecretaryProfilePath(PostForm(form, "patient_id"))
    ensures var r := NewAppointmentStep(s, form, now, fault);
      var dt := ParseDateTime(PostForm(form, "appointment_date") + " " + PostForm(form, "start_time"));
      r.0 != s <==>
        dt.Some? && !fault &&
        AtoiValue(PostForm(form, "patient_id")) in s.patients && AtoiValue(PostForm(form, "doctor_id")) in s.users
    ensures var r := NewAppointmentStep(s, form, now, fault);
      var dt := ParseDateTime(PostForm(form, "appointment_date") + " " + PostForm(form, "start_time"));
      r.0 != s ==>
        (dt.Some? &&
         ScheduledAt(s, r.0, AtoiValue(PostForm(form, "patient_id")), AtoiValue(PostForm(form, "doctor_id")),
                     ToTime(dt.value), now))
  {
    NewAppointmentOpen(s, form, now, fault);
    var dt := ParseDateTime(PostForm(form, "appointment_date") + " " + PostForm(form, "start_time"));
    if dt.Some? {
      InsertScheduled(s, AtoiValue(PostForm(form, "patient_id")), AtoiValue(PostForm(form, "doctor_id")),
                      ToTime(dt.value), now, fault);
    }
  }

  /** The step is the insert when date and time parse, and nothing otherwise. */
  lemma NewAppointmentOpen(s: DbState, form: Form, now: Time, fault: bool)
    ensures var r := NewAppointmentStep(s, form, now, fault);
      var dt := ParseDateTime(PostForm(form, "appointment_date") + " " + PostForm(form, "start_time"));
      && r.1 == SecretaryProfilePath(PostForm(form, "patient_id"))
      && (dt.None? ==> r.0 == s)
      && (dt.Some? ==>
            var start := ToTime(dt.value);
            r.0 == InsertAppointment(s, AtoiValue(PostForm(form, "patient_id")), AtoiValue(PostForm(form, "doctor_id")),
                                     start, start + AppointmentLength, SecretaryStatus(start, now), "", now, fault).0)
  {
  }

  /** `t` is `s` with one new appointment: the next id, starting at `start`,
      lasting an hour, done when it lies in the past and scheduled otherwise,
      awaiting payment; no other table changes. */
  ghost predicate ScheduledAt(s: DbState, t: DbState, pid: int, did: int, start: Time, now: Time)
  {
    var id := s.nextAppointmentId;
    && id !in s.appointments && id in t.appointments
    && t.appointments == s.appointments[id := t.appointments[id]]
    && t.appointments[id].start == start
    && t.appointments[id].end == start + SecondsPerHour
    && (t.appointments[id].status == Concluido <==> start < now)
    && (t.appointments[id].status == Agendado <==> now <= start)
    && t.appointments[id].patientId == pid
    && t.appointments[id].doctorId == did
    && t.appointments[id].paymentStatus == "pendente"
    && t.patients == s.patients && t.users == s.users && t.audit == s.audit
  }

  lemma InsertScheduled(s: DbState, pid: int, did: int, start: Time, now: Time, fault: bool)
    requires Consistent(s)
    ensures var t := InsertAppointment(s, pid, did, start, start + AppointmentLength, SecretaryStatus(start, now), "", now, fault).0;
      && Consistent(t) && ConsentKept(s, t)
      && (t != s <==> !fault && pid in s.patients && did in s.users)
      && (t != s ==> ScheduledAt(s, t, pid, did, start, now))
  {
    InsertAppointmentKeepsConsistent(s, pid, did, start, start + AppointmentLength, SecretaryStatus(start, now), "", now, fault);
    var t := InsertAppointment(s, pid, did, start, start + AppointmentLength, SecretaryStatus(start, now), "", now, fault).0;
    if !fault && pid in s.patients && did in s.users {
      assert s.nextAppointmentId in t.appointments;
      assert s.nextAppointmentId !in s.appointments;
    }
  }

  // ---------------------------------------------------------------------------
  // CancelAppointment
  // ---------------------------------------------------------------------------

  /** A failed UPDATE answers with an error page; otherwise, whether or not an
      appointment matched, the browser returns to the profile. */
  datatype CancelOutcome = CancelFailed | CancelRedirect(location: string)

  function CancelStep(s: DbState, idStr: string, patientIdStr: string, now: Time, fault: bool)
    : (r: (DbState, CancelOutcome))
  {
    var (t, e) := UpdateAppointment(s, IdParam(idStr), SetStatus(Cancelado), now, fault);
    if e == Failed then (t, CancelFailed) else (t, CancelRedirect(SecretaryProfilePath(patientIdStr)))
  }

  method CancelAppointment(db: Database, idStr: string, patientIdStr: string, now: Time, fault: bool)
    returns (outcome: CancelOutcome)
    modifies db
    ensures (db.State(), outcome) == CancelStep(old(db.State()), idStr, patientIdStr, now, fault)
  {
    var result := db.ExecUpdateAppointment(IdParam(idStr), SetStatus(Cancelado), now, fault);
    if result == Failed {
      return CancelFailed;
    }
    return CancelRedirect(SecretaryProfilePath(patientIdStr));
  }

  /** The secretary's cancel writes what the administrator's does; it answers
      with an error page exactly when the statement fails (a fault or an id
      that is not a 32-bit integer), and an id that matches nothing changes
      nothing yet still redirects. */
  lemma CancelEffects(s: DbState, idStr: string, patientIdStr: string, now: Time, fault: bool)
    requires Consistent(s)
    ensures var r := CancelStep(s, idStr, patientIdStr, now, fault);
      && r.0 == AdminCancelStep(s, IdParam(idStr), patientIdStr, now, fault).0
      && Consistent(r.0) && ConsentKept(s, r.0)
      && (r.1 == CancelFailed <==> fault || !Atoi(idStr).Parsed? || !InInt32(AtoiValue(idStr)))
      && (r.1 == CancelFailed ==> r.0 == s)
    ensures var r := CancelStep(s, idStr, patientIdStr, now, fault);
      !fault && Atoi(idStr).Parsed? && InInt32(AtoiValue(idStr)) && AtoiValue(idStr) !in s.appointments ==>
        r == (s, CancelRedirect(SecretaryProfilePath(patientIdStr)))
    ensures var r := CancelStep(s, idStr, patientIdStr, now, fault);
      r.0 != s ==>
        var k := AtoiValue(idStr);
        k in s.appointments && r.0.appointments == s.appointments[k := s.appointments[k].(status := Cancelado, updatedAt := now)]
  {
    UpdateAppointmentKeepsConsistent(s, IdParam(idStr), SetStatus(Cancelado), now, fault);
  }

  // ---------------------------------------------------------------------------
  // MarkAppointmentAsPaid
  // ---------------------------------------------------------------------------

  const AppointmentTarget: string := "Agendamento"

  function PaidAction(idStr: string, patientIdStr: string): string
  {
    "Marcou a consulta #" + idStr + " como PAGA para o paciente #" + patientIdStr
  }

  /** `MarkAppointmentAsPaid`: the payment UPDATE, an audit entry when it did
      not fail (the target id is `safeAtoi` of the URL id), then the profile. */
  function MarkPaidStep(s: DbState, idStr: string, patientIdStr: string, now: Time, fault: bool)
    : (r: (DbState, string))
  {
    (SettleAndAudit(s, IdParam(idStr), AuditEntry(PaidAction(idStr, patientIdStr), AppointmentTarget, AtoiValue(idStr)), now, fault),
     SecretaryProfilePath(patientIdStr))
  }

  /** The payment UPDATE followed, unless it failed, by the audit entry. */
  function SettleAndAudit(s: DbState, id: Option<int>, entry: AuditEntry, now: Time, fault: bool): DbState
  {
    var (t, e) := UpdateAppointment(s, id, SetPayment("pago"), now, fault);
    if e == Failed then t else AppendAudit(t, entry)
  }

  lemma SettleAndAuditEffects(s: DbState, id: Option<int>, entry: AuditEntry, now: Time, fault: bool)
    requires Consistent(s)
    ensures var t := SettleAndAudit(s, id, entry, now, fault);
      && Consistent(t) && ConsentKept(s, t)
      && t.patients == s.patients && t.users == s.users && t.records == s.records
      && t.appointments.Keys == s.appointments.Keys
      && (forall k :: k in s.appointments && (id.None? || k != id.value) ==> t.appointments[k] == s.appointments[k])
      && (t.appointments != s.appointments ==>
            id.Some? && t.appointments[id.value] == s.appointments[id.value].(paymentStatus := "pago", updatedAt := now))
    ensures var t := SettleAndAudit(s, id, entry, now, fault);
      var ok := !fault && id.Some? && InInt32(id.value);
      && (ok ==> t.audit == s.audit + [entry])
      && (!ok ==> t == s)
  {
    UpdateAppointmentKeepsConsistent(s, id, SetPayment("pago"), now, fault);
    var (t, e) := UpdateAppointment(s, id, SetPayment("pago"), now, fault);
    if e != Failed {
      assert Consistent(AppendAudit(t, entry));
    }
  }

  method MarkAppointmentAsPaid(db: Database, idStr: string, patientIdStr: string, now: Time, fault: bool)
    returns (location: string)
    modifies db
    ensures (db.State(), location) == MarkPaidStep(old(db.State()), idStr, patientIdStr, now, fault)
  {
    var result := db.ExecUpdateAppointment(IdParam(idStr), SetPayment("pago"), now, fault);
    if result != Failed {
      db.ExecAppendAudit(AuditEntry(PaidAction(idStr, patientIdStr), AppointmentTarget, AtoiValue(idStr)));
    }
    return SecretaryProfilePath(patientIdStr);
  }

  /** Settling touches only that appointment's payment status (and modification
      time), keeps the schema's guarantees, and adds exactly one audit entry,
      naming the appointment, exactly when the statement did not fail. */
  lemma MarkPaidEffects(s: DbState, idStr: string, patientIdStr: string, now: Time, fault: bool)
    requires Consistent(s)
    ensures var t := MarkPaidStep(s, idStr, patientIdStr, now, fault).0;
      && Consistent(t) && ConsentKept(s, t)
      && t.patients == s.patients && t.users == s.users && t.records == s.records
      && t.appointments.Keys == s.appointments.Keys
      && (forall k :: k in s.appointments && k != AtoiValue(idStr) ==> t.appointments[k] == s.appointments[k])
      && (t.appointments != s.appointments ==>
            var k := AtoiValue(idStr);
            t.appointments[k] == s.appointments[k].(paymentStatus := "pago", updatedAt := now))
    ensures var t := MarkPaidStep(s, idStr, patientIdStr, now, fault).0;
      var ok := !fault && Atoi(idStr).Parsed? && InInt32(AtoiValue(idStr));
      && (ok ==> t.audit == s.audit + [AuditEntry(PaidAction(idStr, patientIdStr), AppointmentTarget, AtoiValue(idStr))])
      && (!ok ==> t == s)
  {
    SettleAndAuditEffects(s, IdParam(idStr), AuditEntry(PaidAction(idStr, patientIdStr), AppointmentTarget, AtoiValue(idStr)), now, fault);
  }

  /** The audit entry follows the statement's success, not its effect: an id
      that names no appointment is still recorded as settled. */
  lemma MarkPaidAuditsUnknownId(s: DbState, idStr: string, patientIdStr: string, now: Time)
    requires Atoi(idStr).Parsed? && InInt32(AtoiValue(idStr)) && AtoiValue(idStr) !in s.appointments
    ensures var t := MarkPaidStep(s, idStr, patientIdStr, now, false).0;
      t.appointments == s.appointments && |t.audit| == |s.audit| + 1
  {
  }

  // ---------------------------------------------------------------------------
  // A patient's future and past appointments (`getAppointmentsByTime`)
  // ---------------------------------------------------------------------------

  /** The comparison spliced into the query: `>=` or `<` against the clock. */
  datatype Comparison = AtOrAfter | Before

  predicate Compares(cmp: Comparison, start: Time, now: Time)
  {
    match cmp
    case AtOrAfter => start >= now
    case Before => start < now
  }

  /** One row of the profile lists. */
  datatype VisitRow = VisitRow(id: int, start: Time, status: string, notes: string,
                               doctorName: string, paymentStatus: string)

  /** The patient's appointments that survive the join with `users`. */
  predicate OfPatient(s: DbState, a: Appointment, pid: int)
  {
    a.patientId == pid && a.doctorId in s.users
  }

  function PatientAppointments(s: DbState, pid: int): seq<Appointment>
  {
    Filter(RowsOf(s.appointments), (a: Appointment) => OfPatient(s, a, pid))
  }

  /** `ORDER BY a.start_time DESC`. */
  predicate StartDescLe(a: Appointment, b: Appointment)
  {
    a.start >= b.start
  }

  /** The selected appointments in the order the query returns them. */
  function Selected(s: DbState, pid: int, cmp: Comparison, now: Time): seq<Appointment>
  {
    SortBy(Filter(PatientAppointments(s, pid), (a: Appointment) => Compares(cmp, a.start, now)), StartDescLe)
  }

  /** Every selected appointment's doctor exists. */
  lemma SelectedJoined(s: DbState, pid: int, cmp: Comparison, now: Time)
    ensures forall a :: a in Selected(s, pid, cmp, now) ==> a.doctorId in s.users
  {
    var f := Filter(PatientAppointments(s, pid), (a: Appointment) => Compares(cmp, a.start, now));
    var r := Selected(s, pid, cmp, now);
    SortByPermutes(f, StartDescLe);
    forall a | a in r ensures a.doctorId in s.users {
      assert a in multiset(r);
      assert a in f;
    }
  }

  function VisitRows(s: DbState, rows: seq<Appointment>): (r: seq<VisitRow>)
    requires forall a :: a in rows ==> a.doctorId in s.users
    ensures |r| == |rows|
    ensures forall i :: 0 <= i < |rows| ==> r[i].id == rows[i].id && r[i].start == rows[i].start
  {
    seq(|rows|, i requires 0 <= i < |rows| =>
      var a := rows[i];
      VisitRow(a.id, a.start, a.status, a.notes, s.users[a.doctorId].name, a.paymentStatus))
  }

  /** The result of `getAppointmentsByTime`, or `None` on a query error. */
  function VisitsByTime(s: DbState, pid: int, cmp: Comparison, now: Time, fault: bool): (r: Option<seq<VisitRow>>)
    ensures r.Some? <==> !fault && InInt32(pid)
  {
    if fault || !InInt32(pid) then None
    else
      SelectedJoined(s, pid, cmp, now);
      Some(VisitRows(s, Selected(s, pid, cmp, now)))
  }

  method AppointmentsByTime(db: Database, pid: int, cmp: Comparison, now: Time, fault: bool)
    returns (r: Option<seq<VisitRow>>)
    ensures r == VisitsByTime(db.State(), pid, cmp, now, fault)
  {
    if fault || !InInt32(pid) {
      return None;
    }
    var list := ScanRows(VisitsByTime(db.State(), pid, cmp, now, fault).value);
    return Some(list);
  }

  /** A selection holds exactly the patient's appointments on its side of
      the clock, latest first. */
  lemma SelectedSound(s: DbState, pid: int, cmp: Comparison, now: Time)
    ensures SortedBy(Selected(s, pid, cmp, now), StartDescLe)
    ensures forall a :: a in Selected(s, pid, cmp, now) <==>
      a in s.appointments.Values && OfPatient(s, a, pid) && Compares(cmp, a.start, now)
  {
    var base := PatientAppointments(s, pid);
    var p := (a: Appointment) => Compares(cmp, a.start, now);
    var f := Filter(base, p);
    var r := Selected(s, pid, cmp, now);
    SortByIsSorted(f, StartDescLe);
    forall a ensures a in r <==> a in s.appointments.Values && OfPatient(s, a, pid) && Compares(cmp, a.start, now) {
      assert a in r <==> a in multiset(r);
      assert a in f <==> a in multiset(f);
      if a in s.appointments.Values && OfPatient(s, a, pid) && Compares(cmp, a.start, now) {
        var rows := RowsOf(s.appointments);
        FilterKeeps(rows, (b: Appointment) => OfPatient(s, b, pid), a);
        FilterKeeps(base, p, a);
      }
    }
  }

  /** The rows are listed latest first. */
  lemma VisitsLatestFirst(s: DbState, pid: int, cmp: Comparison, now: Time)
    requires InInt32(pid)
    ensures var r := VisitsByTime(s, pid, cmp, now, false).value;
      forall i, j :: 0 <= i < j < |r| ==> r[i].start >= r[j].start
  {
    SelectedSound(s, pid, cmp, now);
  }

  /** With one clock reading the two queries split the patient's
      appointments: no appointment is in both lists, and together they hold
      each of them exactly once. */
  lemma OneClockSplits(s: DbState, pid: int, now: Time)
    ensures forall a :: a in Selected(s, pid, AtOrAfter, now) ==> a !in Selected(s, pid, Before, now)
    ensures multiset(Selected(s, pid, AtOrAfter, now)) + multiset(Selected(s, pid, Before, now)) ==
            multiset(PatientAppointments(s, pid))
  {
    var base := PatientAppointments(s, pid);
    SelectedSound(s, pid, AtOrAfter, now);
    SelectedSound(s, pid, Before, now);
    SortByPermutes(Filter(base, (a: Appointment) => Compares(AtOrAfter, a.start, now)), StartDescLe);
    SortByPermutes(Filter(base, (a: Appointment) => Compares(Before, a.start, now)), StartDescLe);
    FilterSplit(PatientAppointments(s, pid), (a: Appointment) => Compares(AtOrAfter, a.start, now),
                (a: Appointment) => Compares(Before, a.start, now));
  }

  /** The profile reads the clock twice, first for the future list: an
      appointment starting between the two readings is in both lists, and
      none is in neither. */
  lemma TwoClocksOverlap(s: DbState, pid: int, first: Time, second: Time)
    requires first <= second
    ensures forall a :: a in s.appointments.Values && OfPatient(s, a, pid) && first <= a.start < second ==>
      a in Selected(s, pid, AtOrAfter, first) && a in Selected(s, pid, Before, second)
    ensures forall a :: a in s.appointments.Values && OfPatient(s, a, pid) ==>
      a in Selected(s, pid, AtOrAfter, first) || a in Selected(s, pid, Before, second)
  {
    forall a | a in s.appointments.Values && OfPatient(s, a, pid)
      ensures a in Selected(s, pid, AtOrAfter, first) || a in Selected(s, pid, Before, second)
      ensures first <= a.start < second ==>
        a in Selected(s, pid, AtOrAfter, first) && a in Selected(s, pid, Before, second)
    {
      if a.start >= first {
        SelectedHas(s, pid, AtOrAfter, first, a);
      }
      if a.start < second {
        SelectedHas(s, pid, Before, second, a);
      }
    }
  }

  lemma SelectedHas(s: DbState, pid: int, cmp: Comparison, now: Time, a: Appointment)
    requires a in s.appointments.Values && OfPatient(s, a, pid) && Compares(cmp, a.start, now)
    ensures a in Selected(s, pid, cmp, now)
  {
    SelectedSound(s, pid, cmp, now);
  }

  // ---------------------------------------------------------------------------
  // SearchPatientsAPI
  // ---------------------------------------------------------------------------

  function PatientNames(ps: seq<Patient>): (r: seq<string>)
    ensures |r| == |ps|
    ensures forall i :: 0 <= i < |ps| ==> r[i] == ps[i].contact.name
  {
    seq(|ps|, i requires 0 <= i < |ps| => ps[i].contact.name)
  }

  /** The names of the patients whose name starts with the term. */
  function PrefixNames(s: DbState, term: string): seq<string>
  {
    PatientNames(Filter(RowsOf(s.patients), (p: Patient) => ILikePrefix(p.contact.name, term)))
  }

  /** `SELECT name FROM patients WHERE name ILIKE term || '%' ORDER BY name
      ASC LIMIT 10`. */
  function SearchNames(s: DbState, term: string): seq<string>
  {
    Take(SortBy(PrefixNames(s, term), StringLe), 10)
  }

  function SearchPatients(s: DbState, term: string, fault: bool): NamesResult
  {
    if term == "" then NamesFound([])
    else if fault then NamesFailed
    else NamesFound(SearchNames(s, term))
  }

  method SearchPatientsAPI(db: Database, term: string, fault: bool) returns (r: NamesResult)
    ensures r == SearchPatients(db.State(), term, fault)
  {
    if term == "" {
      return NamesFound([]);
    }
    if fault {
      return NamesFailed;
    }
    var names := ScanRows(SearchNames(db.State(), term));
    return NamesFound(names);
  }

  /** At most ten names in order, each the name of a patient that starts with
      the term (ignoring case); they are the first ten in order: a matching
      name left out means ten came back, none after it; when fewer than ten
      come back, they are all the matches, one per patient, so two patients of
      the same name show twice. */
  lemma SearchPatientsSound(s: DbState, term: string)
    ensures var r := SearchNames(s, term);
      |r| <= 10 && SortedBy(r, StringLe)
    ensures forall n :: n in SearchNames(s, term) ==>
      exists id :: id in s.patients && ILikePrefix(s.patients[id].contact.name, term) && s.patients[id].contact.name == n
    ensures |SearchNames(s, term)| < 10 ==> multiset(SearchNames(s, term)) == multiset(PrefixNames(s, term))
    ensures forall id :: id in s.patients && ILikePrefix(s.patients[id].contact.name, term) ==>
      s.patients[id].contact.name in PrefixNames(s, term)
    ensures var r := SearchNames(s, term);
      forall id :: id in s.patients && ILikePrefix(s.patients[id].contact.name, term) ==>
        s.patients[id].contact.name in r ||
        (|r| == 10 && forall i :: 0 <= i < 10 ==> StringLe(r[i], s.patients[id].contact.name))
  {
    var names := PrefixNames(s, term);
    StringOrder();
    TopSorted(names, StringLe, 10);
    TopIsLeast(names, StringLe, 10);
    forall n | n in SearchNames(s, term)
      ensures exists id :: id in s.patients && ILikePrefix(s.patients[id].contact.name, term) && s.patients[id].contact.name == n
    {
      PrefixNameDrawn(s, term, n);
    }
    forall id | id in s.patients && ILikePrefix(s.patients[id].contact.name, term)
      ensures s.patients[id].contact.name in names
    {
      PrefixNameListed(s, term, id);
    }
  }

  lemma PrefixNameDrawn(s: DbState, term: string, n: string)
    requires n in PrefixNames(s, term)
    ensures exists id :: id in s.patients && ILikePrefix(s.patients[id].contact.name, term) && s.patients[id].contact.name == n
  {
    var f := Filter(RowsOf(s.patients), (p: Patient) => ILikePrefix(p.contact.name, term));
    var names := PatientNames(f);
    var i :| 0 <= i < |names| && names[i] == n;
    assert f[i] in f;
    var id :| id in s.patients && s.patients[id] == f[i];
  }

  lemma PrefixNameListed(s: DbState, term: string, id: int)
    requires id in s.patients && ILikePrefix(s.patients[id].contact.name, term)
    ensures s.patients[id].contact.name in PrefixNames(s, term)
  {
    var matches := (p: Patient) => ILikePrefix(p.contact.name, term);
    var rows := RowsOf(s.patients);
    var f := Filter(rows, matches);
    FilterKeeps(rows, matches, s.patients[id]);
    var i :| 0 <= i < |f| && f[i] == s.patients[id];
    assert PatientNames(f)[i] == s.patients[id].contact.name;
  }
}

=== FILE: storage.dfy ===
/** The PostgreSQL database the handlers talk to: the rows of the `users`,
    `patients`, `appointments`, `patient_records` and `audit_logs` tables, the
    constraints the schema declares on them, and the meaning of each SQL
    statement the handlers issue.  A statement is a function from one database
    state to the next together with its outcome (rows affected, or an error);
    `fault` stands for every failure the model does not derive from the data
    (a lost connection, a dropped table, ...). */
module Storage {
  import opened Prelude
  import opened Clock

  // ---------------------------------------------------------------------------
  // Rows
  // ---------------------------------------------------------------------------

  const Int32Min: int := -0x8000_0000
  const Int32Max: int := 0x7FFF_FFFF

  /** A value PostgreSQL accepts for an `INT` column or parameter. */
  predicate InInt32(x: int) { Int32Min <= x <= Int32Max }

  /** `users.user_type` CHECK constraint. */
  datatype UserType = Terapeuta | Secretaria | Admin

  datatype User = User(id: int, name: string, userType: UserType)

  /** The six emotional levels and five clinical texts that are written both to
      the patient row (its latest state) and to each history row. */
  datatype ClinicalState = ClinicalState(
    anxiety: int, anger: int, fear: int, sadness: int, joy: int, energy: int,
    mainComplaint: string, complaintHistory: string, signsSymptoms: string,
    currentTreatment: string, notes: string)

  predicate LevelsFit(c: ClinicalState)
  {
    InInt32(c.anxiety) && InInt32(c.anger) && InInt32(c.fear) &&
    InInt32(c.sadness) && InInt32(c.joy) && InInt32(c.energy)
  }

  datatype Address = Address(street: string, number: string, neighborhood: string, city: string, state: string)

  /** Day numbers stand for `DATE` values; `None` is SQL NULL. */
  datatype Contact = Contact(
    name: string, address: Address, phone: string, mobile: string,
    dob: Option<int>, age: int, email: string, profession: string)

  datatype Personal = Personal(
    gender: string, maritalStatus: string, children: string, numChildren: int,
    emergencyContact: string, emergencyPhone: string, emergencyOther: string)

  /** The consent-term columns an administrator may also edit. */
  datatype ConsentTerms = ConsentTerms(
    consentDate: Option<int>, consentName: string, consentCpfRg: string,
    signatureDate: Option<int>, signatureLocation: string)

  /** A `patients` row.  `accessToken` is the portal token (NULL for none),
      `consentGivenAt` the instant consent was recorded (NULL until then), and
      `clinical` the latest clinical state (NULL until first written). */
  datatype Patient = Patient(
    id: int, accessToken: Option<string>, consentGivenAt: Option<Time>,
    howFound: string, terms: ConsentTerms, contact: Contact, personal: Personal,
    clinical: Option<ClinicalState>, deleted: bool, createdAt: Time, updatedAt: Time)

  /** A `patient_records` (history) row. */
  datatype ClinicalRecord = ClinicalRecord(
    id: int, patientId: int, doctorId: int, recordDate: Time, state: ClinicalState)

  const Agendado: string := "agendado"
  const Concluido: string := "concluido"
  const Cancelado: string := "cancelado"

  /** `appointments.status` CHECK constraint. */
  predicate IsAppointmentStatus(s: string) { s == Agendado || s == Concluido || s == Cancelado }

  /** `appointments.payment_status` CHECK constraint. */
  predicate IsPaymentStatus(s: string) { s == "pendente" || s == "pago" || s == "isento" }

  datatype Appointment = Appointment(
    id: int, patientId: int, doctorId: int, start: Time, end: Time,
    status: string, notes: string, paymentStatus: string, updatedAt: Time)

  datatype AuditEntry = AuditEntry(action: string, targetType: string, targetId: int)

  /** Widths of the `VARCHAR(n)` columns of `patients`: 255 for names, e-mail,
      the street, neighbourhood and city, profession, marital status, the
      emergency contact and note, the signature place and how-found; 50 for the
      house number, the state, phones, gender and the CPF/RG; 10 for
      `children`; 64 for `access_token`. */
  const WideColumn: nat := 255
  const NarrowColumn: nat := 50
  const ChildrenColumn: nat := 10
  const TokenColumnWidth: nat := 64

  /** Assigning text to a `VARCHAR(n)` column: text of at most n characters is
      stored as it is; longer text is cut to n characters when everything past
      the n-th is a space, and refused otherwise (SQLSTATE 22001). */
  function Varchar(t: string, n: nat): (r: Option<string>)
    ensures |t| <= n ==> r == Some(t)
    ensures r.Some? ==> |r.value| <= n
  {
    if |t| <= n then Some(t)
    else if forall i :: n <= i < |t| ==> t[i] == ' ' then Some(t[..n])
    else None
  }

  /** The column refuses a text exactly when a non-space character lies past
      its width; what it keeps is a prefix of the text followed, in the text,
      only by spaces. */
  lemma VarcharSound(t: string, n: nat)
    ensures Varchar(t, n).None? <==> exists i :: n <= i < |t| && t[i] != ' '
    ensures Varchar(t, n).Some? ==>
      var v := Varchar(t, n).value;
      IsPrefix(v, t) && forall i :: |v| <= i < |t| ==> t[i] == ' '
  {
  }

  /** A snapshot of all tables, with the next value of each `SERIAL` id. */
  datatype DbState = DbState(
    users: map<int, User>,
    patients: map<int, Patient>,
    appointments: map<int, Appointment>,
    records: seq<ClinicalRecord>,
    audit: seq<AuditEntry>,
    nextPatientId: int,
    nextAppointmentId: int,
    nextRecordId: int)

  /** What the schema guarantees of every state: keys are the rows' ids and
      below the next serial value, tokens are unique and fit their column, the
      CHECK constraints hold, and foreign keys point at existing rows. */
  ghost predicate Consistent(s: DbState)
  {
    (forall id :: id in s.users ==> s.users[id].id == id) &&
    (forall id :: id in s.patients ==> s.patients[id].id == id && id < s.nextPatientId) &&
    (forall id :: id in s.appointments ==> s.appointments[id].id == id && id < s.nextAppointmentId) &&
    (forall i :: 0 <= i < |s.records| ==> s.records[i].id < s.nextRecordId) &&
    UniqueTokens(s.patients) &&
    (forall id :: id in s.patients && s.patients[id].accessToken.Some? ==>
       |s.patients[id].accessToken.value| <= TokenColumnWidth) &&
    (forall id :: id in s.appointments ==>
       IsAppointmentStatus(s.appointments[id].status) &&
       IsPaymentStatus(s.appointments[id].paymentStatus) &&
       s.appointments[id].patientId in s.patients &&
       s.appointments[id].doctorId in s.users) &&
    (forall i :: 0 <= i < |s.records| ==>
       s.records[i].patientId in s.patients && s.records[i].doctorId in s.users)
  }

  /** `UNIQUE (access_token)`: NULLs may repeat, tokens may not. */
  ghost predicate UniqueTokens(patients: map<int, Patient>)
  {
    forall a, b :: a in patients && b in patients && a != b && patients[a].accessToken.Some? ==>
      patients[a].accessToken != patients[b].accessToken
  }

  /** Once a patient has consented, that stays recorded. */
  ghost predicate ConsentKept(s: DbState, t: DbState)
  {
    forall id :: id in s.patients && s.patients[id].consentGivenAt.Some? ==>
      id in t.patients && t.patients[id].consentGivenAt.Some?
  }

  // ---------------------------------------------------------------------------
  // Reading tables
  // ---------------------------------------------------------------------------

  /** ASCII case folding, as `ILIKE` applies it to unaccented letters. */
  function Lower(c: char): char
  {
    if 'A' <= c <= 'Z' then (c as int + 32) as char else c
  }

  function LowerString(s: string): (r: string)
    ensures |r| == |s|
  {
    seq(|s|, i requires 0 <= i < |s| => Lower(s[i]))
  }

  /** `text ILIKE '%' || term || '%'`. */
  predicate ILikeContains(text: string, term: string)
  {
    Contains(LowerString(text), LowerString(term))
  }

  /** `text ILIKE term || '%'`. */
  predicate ILikePrefix(text: string, term: string)
  {
    IsPrefix(LowerString(term), LowerString(text))
  }

  /** `ORDER BY name`. */
  predicate PatientNameLe(a: Patient, b: Patient)
  {
    StringLe(a.contact.name, b.contact.name)
  }

  lemma PatientNameOrder()
    ensures TotalPreorder(PatientNameLe)
  {
    StringOrder();
    forall a: Patient, b: Patient ensures PatientNameLe(a, b) || PatientNameLe(b, a) {
      assert StringLe(a.contact.name, b.contact.name) || StringLe(b.contact.name, a.contact.name);
    }
    forall a: Patient, b: Patient, c: Patient | PatientNameLe(a, b) && PatientNameLe(b, c)
      ensures PatientNameLe(a, c)
    {
      StringLeTransitive(a.contact.name, b.contact.name, c.contact.name);
    }
  }

  /** `for rows.Next() { rows.Scan(...); list = append(list, row) }`: the
      rows a query returns, copied one by one into a Go slice. */
  method ScanRows<T>(rows: seq<T>) returns (list: seq<T>)
    ensures list == rows
  {
    list := [];
    var i := 0;
    while i < |rows|
      invariant 0 <= i <= |rows|
      invariant list == rows[..i]
    {
      list := list + [rows[i]];
      i := i + 1;
    }
    assert rows[..|rows|] == rows;
  }

  // ---------------------------------------------------------------------------
  // Statements
  // ---------------------------------------------------------------------------

  /** Outcome of `Exec`: rows affected, or an error. */
  datatype Exec = Done(rowsAffected: nat) | Failed

  /** A value bound to a `DATE` parameter: Go `nil`, a `time.Time`, or a Go
      string that PostgreSQL must read as a date. */
  datatype DateParam = NullDate | DateValue(day: int) | DateText(text: string)

  /** What the `DATE` column receives, or `None` when PostgreSQL rejects the
      parameter.  Text is read in the ISO form only; the empty string is
      rejected. */
  function DateColumn(p: DateParam): (r: Option<Option<int>>)
    ensures p.DateText? && p.text == "" ==> r.None?
    ensures p.NullDate? ==> r == Some(None)
    ensures p.DateValue? ==> r == Some(Some(p.day))
  {
    match p
    case NullDate => Some(None)
    case DateValue(d) => Some(Some(d))
    case DateText(t) =>
      match ParseDate(t)
      case Some(d) => Some(Some(DayNumber(d)))
      case None => None
  }

  datatype ContactForm = ContactForm(
    name: string, address: Address, phone: string, mobile: string,
    dob: DateParam, age: int, email: string, profession: string)

  datatype TermsForm = TermsForm(
    consentDate: DateParam, consentName: string, consentCpfRg: string,
    signatureDate: DateParam, signatureLocation: string)

  /** The three `UPDATE patients SET ... WHERE id = $n` statements. */
  datatype PatientEdit =
    | AdminEdit(terms: TermsForm, contact: ContactForm, personal: Personal, clinical: ClinicalState, now: Time)
    | TherapistEdit(contact: ContactForm, clinical: ClinicalState, now: Time)
    | ConsentEdit(consentName: string, consentCpf: string, howFound: string, now: Time)

  predicate AddressFits(a: Address)
  {
    Varchar(a.street, WideColumn).Some? && Varchar(a.number, NarrowColumn).Some? &&
    Varchar(a.neighborhood, WideColumn).Some? && Varchar(a.city, WideColumn).Some? &&
    Varchar(a.state, NarrowColumn).Some?
  }

  /** The text columns of the contact block fit their widths. */
  predicate ContactTextsFit(c: ContactForm)
  {
    Varchar(c.name, WideColumn).Some? && AddressFits(c.address) &&
    Varchar(c.phone, NarrowColumn).Some? && Varchar(c.mobile, NarrowColumn).Some? &&
    Varchar(c.email, WideColumn).Some? && Varchar(c.profession, WideColumn).Some?
  }

  predicate ContactFits(c: ContactForm) { DateColumn(c.dob).Some? && InInt32(c.age) && ContactTextsFit(c) }

  predicate TermsFit(t: TermsForm)
  {
    DateColumn(t.consentDate).Some? && DateColumn(t.signatureDate).Some? &&
    Varchar(t.consentName, WideColumn).Some? && Varchar(t.consentCpfRg, NarrowColumn).Some? &&
    Varchar(t.signatureLocation, WideColumn).Some?
  }

  predicate PersonalFits(p: Personal)
  {
    Varchar(p.gender, NarrowColumn).Some? && Varchar(p.maritalStatus, WideColumn).Some? &&
    Varchar(p.children, ChildrenColumn).Some? && InInt32(p.numChildren) &&
    Varchar(p.emergencyContact, WideColumn).Some? && Varchar(p.emergencyPhone, NarrowColumn).Some? &&
    Varchar(p.emergencyOther, WideColumn).Some?
  }

  predicate ConsentFits(name: string, cpf: string, howFound: string)
  {
    Varchar(name, WideColumn).Some? && Varchar(cpf, NarrowColumn).Some? && Varchar(howFound, WideColumn).Some?
  }

  /** Whether PostgreSQL accepts every parameter of the statement. */
  predicate EditFits(e: PatientEdit)
  {
    match e
    case AdminEdit(t, c, p, cl, _) => TermsFit(t) && ContactFits(c) && PersonalFits(p) && LevelsFit(cl)
    case TherapistEdit(c, cl, _) => ContactFits(c) && LevelsFit(cl)
    case ConsentEdit(name, cpf, how, _) => ConsentFits(name, cpf, how)
  }

  function StoredAddress(a: Address): Address
    requires AddressFits(a)
  {
    Address(Varchar(a.street, WideColumn).value, Varchar(a.number, NarrowColumn).value,
            Varchar(a.neighborhood, WideColumn).value, Varchar(a.city, WideColumn).value,
            Varchar(a.state, NarrowColumn).value)
  }

  function StoredContact(c: ContactForm): Contact
    requires ContactFits(c)
  {
    Contact(Varchar(c.name, WideColumn).value, StoredAddress(c.address),
            Varchar(c.phone, NarrowColumn).value, Varchar(c.mobile, NarrowColumn).value,
            DateColumn(c.dob).value, c.age,
            Varchar(c.email, WideColumn).value, Varchar(c.profession, WideColumn).value)
  }

  function StoredTerms(t: TermsForm): ConsentTerms
    requires TermsFit(t)
  {
    ConsentTerms(DateColumn(t.consentDate).value, Varchar(t.consentName, WideColumn).value,
                 Varchar(t.consentCpfRg, NarrowColumn).value,
                 DateColumn(t.signatureDate).value, Varchar(t.signatureLocation, WideColumn).value)
  }

  function StoredPersonal(p: Personal): Personal
    requires PersonalFits(p)
  {
    Personal(Varchar(p.gender, NarrowColumn).value, Varchar(p.maritalStatus, WideColumn).value,
             Varchar(p.children, ChildrenColumn).value, p.numChildren,
             Varchar(p.emergencyContact, WideColumn).value, Varchar(p.emergencyPhone, NarrowColumn).value,
             Varchar(p.emergencyOther, WideColumn).value)
  }

  /** The row after the edit.  The consent statement stamps `consent_given_at`,
      `consent_date` and `signature_date` with the current time; no edit
      touches the token, the creation time or the deletion mark. */
  function ApplyEdit(p: Patient, e: PatientEdit): (q: Patient)
    requires EditFits(e)
    ensures q.id == p.id && q.accessToken == p.accessToken && q.deleted == p.deleted
    ensures q.createdAt == p.createdAt
    ensures p.consentGivenAt.Some? ==> q.consentGivenAt.Some?
  {
    match e
    case AdminEdit(t, c, per, cl, now) =>
      p.(terms := StoredTerms(t), contact := StoredContact(c), personal := StoredPersonal(per),
         clinical := Some(cl), updatedAt := now)
    case TherapistEdit(c, cl, now) =>
      p.(contact := StoredContact(c), clinical := Some(cl), updatedAt := now)
    case ConsentEdit(name, cpf, how, now) =>
      p.(terms := p.terms.(consentName := Varchar(name, WideColumn).value,
                           consentCpfRg := Varchar(cpf, NarrowColumn).value,
                           consentDate := Some(DayOf(now)), signatureDate := Some(DayOf(now))),
         howFound := Varchar(how, WideColumn).value, consentGivenAt := Some(now))
  }

  /** `UPDATE patients SET ... WHERE id = $n`: an error leaves the table as it
      was; a missing id affects no row. */
  function UpdatePatient(s: DbState, id: int, e: PatientEdit, fault: bool): (r: (DbState, Exec))
    ensures r.0 == s || (r.1 == Done(1) && id in s.patients && EditFits(e) &&
                         r.0 == s.(patients := s.patients[id := ApplyEdit(s.patients[id], e)]))
    ensures r.1 == Failed <==> fault || !InInt32(id) || !EditFits(e)
    ensures r.1 == Done(0) <==> !fault && InInt32(id) && EditFits(e) && id !in s.patients
  {
    if fault || !InInt32(id) || !EditFits(e) then (s, Failed)
    else if id in s.patients then
      (s.(patients := s.patients[id := ApplyEdit(s.patients[id], e)]), Done(1))
    else (s, Done(0))
  }

  /** `INSERT INTO patient_records ...`: the foreign keys on `patient_id` and
      `doctor_id` and the `INT` level columns can reject it. */
  function InsertRecord(s: DbState, patientId: int, doctorId: int, c: ClinicalState, now: Time, fault: bool)
    : (r: (DbState, Exec))
    ensures r.1 == Failed <==> fault || !LevelsFit(c) || patientId !in s.patients || doctorId !in s.users
    ensures r.1 == Failed ==> r.0 == s
    ensures r.1 != Failed ==>
      (r.1 == Done(1) &&
       r.0 == s.(records := s.records + [ClinicalRecord(s.nextRecordId, patientId, doctorId, now, c)],
                 nextRecordId := s.nextRecordId + 1))
  {
    if fault || !LevelsFit(c) || patientId !in s.patients || doctorId !in s.users then (s, Failed)
    else
      (s.(records := s.records + [ClinicalRecord(s.nextRecordId, patientId, doctorId, now, c)],
          nextRecordId := s.nextRecordId + 1), Done(1))
  }

  /** `INSERT INTO appointments ...`: the status CHECK and both foreign keys can
      reject it; the payment status takes its default, 'pendente'. */
  function InsertAppointment(s: DbState, patientId: int, doctorId: int, start: Time, end: Time,
                             status: string, notes: string, now: Time, fault: bool): (r: (DbState, Exec))
    ensures r.1 == Failed <==>
      fault || !IsAppointmentStatus(status) || patientId !in s.patients || doctorId !in s.users
    ensures r.1 == Failed ==> r.0 == s
    ensures r.1 != Failed ==>
      (r.1 == Done(1) &&
       r.0 == s.(appointments := s.appointments[s.nextAppointmentId :=
                   Appointment(s.nextAppointmentId, patientId, doctorId, start, end, status, notes, "pendente", now)],
                 nextAppointmentId := s.nextAppointmentId + 1))
  {
    if fault || !IsAppointmentStatus(status) || patientId !in s.patients || doctorId !in s.users then (s, Failed)
    else
      var a := Appointment(s.nextAppointmentId, patientId, doctorId, start, end, status, notes, "pendente", now);
      (s.(appointments := s.appointments[a.id := a], nextAppointmentId := a.id + 1), Done(1))
  }

  /** The two single-column updates of an appointment. */
  datatype AppointmentChange = SetStatus(status: string) | SetPayment(paymentStatus: string)

  function ApplyChange(a: Appointment, c: AppointmentChange, now: Time): (b: Appointment)
    ensures b.id == a.id && b.patientId == a.patientId && b.doctorId == a.doctorId
    ensures b.start == a.start && b.end == a.end && b.notes == a.notes && b.updatedAt == now
  {
    match c
    case SetStatus(st) => a.(status := st, updatedAt := now)
    case SetPayment(ps) => a.(paymentStatus := ps, updatedAt := now)
  }

  predicate ChangeAllowed(c: AppointmentChange)
  {
    match c
    case SetStatus(st) => IsAppointmentStatus(st)
    case SetPayment(ps) => IsPaymentStatus(ps)
  }

  /** `UPDATE appointments SET <column> = <value>, updated_at = $1 WHERE id = $2`,
      with the id as PostgreSQL reads it from the URL text (`None` when it is not
      an integer, which is an error). */
  function UpdateAppointment(s: DbState, id: Option<int>, c: AppointmentChange, now: Time, fault: bool)
    : (r: (DbState, Exec))
    ensures r.1 == Failed <==> fault || id.None? || !InInt32(id.value) || !ChangeAllowed(c)
    ensures r.1 == Done(1) <==> r.1 != Failed && id.value in s.appointments
    ensures r.1 == Done(1) ==>
      r.0 == s.(appointments := s.appointments[id.value := ApplyChange(s.appointments[id.value], c, now)])
    ensures r.1 != Done(1) ==> r.0 == s
  {
    if fault || id.None? || !InInt32(id.value) || !ChangeAllowed(c) then (s, Failed)
    else if id.value in s.appointments then
      (s.(appointments := s.appointments[id.value := ApplyChange(s.appointments[id.value], c, now)]), Done(1))
    else (s, Done(0))
  }

  /** Whether any history row or any appointment, of whatever status, still
      references the user; the foreign keys then refuse to delete it. */
  predicate UserReferenced(s: DbState, id: int)
  {
    (exists i :: 0 <= i < |s.records| && s.records[i].doctorId == id) ||
    (exists k :: k in s.appointments && s.appointments[k].doctorId == id)
  }

  /** `DELETE FROM users WHERE id = $1`. */
  function DeleteUserRow(s: DbState, id: Option<int>, fault: bool): (r: (DbState, Exec))
    ensures r.1 == Failed <==> fault || id.None? || !InInt32(id.value) || UserReferenced(s, id.value)
    ensures r.1 == Done(1) ==> r.0 == s.(users := s.users - {id.value})
    ensures r.1 != Done(1) ==> r.0 == s
  {
    if fault || id.None? || !InInt32(id.value) || UserReferenced(s, id.value) then (s, Failed)
    else if id.value in s.users then (s.(users := s.users - {id.value}), Done(1))
    else (s, Done(0))
  }

  /** The registration's five text parameters fit their columns. */
  predicate RegistrationFits(name: string, email: string, phone: string, mobile: string, token: string)
  {
    Varchar(name, WideColumn).Some? && Varchar(email, WideColumn).Some? &&
    Varchar(phone, NarrowColumn).Some? && Varchar(mobile, NarrowColumn).Some? &&
    Varchar(token, TokenColumnWidth).Some?
  }

  /** Whether the INSERT is refused: a fault, a text too long for its column,
      or a token (as the column keeps it) that another patient already holds. */
  predicate RegistrationRefused(s: DbState, name: string, email: string, phone: string, mobile: string,
                                token: string, fault: bool)
  {
    fault || !RegistrationFits(name, email, phone, mobile, token) ||
    TokenTaken(s, Varchar(token, TokenColumnWidth).value)
  }

  /** `INSERT INTO patients (name, email, phone, mobile, access_token, ...)
      RETURNING id`: every other column starts NULL.  Each text must fit its
      column and the token must be new. */
  function InsertPatient(s: DbState, name: string, email: string, phone: string, mobile: string,
                         token: string, now: Time, fault: bool): (r: (DbState, Option<int>))
    ensures r.1.None? <==> RegistrationRefused(s, name, email, phone, mobile, token, fault)
    ensures r.1.None? ==> r.0 == s
    ensures r.1.Some? ==>
      (r.1.value == s.nextPatientId && RegistrationFits(name, email, phone, mobile, token) &&
       r.0 == s.(patients := s.patients[s.nextPatientId := NewPatient(s.nextPatientId, name, email, phone, mobile, token, now)],
                 nextPatientId := s.nextPatientId + 1))
  {
    if RegistrationRefused(s, name, email, phone, mobile, token, fault) then (s, None)
    else
      var p := NewPatient(s.nextPatientId, name, email, phone, mobile, token, now);
      (s.(patients := s.patients[p.id := p], nextPatientId := p.id + 1), Some(p.id))
  }

  predicate TokenTaken(s: DbState, token: string)
  {
    exists id :: id in s.patients && s.patients[id].accessToken == Some(token)
  }

  const EmptyAddress: Address := Address("", "", "", "", "")
  const EmptyTerms: ConsentTerms := ConsentTerms(None, "", "", None, "")
  const EmptyPersonal: Personal := Personal("", "", "", 0, "", "", "")

  /** A freshly registered patient: token issued, no consent, no clinical data;
      each text as its column keeps it. */
  function NewPatient(id: int, name: string, email: string, phone: string, mobile: string,
                      token: string, now: Time): (p: Patient)
    requires RegistrationFits(name, email, phone, mobile, token)
    ensures p.id == id && p.accessToken == Some(Varchar(token, TokenColumnWidth).value)
    ensures p.consentGivenAt.None? && p.clinical.None? && !p.deleted
  {
    Patient(id, Some(Varchar(token, TokenColumnWidth).value), None, "", EmptyTerms,
            Contact(Varchar(name, WideColumn).value, EmptyAddress,
                    Varchar(phone, NarrowColumn).value, Varchar(mobile, NarrowColumn).value, None, 0,
                    Varchar(email, WideColumn).value, ""),
            EmptyPersonal, None, false, now, now)
  }

  /** `INSERT INTO audit_logs ...`. */
  function AppendAudit(s: DbState, e: AuditEntry): (t: DbState)
    ensures t.audit == s.audit + [e]
  {
    s.(audit := s.audit + [e])
  }

  // ---------------------------------------------------------------------------
  // The schema's guarantees survive every statement
  // ---------------------------------------------------------------------------

  lemma UpdatePatientKeepsConsistent(s: DbState, id: int, e: PatientEdit, fault: bool)
    requires Consistent(s)
    ensures Consistent(UpdatePatient(s, id, e, fault).0)
    ensures ConsentKept(s, UpdatePatient(s, id, e, fault).0)
  {
    var t := UpdatePatient(s, id, e, fault).0;
    if t != s {
      var q := ApplyEdit(s.patients[id], e);
      assert t == s.(patients := s.patients[id := q]);
      PatientRowReplaced(s, id, q);
    }
  }

  /** Rewriting one patient row in place, keeping its id, its token and any
      consent it holds, keeps the schema's guarantees. */
  lemma PatientRowReplaced(s: DbState, id: int, q: Patient)
    requires Consistent(s) && id in s.patients
    requires q.id == id && q.accessToken == s.patients[id].accessToken
    requires s.patients[id].consentGivenAt.Some? ==> q.consentGivenAt.Some?
    ensures Consistent(s.(patients := s.patients[id := q]))
    ensures ConsentKept(s, s.(patients := s.patients[id := q]))
  {
    var t := s.(patients := s.patients[id := q]);
    assert t.patients.Keys == s.patients.Keys;
    assert UniqueTokens(t.patients) by {
      TokensKept(s.patients, id, q);
    }
  }

  lemma TokensKept(patients: map<int, Patient>, id: int, q: Patient)
    requires UniqueTokens(patients) && id in patients && q.accessToken == patients[id].accessToken
    ensures UniqueTokens(patients[id := q])
  {
    var t := patients[id := q];
    assert forall k :: k in t ==> k in patients && t[k].accessToken == patients[k].accessToken;
  }

  lemma InsertRecordKeepsConsistent(s: DbState, patientId: int, doctorId: int, c: ClinicalState, now: Time, fault: bool)
    requires Consistent(s)
    ensures Consistent(InsertRecord(s, patientId, doctorId, c, now, fault).0)
    ensures ConsentKept(s, InsertRecord(s, patientId, doctorId, c, now, fault).0)
  {
  }

  lemma AppendAuditKeepsConsistent(s: DbState, e: AuditEntry)
    requires Consistent(s)
    ensures Consistent(AppendAudit(s, e)) && ConsentKept(s, AppendAudit(s, e))
  {
  }

  lemma ConsentKeptChain(s: DbState, t: DbState, u: DbState)
    requires ConsentKept(s, t) && ConsentKept(t, u)
    ensures ConsentKept(s, u)
  {
  }

  lemma InsertAppointmentKeepsConsistent(s: DbState, patientId: int, doctorId: int, start: Time, end: Time,
                                         status: string, notes: string, now: Time, fault: bool)
    requires Consistent(s)
    ensures Consistent(InsertAppointment(s, patientId, doctorId, start, end, status, notes, now, fault).0)
    ensures ConsentKept(s, InsertAppointment(s, patientId, doctorId, start, end, status, notes, now, fault).0)
  {
  }

  lemma UpdateAppointmentKeepsConsistent(s: DbState, id: Option<int>, c: AppointmentChange, now: Time, fault: bool)
    requires Consistent(s)
    ensures Consistent(UpdateAppointment(s, id, c, now, fault).0)
    ensures ConsentKept(s, UpdateAppointment(s, id, c, now, fault).0)
  {
  }

  /** The guard that matters is the foreign key: a user still named by any
      history row or any appointment is never removed. */
  lemma DeleteUserRowKeepsConsistent(s: DbState, id: Option<int>, fault: bool)
    requires Consistent(s)
    ensures Consistent(DeleteUserRow(s, id, fault).0)
    ensures ConsentKept(s, DeleteUserRow(s, id, fault).0)
  {
    var r := DeleteUserRow(s, id, fault);
    if r.1 == Done(1) {
      var t := r.0;
      forall k | k in t.appointments ensures t.appointments[k].doctorId in t.users {
        assert t.appointments[k].doctorId != id.value;
      }
      forall i | 0 <= i < |t.records| ensures t.records[i].doctorId in t.users {
        assert t.records[i].doctorId != id.value;
      }
    }
  }

  lemma InsertPatientKeepsConsistent(s: DbState, name: string, email: string, phone: string, mobile: string,
                                     token: string, now: Time, fault: bool)
    requires Consistent(s)
    ensures Consistent(InsertPatient(s, name, email, phone, mobile, token, now, fault).0)
    ensures ConsentKept(s, InsertPatient(s, name, email, phone, mobile, token, now, fault).0)
  {
    var r := InsertPatient(s, name, email, phone, mobile, token, now, fault);
    if r.1.Some? {
      var t := r.0;
      var n := s.nextPatientId;
      assert n !in s.patients;
      forall a, b | a in t.patients && b in t.patients && a != b && t.patients[a].accessToken.Some?
        ensures t.patients[a].accessToken != t.patients[b].accessToken
      {
        if a == n {
          assert !(b in s.patients && s.patients[b].accessToken == Some(Varchar(token, TokenColumnWidth).value));
        } else if b == n {
          assert !(a in s.patients && s.patients[a].accessToken == Some(Varchar(token, TokenColumnWidth).value));
        }
      }
    }
  }

  // ---------------------------------------------------------------------------
  // The database object the handlers share
  // ---------------------------------------------------------------------------

  /** The connection pool the handlers share (`h.DB`); each method runs one
      statement, in place. */
  class Database {
    var users: map<int, User>
    var patients: map<int, Patient>
    var appointments: map<int, Appointment>
    var records: seq<ClinicalRecord>
    var audit: seq<AuditEntry>
    var nextPatientId: int
    var nextAppointmentId: int
    var nextRecordId: int

    function State(): DbState
      reads this
    {
      DbState(users, patients, appointments, records, audit, nextPatientId, nextAppointmentId, nextRecordId)
    }

    constructor (s: DbState)
      ensures State() == s
    {
      users, patients, appointments := s.users, s.patients, s.appointments;
      records, audit := s.records, s.audit;
      nextPatientId, nextAppointmentId, nextRecordId := s.nextPatientId, s.nextAppointmentId, s.nextRecordId;
    }

    method Load(s: DbState)
      modifies this
      ensures State() == s
    {
      users, patients, appointments := s.users, s.patients, s.appointments;
      records, audit := s.records, s.audit;
      nextPatientId, nextAppointmentId, nextRecordId := s.nextPatientId, s.nextAppointmentId, s.nextRecordId;
    }

    method ExecUpdatePatient(id: int, e: PatientEdit, fault: bool) returns (r: Exec)
      modifies this
      ensures (State(), r) == UpdatePatient(old(State()), id, e, fault)
    {
      var next;
      next, r := UpdatePatient(State(), id, e, fault).0, UpdatePatient(State(), id, e, fault).1;
      patients := next.patients;
    }

    method ExecInsertRecord(patientId: int, doctorId: int, c: ClinicalState, now: Time, fault: bool)
      returns (r: Exec)
      modifies this
      ensures (State(), r) == InsertRecord(old(State()), patientId, doctorId, c, now, fault)
    {
      if fault || !LevelsFit(c) || patientId !in patients || doctorId !in users {
        r := Failed;
      } else {
        records := records + [ClinicalRecord(nextRecordId, patientId, doctorId, now, c)];
        nextRecordId := nextRecordId + 1;
        r := Done(1);
      }
    }

    method ExecInsertAppointment(patientId: int, doctorId: int, start: Time, end: Time,
                                 status: string, notes: string, now: Time, fault: bool) returns (r: Exec)
      modifies this
      ensures (State(), r) == InsertAppointment(old(State()), patientId, doctorId, start, end, status, notes, now, fault)
    {
      if fault || !IsAppointmentStatus(status) || patientId !in patients || doctorId !in users {
        r := Failed;
      } else {
        var a := Appointment(nextAppointmentId, patientId, doctorId, start, end, status, notes, "pendente", now);
        appointments := appointments[a.id := a];
        nextAppointmentId := a.id + 1;
        r := Done(1);
      }
    }

    method ExecUpdateAppointment(id: Option<int>, c: AppointmentChange, now: Time, fault: bool) returns (r: Exec)
      modifies this
      ensures (State(), r) == UpdateAppointment(old(State()), id, c, now, fault)
    {
      if fault || id.None? || !InInt32(id.value) || !ChangeAllowed(c) {
        r := Failed;
      } else if id.value in appointments {
        appointments := appointments[id.value := ApplyChange(appointments[id.value], c, now)];
        r := Done(1);
      } else {
        r := Done(0);
      }
    }

    method ExecDeleteUser(id: Option<int>, fault: bool) returns (r: Exec)
      modifies this
      ensures (State(), r) == DeleteUserRow(old(State()), id, fault)
    {
      if fault || id.None? || !InInt32(id.value) || UserReferenced(State(), id.value) {
        r := Failed;
      } else if id.value in users {
        users := users - {id.value};
        r := Done(1);
      } else {
        r := Done(0);
      }
    }

    method ExecInsertPatient(name: string, email: string, phone: string, mobile: string,
                             token: string, now: Time, fault: bool) returns (newId: Option<int>)
      modifies this
      ensures (State(), newId) == InsertPatient(old(State()), name, email, phone, mobile, token, now, fault)
    {
      if RegistrationRefused(State(), name, email, phone, mobile, token, fault) {
        newId := None;
      } else {
        var p := NewPatient(nextPatientId, name, email, phone, mobile, token, now);
        patients := patients[p.id := p];
        nextPatientId := p.id + 1;
        newId := Some(p.id);
      }
    }

    method ExecAppendAudit(e: AuditEntry)
      modifies this
      ensures State() == AppendAudit(old(State()), e)
    {
      audit := audit + [e];
    }
  }
}

=== FILE: strconv.dfy ===
/** Go's `strconv.Atoi` and `strconv.Itoa` on a 64-bit platform.  The handlers
    convert form fields and URL parameters with `v, _ := strconv.Atoi(s)` and
    keep whatever value comes back, error or not, so the model says exactly
    which value that is. */
module Strconv {
  import opened Prelude

  const MaxUint64: int := 0xFFFF_FFFF_FFFF_FFFF

  predicate IsDigit(c: char) { '0' <= c <= '9' }

  function DigitValue(c: char): (v: nat)
    requires IsDigit(c)
    ensures v < 10
  {
    c as int - '0' as int
  }

  function DigitChar(v: nat): (c: char)
    requires v < 10
    ensures IsDigit(c) && DigitValue(c) == v
  {
    ('0' as int + v) as char
  }

  predicate AllDigits(s: string) { forall i :: 0 <= i < |s| ==> IsDigit(s[i]) }

  /** The number a string of decimal digits denotes (leading zeros allowed). */
  function DecimalValue(s: string): nat
    requires AllDigits(s)
  {
    if s == [] then 0 else DecimalValue(s[..|s| - 1]) * 10 + DigitValue(s[|s| - 1])
  }

  /** Length of the run of decimal digits at the front of `s`. */
  function LeadingDigits(s: string): (k: nat)
    ensures k <= |s|
    ensures AllDigits(s[..k])
    ensures k < |s| ==> !IsDigit(s[k])
  {
    if s == [] || !IsDigit(s[0]) then 0
    else
      var k := 1 + LeadingDigits(s[1..]);
      assert s[..k] == [s[0]] + s[1..][..k - 1];
      k
  }

  /** What `strconv.Atoi` reports: a value, a syntax error (value 0), or a
      range error carrying the value clamped to the 64-bit range. */
  datatype IntParse = Parsed(value: int) | SyntaxError | RangeError(clamped: int)

  /** Optional sign, then decimal digits only (no underscores, no spaces).  The
      digits are read left to right, so a run of digits that already exceeds
      2^64-1 is a range error even when junk follows it; otherwise any non-digit
      is a syntax error, and a digit string outside the signed 64-bit range is a
      range error. */
  function Atoi(s: string): (r: IntParse)
    ensures r.Parsed? ==> InInt64(r.value)
    ensures r.RangeError? ==> r.clamped in {Int64Min, Int64Max}
    ensures s == [] ==> r == SyntaxError
  {
    var neg := |s| > 0 && s[0] == '-';
    var body := if |s| > 0 && (s[0] == '+' || s[0] == '-') then s[1..] else s;
    var k := LeadingDigits(body);
    var clamp := if neg then Int64Min else Int64Max;
    if body == [] then SyntaxError
    else if DecimalValue(body[..k]) > MaxUint64 then RangeError(clamp)
    else if k < |body| then SyntaxError
    else
      assert body[..k] == body;
      var v: int := DecimalValue(body);
      var n := if neg then -v else v;
      if InInt64(n) then Parsed(n) else RangeError(clamp)
  }

  /** The value left in `v` by `v, _ := strconv.Atoi(s)`. */
  function AtoiValue(s: string): (v: int)
    ensures InInt64(v)
    ensures Atoi(s) == SyntaxError ==> v == 0
    ensures Atoi(s).Parsed? ==> v == Atoi(s).value
  {
    match Atoi(s)
    case Parsed(n) => n
    case SyntaxError => 0
    case RangeError(c) => c
  }

  /** Decimal digits of a natural number, without leading zeros. */
  function FormatNat(n: nat): (s: string)
    ensures s != [] && AllDigits(s)
  {
    if n < 10 then [DigitChar(n)]
    else
      var s := FormatNat(n / 10) + [DigitChar(n % 10)];
      assert forall i :: 0 <= i < |s| - 1 ==> s[i] == FormatNat(n / 10)[i];
      s
  }

  /** `strconv.Itoa`. */
  function Itoa(n: int): (s: string)
    ensures s != []
  {
    if n < 0 then "-" + FormatNat(-n) else FormatNat(n)
  }

  lemma {:induction false} FormatNatValue(n: nat)
    ensures DecimalValue(FormatNat(n)) == n
  {
    if n >= 10 {
      var s := FormatNat(n);
      assert s[..|s| - 1] == FormatNat(n / 10);
      FormatNatValue(n / 10);
    }
  }

  /** Atoi undoes Itoa on every 64-bit integer. */
  lemma AtoiItoa(n: int)
    requires InInt64(n)
    ensures Atoi(Itoa(n)) == Parsed(n)
    ensures AtoiValue(Itoa(n)) == n
  {
    var m: nat := if n < 0 then -n else n;
    var digits := FormatNat(m);
    FormatNatValue(m);
    var s := Itoa(n);
    var body := if n < 0 then s[1..] else s;
    assert body == digits;
    assert body[..|body|] == body;
  }

  /** A field with no digit at all (an empty box, "abc", "-") reads as 0. */
  lemma AtoiWithoutDigits(s: string)
    requires forall i :: 0 <= i < |s| ==> !IsDigit(s[i])
    ensures Atoi(s) == SyntaxError && AtoiValue(s) == 0
  {
    var body := if |s| > 0 && (s[0] == '+' || s[0] == '-') then s[1..] else s;
    if body != [] {
      assert !IsDigit(body[0]);
      assert body[..0] == [];
    }
  }

  /** Digits followed by anything else are a syntax error as long as the digits
      themselves fit in 64 unsigned bits: "12abc" reads as 0, not 12. */
  lemma AtoiTrailingJunk(digits: string, rest: string)
    requires digits != [] && AllDigits(digits) && DecimalValue(digits) <= MaxUint64
    requires rest != [] && !IsDigit(rest[0])
    ensures Atoi(digits + rest) == SyntaxError
  {
    var s := digits + rest;
    assert s[0] == digits[0];
    LeadingDigitsAppend(digits, rest);
    assert s[..|digits|] == digits;
  }

  lemma {:induction false} LeadingDigitsAppend(digits: string, rest: string)
    requires AllDigits(digits)
    requires rest != [] && !IsDigit(rest[0])
    ensures LeadingDigits(digits + rest) == |digits|
  {
    if digits != [] {
      assert (digits + rest)[1..] == digits[1..] + rest;
      LeadingDigitsAppend(digits[1..], rest);
    }
  }
}

=== FILE: terapeuta_handlers.dfy ===
/** The therapist's pages: an access gate on each patient (some appointment
    must link the two), the record write that updates the patient row and
    appends a history row, the dashboard and the name search over the
    therapist's own patients.  The session's user id is an `int`, as the
    login and role middleware guarantee on these routes. */
module TerapeutaHandlers {
  import opened Prelude
  import opened Strconv
  import opened Clock
  import opened Storage
  import opened Web
  import opened AdminHandlers

  // ---------------------------------------------------------------------------
  // The access gate
  // ---------------------------------------------------------------------------

  /** The appointments linking patient `pid` and therapist `tid`, of any status. */
  function LinkRows(s: DbState, pid: int, tid: int): seq<Appointment>
  {
    Filter(RowsOf(s.appointments), (a: Appointment) => a.patientId == pid && a.doctorId == tid)
  }

  predicate Linked(s: DbState, pid: int, tid: int)
  {
    exists k :: k in s.appointments && s.appointments[k].patientId == pid && s.appointments[k].doctorId == tid
  }

  /** `SELECT COUNT(*) FROM appointments WHERE patient_id = $1 AND doctor_id = $2`
      followed by `err != nil || count == 0`: the gate opens only on a
      successful, positive count. */
  function GateOpen(s: DbState, pid: int, tid: int, fault: bool): bool
  {
    !fault && InInt32(pid) && InInt32(tid) && |LinkRows(s, pid, tid)| > 0
  }

  /** The gate opens exactly when the count query succeeds and some
      appointment links the two. */
  lemma GateOpenIffLinked(s: DbState, pid: int, tid: int, fault: bool)
    ensures GateOpen(s, pid, tid, fault) <==> !fault && InInt32(pid) && InInt32(tid) && Linked(s, pid, tid)
  {
    var rows := LinkRows(s, pid, tid);
    if Linked(s, pid, tid) {
      var k :| k in s.appointments && s.appointments[k].patientId == pid && s.appointments[k].doctorId == tid;
      assert s.appointments[k] in RowsOf(s.appointments);
      FilterKeeps(RowsOf(s.appointments), (a: Appointment) => a.patientId == pid && a.doctorId == tid,
                  s.appointments[k]);
    }
    if |rows| > 0 {
      assert rows[0] in rows;
    }
  }

  /** A cancelled appointment is enough to open the gate. */
  lemma CancelledAppointmentOpensGate(s: DbState, k: int)
    requires k in s.appointments && s.appointments[k].status == Cancelado
    requires InInt32(s.appointments[k].patientId) && InInt32(s.appointments[k].doctorId)
    ensures GateOpen(s, s.appointments[k].patientId, s.appointments[k].doctorId, false)
  {
    GateOpenIffLinked(s, s.appointments[k].patientId, s.appointments[k].doctorId, false);
  }

  // ---------------------------------------------------------------------------
  // ShowPatientRecord
  // ---------------------------------------------------------------------------

  const RecordPath: string := "/terapeuta/pacientes/prontuario/"

  /** The answer: 403, 500 when the patient cannot be loaded, or the record
      form posting back to the therapist's record route. */
  datatype RecordPage = AccessDenied | LoadFailed | PatientForm(patient: Patient, action: string)

  function ShowStep(s: DbState, idStr: string, tid: int, gateFault: bool, loadFault: bool): RecordPage
  {
    var pid := AtoiValue(idStr);
    if !GateOpen(s, pid, tid, gateFault) then AccessDenied
    else if loadFault || pid !in s.patients then LoadFailed
    else PatientForm(s.patients[pid], RecordPath + idStr)
  }

  method ShowPatientRecord(db: Database, idStr: string, tid: int, gateFault: bool, loadFault: bool)
    returns (page: RecordPage)
    ensures page == ShowStep(db.State(), idStr, tid, gateFault, loadFault)
  {
    var patientID := AtoiValue(idStr);
    if !GateOpen(db.State(), patientID, tid, gateFault) {
      return AccessDenied;
    }
    if loadFault || patientID !in db.patients {
      return LoadFailed;
    }
    return PatientForm(db.patients[patientID], RecordPath + idStr);
  }

  /** Reading is refused unless an appointment links therapist and patient;
      when it is allowed the patient exists, so only a failing load query can
      keep the form from showing. */
  lemma ShowGate(s: DbState, idStr: string, tid: int, gateFault: bool, loadFault: bool)
    requires Consistent(s)
    ensures var page := ShowStep(s, idStr, tid, gateFault, loadFault);
      var pid := AtoiValue(idStr);
      && (page.AccessDenied? <==> !(!gateFault && InInt32(pid) && InInt32(tid) && Linked(s, pid, tid)))
      && (page.LoadFailed? <==> !page.AccessDenied? && loadFault)
      && (page.PatientForm? ==> page.patient == s.patients[pid] && page.action == RecordPath + idStr)
  {
    var pid := AtoiValue(idStr);
    GateOpenIffLinked(s, pid, tid, gateFault);
  }

  // ---------------------------------------------------------------------------
  // ProcessPatientRecord
  // ---------------------------------------------------------------------------

  const AddedRecordAction: string := "Adicionou nova entrada ao prontuário"
  const PatientTarget: string := "Paciente"

  /** The contact part of the therapist's UPDATE, with the birth date as given. */
  function TherapistContact(form: Form, dob: DateParam): ContactForm
  {
    ContactForm(PostForm(form, "client_name"), AddressForm(form), PostForm(form, "phone"), PostForm(form, "mobile"),
                dob, LevelOf(form, "age"), PostForm(form, "email"), PostForm(form, "profession"))
  }

  /** The UPDATE as written: the birth-date field goes to the `DATE` column as
      raw text. */
  function TherapistUpdateAsWritten(form: Form, now: Time): PatientEdit
  {
    PatientEdit.TherapistEdit(TherapistContact(form, DateText(PostForm(form, "dob"))), ClinicalForm(form), now)
  }

  /** The UPDATE with the birth date read as the admin path reads it. */
  function TherapistUpdate(form: Form, now: Time): PatientEdit
  {
    PatientEdit.TherapistEdit(TherapistContact(form, ToDate(PostForm(form, "dob"))), ClinicalForm(form), now)
  }

  datatype WriteOutcome = WriteDenied | WriteRedirect(location: string)

  /** The handler given its UPDATE: gate, projection UPDATE (error only
      logged), history INSERT, an audit entry only when the insert succeeded,
      then the redirect. */
  function RecordWrite(s: DbState, idStr: string, tid: int, edit: PatientEdit, clinical: ClinicalState, now: Time,
                       gateFault: bool, updateFault: bool, insertFault: bool): (r: (DbState, WriteOutcome))
  {
    var pid := AtoiValue(idStr);
    if !GateOpen(s, pid, tid, gateFault) then (s, WriteDenied)
    else
      var (s1, _) := UpdatePatient(s, pid, edit, updateFault);
      var (s2, e) := InsertRecord(s1, pid, tid, clinical, now, insertFault);
      var s3 := if e == Failed then s2 else AppendAudit(s2, AuditEntry(AddedRecordAction, PatientTarget, pid));
      (s3, WriteRedirect(RecordPath + idStr))
  }

  function RecordStepAsWritten(s: DbState, idStr: string, tid: int, form: Form, now: Time,
                               gateFault: bool, updateFault: bool, insertFault: bool): (DbState, WriteOutcome)
  {
    RecordWrite(s, idStr, tid, TherapistUpdateAsWritten(form, now), ClinicalForm(form), now, gateFault, updateFault, insertFault)
  }

  function RecordStep(s: DbState, idStr: string, tid: int, form: Form, now: Time,
                      gateFault: bool, updateFault: bool, insertFault: bool): (DbState, WriteOutcome)
  {
    RecordWrite(s, idStr, tid, TherapistUpdate(form, now), ClinicalForm(form), now, gateFault, updateFault, insertFault)
  }

  method ProcessPatientRecord(db: Database, idStr: string, tid: int, form: Form, now: Time,
                              gateFault: bool, updateFault: bool, insertFault: bool) returns (outcome: WriteOutcome)
    modifies db
    ensures (db.State(), outcome) ==
      RecordStepAsWritten(old(db.State()), idStr, tid, form, now, gateFault, updateFault, insertFault)
  {
    var patientID := AtoiValue(idStr);
    if !GateOpen(db.State(), patientID, tid, gateFault) {
      return WriteDenied;
    }
    var _ := db.ExecUpdatePatient(patientID, TherapistUpdateAsWritten(form, now), updateFault);
    var e := db.ExecInsertRecord(patientID, tid, ClinicalForm(form), now, insertFault);
    if e != Failed {
      db.ExecAppendAudit(AuditEntry(AddedRecordAction, PatientTarget, patientID));
    }
    return WriteRedirect(RecordPath + idStr);
  }

  /** Without the gate nothing is written. */
  lemma RecordDenied(s: DbState, idStr: string, tid: int, form: Form, now: Time, f0: bool, f1: bool, f2: bool)
    requires !GateOpen(s, AtoiValue(idStr), tid, f0)
    ensures RecordStepAsWritten(s, idStr, tid, form, now, f0, f1, f2) == (s, WriteDenied)
    ensures RecordStep(s, idStr, tid, form, now, f0, f1, f2) == (s, WriteDenied)
  {
  }

  /** With the gate open the UPDATE and the INSERT act independently, and the
      audit entry is added exactly when the INSERT succeeded. */
  lemma RecordWriteEffects(s: DbState, idStr: string, tid: int, form: Form, now: Time, f1: bool, f2: bool)
    requires GateOpen(s, AtoiValue(idStr), tid, false)
    ensures var r := RecordStepAsWritten(s, idStr, tid, form, now, false, f1, f2);
      var pid := AtoiValue(idStr);
      var ins := InsertRecord(s, pid, tid, ClinicalForm(form), now, f2);
      && r.1 == WriteRedirect(RecordPath + idStr)
      && r.0.patients == UpdatePatient(s, pid, TherapistUpdateAsWritten(form, now), f1).0.patients
      && r.0.records == ins.0.records
      && r.0.appointments == s.appointments && r.0.users == s.users
      && r.0.audit == s.audit + (if ins.1 == Failed then [] else [AuditEntry(AddedRecordAction, PatientTarget, pid)])
  {
    RecordWriteIndependent(s, idStr, tid, TherapistUpdateAsWritten(form, now), ClinicalForm(form), now, f1, f2);
  }

  lemma RecordWriteIndependent(s: DbState, idStr: string, tid: int, edit: PatientEdit, c: ClinicalState, now: Time,
                               f1: bool, f2: bool)
    requires GateOpen(s, AtoiValue(idStr), tid, false)
    ensures var r := RecordWrite(s, idStr, tid, edit, c, now, false, f1, f2);
      var pid := AtoiValue(idStr);
      var ins := InsertRecord(s, pid, tid, c, now, f2);
      && r.1 == WriteRedirect(RecordPath + idStr)
      && r.0.patients == UpdatePatient(s, pid, edit, f1).0.patients
      && r.0.records == ins.0.records
      && r.0.appointments == s.appointments && r.0.users == s.users
      && r.0.audit == s.audit + (if ins.1 == Failed then [] else [AuditEntry(AddedRecordAction, PatientTarget, pid)])
  {
    RecordWriteOpen(s, idStr, tid, edit, c, now, f1, f2);
    var pid := AtoiValue(idStr);
    var s1 := UpdatePatient(s, pid, edit, f1).0;
    UpdateKeepsOtherTables(s, pid, edit, f1);
    InsertAfterUpdate(s, s1, pid, tid, c, now, f2);
    InsertKeepsOtherTables(s1, pid, tid, c, now, f2);
    WriteSequence(s, s1, InsertRecord(s1, pid, tid, c, now, f2), InsertRecord(s, pid, tid, c, now, f2),
                  AuditEntry(AddedRecordAction, PatientTarget, pid));
  }

  /** An UPDATE that leaves the other tables, then an INSERT that touches only
      the history, then an audit entry when the INSERT succeeded. */
  lemma WriteSequence(s: DbState, s1: DbState, ins: (DbState, Exec), alone: (DbState, Exec), e: AuditEntry)
    requires s1.users == s.users && s1.audit == s.audit && s1.appointments == s.appointments
    requires ins.0.patients == s1.patients && ins.0.users == s1.users && ins.0.audit == s1.audit
    requires ins.0.appointments == s1.appointments
    requires ins.1 == alone.1 && ins.0.records == alone.0.records
    ensures var t := if ins.1 == Failed then ins.0 else AppendAudit(ins.0, e);
      && t.patients == s1.patients && t.records == alone.0.records
      && t.appointments == s.appointments && t.users == s.users
      && t.audit == s.audit + (if alone.1 == Failed then [] else [e])
  {
  }

  /** The handler past an open gate, statement by statement. */
  lemma RecordWriteOpen(s: DbState, idStr: string, tid: int, edit: PatientEdit, c: ClinicalState, now: Time,
                        f1: bool, f2: bool)
    requires GateOpen(s, AtoiValue(idStr), tid, false)
    ensures var pid := AtoiValue(idStr);
      var ins := InsertRecord(UpdatePatient(s, pid, edit, f1).0, pid, tid, c, now, f2);
      RecordWrite(s, idStr, tid, edit, c, now, false, f1, f2) ==
        (if ins.1 == Failed then ins.0 else AppendAudit(ins.0, AuditEntry(AddedRecordAction, PatientTarget, pid)),
         WriteRedirect(RecordPath + idStr))
  {
  }

  /** The history INSERT touches only the history table and its counter. */
  lemma InsertKeepsOtherTables(s: DbState, pid: int, tid: int, c: ClinicalState, now: Time, fault: bool)
    ensures var t := InsertRecord(s, pid, tid, c, now, fault).0;
      t.patients == s.patients && t.users == s.users && t.audit == s.audit && t.appointments == s.appointments
  {
  }

  /** The patient UPDATE leaves every other table, and the set of patients, as
      it was. */
  lemma UpdateKeepsOtherTables(s: DbState, pid: int, e: PatientEdit, fault: bool)
    ensures var t := UpdatePatient(s, pid, e, fault).0;
      t.patients.Keys == s.patients.Keys && t.users == s.users && t.records == s.records &&
      t.audit == s.audit && t.appointments == s.appointments && t.nextRecordId == s.nextRecordId
  {
  }

  /** Whether the history INSERT succeeds, and what it appends, does not depend
      on an UPDATE before it. */
  lemma InsertAfterUpdate(s: DbState, s1: DbState, pid: int, tid: int, c: ClinicalState, now: Time, fault: bool)
    requires s1.patients.Keys == s.patients.Keys && s1.users == s.users && s1.records == s.records
    requires s1.nextRecordId == s.nextRecordId
    ensures InsertRecord(s1, pid, tid, c, now, fault).1 == InsertRecord(s, pid, tid, c, now, fault).1
    ensures InsertRecord(s1, pid, tid, c, now, fault).0.records == InsertRecord(s, pid, tid, c, now, fault).0.records
  {
  }

  /** When both writes succeed the patient's latest state is the new history
      row's state, authored by the therapist. */
  lemma RecordAgreement(s: DbState, idStr: string, tid: int, form: Form, now: Time)
    requires var pid := AtoiValue(idStr);
      GateOpen(s, pid, tid, false) &&
      UpdatePatient(s, pid, TherapistUpdateAsWritten(form, now), false).1 == Done(1) &&
      InsertRecord(s, pid, tid, ClinicalForm(form), now, false).1 == Done(1)
    ensures var r := RecordStepAsWritten(s, idStr, tid, form, now, false, false, false);
      var pid := AtoiValue(idStr);
      |r.0.records| == |s.records| + 1 && pid in r.0.patients &&
      var last := r.0.records[|s.records|];
      && r.0.patients[pid].clinical == Some(last.state)
      && last.patientId == pid && last.doctorId == tid && last.state == ClinicalForm(form)
  {
    var edit := TherapistUpdateAsWritten(form, now);
    var c := ClinicalForm(form);
    assert edit.clinical == c;
    RecordWriteAgreement(s, idStr, tid, edit, c, now);
    assert RecordStepAsWritten(s, idStr, tid, form, now, false, false, false) ==
      RecordWrite(s, idStr, tid, edit, c, now, false, false, false);
  }

  lemma RecordWriteAgreement(s: DbState, idStr: string, tid: int, edit: PatientEdit, c: ClinicalState, now: Time)
    requires edit.TherapistEdit? && edit.clinical == c
    requires var pid := AtoiValue(idStr);
      GateOpen(s, pid, tid, false) &&
      UpdatePatient(s, pid, edit, false).1 == Done(1) && InsertRecord(s, pid, tid, c, now, false).1 == Done(1)
    ensures var r := RecordWrite(s, idStr, tid, edit, c, now, false, false, false);
      var pid := AtoiValue(idStr);
      |r.0.records| == |s.records| + 1 && pid in r.0.patients &&
      var last := r.0.records[|s.records|];
      && r.0.patients[pid].clinical == Some(last.state)
      && last.patientId == pid && last.doctorId == tid && last.state == c
  {
    var pid := AtoiValue(idStr);
    RecordWriteIndependent(s, idStr, tid, edit, c, now, false, false);
    assert UpdatePatient(s, pid, edit, false).0.patients[pid].clinical == Some(c);
  }

  /** An UPDATE that PostgreSQL rejects leaves the patient row alone while the
      INSERT still appends the history row. */
  lemma RecordWriteUpdateRejected(s: DbState, idStr: string, tid: int, edit: PatientEdit, c: ClinicalState, now: Time)
    requires !EditFits(edit)
    requires GateOpen(s, AtoiValue(idStr), tid, false) && InsertRecord(s, AtoiValue(idStr), tid, c, now, false).1 == Done(1)
    ensures var r := RecordWrite(s, idStr, tid, edit, c, now, false, false, false);
      r.0.patients == s.patients && |r.0.records| == |s.records| + 1
  {
    RecordWriteIndependent(s, idStr, tid, edit, c, now, false, false);
  }

  lemma RecordStepKeepsConsistent(s: DbState, idStr: string, tid: int, form: Form, now: Time, f0: bool, f1: bool, f2: bool)
    requires Consistent(s)
    ensures Consistent(RecordStepAsWritten(s, idStr, tid, form, now, f0, f1, f2).0)
    ensures ConsentKept(s, RecordStepAsWritten(s, idStr, tid, form, now, f0, f1, f2).0)
    ensures Consistent(RecordStep(s, idStr, tid, form, now, f0, f1, f2).0)
    ensures ConsentKept(s, RecordStep(s, idStr, tid, form, now, f0, f1, f2).0)
  {
    RecordWriteKeepsConsistent(s, idStr, tid, TherapistUpdateAsWritten(form, now), ClinicalForm(form), now, f0, f1, f2);
    RecordWriteKeepsConsistent(s, idStr, tid, TherapistUpdate(form, now), ClinicalForm(form), now, f0, f1, f2);
  }

  lemma RecordWriteKeepsConsistent(s: DbState, idStr: string, tid: int, edit: PatientEdit, c: ClinicalState, now: Time,
                                   f0: bool, f1: bool, f2: bool)
    requires Consistent(s)
    ensures Consistent(RecordWrite(s, idStr, tid, edit, c, now, f0, f1, f2).0)
    ensures ConsentKept(s, RecordWrite(s, idStr, tid, edit, c, now, f0, f1, f2).0)
  {
    var pid := AtoiValue(idStr);
    if GateOpen(s, pid, tid, f0) {
      RecordWriteOpen(s, idStr, tid, edit, c, now, f1, f2);
      var s1 := UpdatePatient(s, pid, edit, f1).0;
      UpdatePatientKeepsConsistent(s, pid, edit, f1);
      var ins := InsertRecord(s1, pid, tid, c, now, f2);
      InsertRecordKeepsConsistent(s1, pid, tid, c, now, f2);
      ConsentKeptChain(s, s1, ins.0);
      if ins.1 != Failed {
        var e := AuditEntry(AddedRecordAction, PatientTarget, pid);
        AppendAuditKeepsConsistent(ins.0, e);
        ConsentKeptChain(s, ins.0, AppendAudit(ins.0, e));
      }
    }
  }

  /** As written, an empty birth-date field (also a form without it) makes
      PostgreSQL reject the whole UPDATE, so the patient row keeps its old
      state while the history insert still goes through. */
  lemma EmptyDobRejectedAsWritten(s: DbState, idStr: string, tid: int, form: Form, now: Time)
    requires PostForm(form, "dob") == ""
    requires GateOpen(s, AtoiValue(idStr), tid, false)
    requires InsertRecord(s, AtoiValue(idStr), tid, ClinicalForm(form), now, false).1 == Done(1)
    ensures var r := RecordStepAsWritten(s, idStr, tid, form, now, false, false, false);
      r.0.patients == s.patients && |r.0.records| == |s.records| + 1
  {
    var edit := TherapistUpdateAsWritten(form, now);
    assert edit.contact.dob == DateText("");
    assert DateColumn(edit.contact.dob).None?;
    RecordWriteUpdateRejected(s, idStr, tid, edit, ClinicalForm(form), now);
    assert RecordStepAsWritten(s, idStr, tid, form, now, false, false, false) ==
      RecordWrite(s, idStr, tid, edit, ClinicalForm(form), now, false, false, false);
  }

  /** With the birth date read by `toDate`, the same request updates the
      patient row (when its texts fit their `VARCHAR` columns), storing the
      contact block as the columns keep it and no birth date. */
  lemma EmptyDobAcceptedCorrected(s: DbState, idStr: string, tid: int, form: Form, now: Time)
    requires PostForm(form, "dob") == ""
    requires AtoiValue(idStr) in s.patients && GateOpen(s, AtoiValue(idStr), tid, false)
    requires LevelsFit(ClinicalForm(form)) && InInt32(LevelOf(form, "age"))
    requires ContactTextsFit(TherapistContact(form, NullDate))
    ensures var r := RecordStep(s, idStr, tid, form, now, false, false, false);
      var pid := AtoiValue(idStr);
      pid in r.0.patients && r.0.patients[pid].contact.dob.None? &&
      r.0.patients[pid].contact == StoredContact(TherapistContact(form, NullDate)) &&
      r.0.patients[pid].clinical == Some(ClinicalForm(form))
  {
    var pid := AtoiValue(idStr);
    var edit := TherapistUpdate(form, now);
    RecordWriteIndependent(s, idStr, tid, edit, ClinicalForm(form), now, false, false);
    assert edit.contact.dob == NullDate;
    assert EditFits(edit);
    assert UpdatePatient(s, pid, edit, false).0.patients[pid] == ApplyEdit(s.patients[pid], edit);
  }

  // ---------------------------------------------------------------------------
  // TerapeutaDashboard
  // ---------------------------------------------------------------------------

  predicate IsUpcoming(a: Appointment, tid: int, now: Time)
  {
    a.doctorId == tid && a.start >= now && a.status == Agendado
  }

  /** The dashboard's row: id, start, patient name and id (the other fields
      stay empty). */
  function UpcomingEntry(s: DbState, a: Appointment): AgendaEntry
    requires a.patientId in s.patients
  {
    AgendaEntry(a.id, a.start, "", s.patients[a.patientId].contact.name, "", a.patientId)
  }

  /** The join with `patients`. */
  function PatientJoin(s: DbState, rows: seq<Appointment>): (r: seq<AgendaEntry>)
    ensures forall a :: a in rows && a.patientId in s.patients ==> UpcomingEntry(s, a) in r
    ensures forall e :: e in r ==> exists a :: a in rows && a.patientId in s.patients && e == UpcomingEntry(s, a)
  {
    if rows == [] then []
    else
      var init := rows[..|rows| - 1];
      var a := rows[|rows| - 1];
      assert forall b :: b in rows ==> b in init || b == a;
      PatientJoin(s, init) + (if a.patientId in s.patients then [UpcomingEntry(s, a)] else [])
  }

  function UpcomingCandidates(s: DbState, tid: int, now: Time): seq<AgendaEntry>
  {
    PatientJoin(s, Filter(RowsOf(s.appointments), (a: Appointment) => IsUpcoming(a, tid, now)))
  }

  /** `... WHERE a.doctor_id = $1 AND a.start_time >= $2 AND a.status =
      'agendado' ORDER BY a.start_time ASC LIMIT 10`. */
  function UpcomingRows(s: DbState, tid: int, now: Time): seq<AgendaEntry>
  {
    Take(SortBy(UpcomingCandidates(s, tid, now), StartLe), 10)
  }

  /** A patient as the dashboard lists it. */
  datatype PatientSummary = PatientSummary(id: int, name: string, email: string, phone: string)

  function SummaryOf(s: DbState, id: int): PatientSummary
    requires id in s.patients
  {
    var p := s.patients[id];
    PatientSummary(id, p.contact.name, p.contact.email, p.contact.phone)
  }

  /** A live patient of therapist `tid` whose name `matches`. */
  predicate IsMyPatient(s: DbState, id: int, tid: int, matches: string -> bool)
  {
    id in s.patients && !s.patients[id].deleted && Linked(s, id, tid) && matches(s.patients[id].contact.name)
  }

  function Summaries(s: DbState, ids: seq<int>): (r: seq<PatientSummary>)
    requires forall i :: 0 <= i < |ids| ==> ids[i] in s.patients
    ensures |r| == |ids|
    ensures forall i :: 0 <= i < |ids| ==> r[i] == SummaryOf(s, ids[i])
  {
    seq(|ids|, i requires 0 <= i < |ids| => SummaryOf(s, ids[i]))
  }

  /** `SELECT DISTINCT p.id, ... FROM patients p JOIN appointments a ...`:
      each matching patient once, in id order. */
  function MyPatientIds(s: DbState, tid: int, matches: string -> bool): (ids: seq<int>)
    ensures forall i :: 0 <= i < |ids| ==> ids[i] in s.patients
  {
    Filter(SortedIds(s.patients.Keys), (id: int) => IsMyPatient(s, id, tid, matches))
  }

  function LinkedPatients(s: DbState, tid: int, matches: string -> bool): seq<PatientSummary>
  {
    Summaries(s, MyPatientIds(s, tid, matches))
  }

  predicate SummaryNameLe(a: PatientSummary, b: PatientSummary)
  {
    StringLe(a.name, b.name)
  }

  lemma SummaryNameOrder()
    ensures TotalPreorder(SummaryNameLe)
  {
    StringOrder();
  }

  /** `... AND p.name ILIKE '%term%' AND p.deleted_at IS NULL ORDER BY p.name ASC`. */
  function MyPatients(s: DbState, tid: int, term: string): seq<PatientSummary>
  {
    SortBy(LinkedPatients(s, tid, (n: string) => ILikeContains(n, term)), SummaryNameLe)
  }

  /** What the dashboard shows; a failing query leaves its list empty. */
  datatype Dashboard = Dashboard(upcoming: seq<AgendaEntry>, myPatients: seq<PatientSummary>, searchTerm: string)

  function DashboardView(s: DbState, tid: int, term: string, now: Time, upcomingFault: bool, patientsFault: bool)
    : Dashboard
  {
    Dashboard(if upcomingFault then [] else UpcomingRows(s, tid, now),
              if patientsFault then [] else MyPatients(s, tid, term), term)
  }

  method TerapeutaDashboard(db: Database, tid: int, term: string, now: Time, upcomingFault: bool, patientsFault: bool)
    returns (data: Dashboard)
    ensures data == DashboardView(db.State(), tid, term, now, upcomingFault, patientsFault)
  {
    var upcoming: seq<AgendaEntry> := [];
    if !upcomingFault {
      upcoming := ScanRows(UpcomingRows(db.State(), tid, now));
    }
    var patients: seq<PatientSummary> := [];
    if !patientsFault {
      patients := ScanRows(MyPatients(db.State(), tid, term));
    }
    return Dashboard(upcoming, patients, term);
  }

  /** At most ten upcoming appointments, soonest first, each a scheduled
      appointment of this therapist starting now or later; they are the ten
      soonest: an upcoming appointment left out means ten are listed, none
      starting later than it (so when fewer than ten are listed, every such
      appointment is). */
  lemma UpcomingSound(s: DbState, tid: int, now: Time)
    ensures var r := UpcomingRows(s, tid, now);
      |r| <= 10 && SortedBy(r, StartLe)
    ensures var r := UpcomingRows(s, tid, now);
      forall e :: e in r ==>
        exists a :: a in RowsOf(s.appointments) && IsUpcoming(a, tid, now) &&
          a.patientId in s.patients && e == UpcomingEntry(s, a)
    ensures var r := UpcomingRows(s, tid, now);
      forall k :: (k in s.appointments && IsUpcoming(s.appointments[k], tid, now) &&
                   s.appointments[k].patientId in s.patients) ==>
        UpcomingEntry(s, s.appointments[k]) in r ||
        (|r| == 10 && forall i :: 0 <= i < 10 ==> StartLe(r[i], UpcomingEntry(s, s.appointments[k])))
  {
    var rows := RowsOf(s.appointments);
    var p := (a: Appointment) => IsUpcoming(a, tid, now);
    var cands := UpcomingCandidates(s, tid, now);
    var sorted := SortBy(cands, StartLe);
    var r := UpcomingRows(s, tid, now);
    StartOrder();
    SortByIsSorted(cands, StartLe);
    TakeSorted(sorted, 10, StartLe);
    forall e | e in r
      ensures exists a :: a in rows && IsUpcoming(a, tid, now) && a.patientId in s.patients && e == UpcomingEntry(s, a)
    {
      assert e in sorted;
      assert e in multiset(sorted);
      assert e in cands;
    }
    TopIsLeast(cands, StartLe, 10);
    forall k | k in s.appointments && IsUpcoming(s.appointments[k], tid, now) &&
        s.appointments[k].patientId in s.patients
      ensures UpcomingEntry(s, s.appointments[k]) in cands
    {
      var a := s.appointments[k];
      assert a in rows;
      FilterKeeps(rows, p, a);
    }
  }

  /** Membership in the therapist's patient list: live, linked and matching. */
  lemma MyPatientIdsSound(s: DbState, tid: int, matches: string -> bool)
    ensures var ids := MyPatientIds(s, tid, matches);
      forall id :: id in ids <==> IsMyPatient(s, id, tid, matches)
    ensures var ids := MyPatientIds(s, tid, matches);
      forall i, j :: 0 <= i < j < |ids| ==> ids[i] < ids[j]
  {
    var all := SortedIds(s.patients.Keys);
    var p := (id: int) => IsMyPatient(s, id, tid, matches);
    forall id | IsMyPatient(s, id, tid, matches) ensures id in MyPatientIds(s, tid, matches) {
      FilterKeeps(all, p, id);
    }
    var lt := (a: int, b: int) => a < b;
    SortedIdsAscending(s.patients.Keys);
    assert SortedBy(all, lt);
    FilterSorted(all, p, lt);
  }

  /** Each listed patient appears once: the rows are distinct. */
  lemma LinkedPatientsDistinct(s: DbState, tid: int, matches: string -> bool)
    ensures NoDuplicates(LinkedPatients(s, tid, matches))
  {
    MyPatientIdsSound(s, tid, matches);
    var ids := MyPatientIds(s, tid, matches);
    var r := LinkedPatients(s, tid, matches);
    forall i, j | 0 <= i < j < |r| ensures r[i] != r[j] {
      assert r[i].id == ids[i] && r[j].id == ids[j];
    }
  }

  lemma LinkedPatientsSound(s: DbState, tid: int, matches: string -> bool)
    ensures forall x :: x in LinkedPatients(s, tid, matches) <==>
      exists id :: IsMyPatient(s, id, tid, matches) && x == SummaryOf(s, id)
  {
    MyPatientIdsSound(s, tid, matches);
    var ids := MyPatientIds(s, tid, matches);
    var r := LinkedPatients(s, tid, matches);
    forall x ensures x in r <==> exists id :: IsMyPatient(s, id, tid, matches) && x == SummaryOf(s, id) {
      if x in r {
        var i :| 0 <= i < |r| && r[i] == x;
        assert IsMyPatient(s, ids[i], tid, matches);
      }
      if exists id :: IsMyPatient(s, id, tid, matches) && x == SummaryOf(s, id) {
        var id :| IsMyPatient(s, id, tid, matches) && x == SummaryOf(s, id);
        var i :| 0 <= i < |ids| && ids[i] == id;
        assert r[i] == x;
      }
    }
  }

  /** The dashboard's patient list: ordered by name, each live patient of
      this therapist whose name contains the term, once. */
  lemma MyPatientsSound(s: DbState, tid: int, term: string)
    ensures SortedBy(MyPatients(s, tid, term), SummaryNameLe)
    ensures forall x :: x in MyPatients(s, tid, term) <==>
      exists id :: IsMyPatient(s, id, tid, (n: string) => ILikeContains(n, term)) && x == SummaryOf(s, id)
    ensures var r := MyPatients(s, tid, term);
      forall i, j :: 0 <= i < j < |r| ==> r[i].id != r[j].id
  {
    var matches := (n: string) => ILikeContains(n, term);
    var list := LinkedPatients(s, tid, matches);
    var r := MyPatients(s, tid, term);
    SummaryNameOrder();
    SortByIsSorted(list, SummaryNameLe);
    LinkedPatientsSound(s, tid, matches);
    forall x ensures x in r <==> x in list {
      assert x in r <==> x in multiset(r);
      assert x in list <==> x in multiset(list);
    }
    MyPatientsDistinctIds(s, tid, term);
  }

  /** A summary in the list is the summary of the patient its id names. */
  lemma SummariesNamedById(s: DbState, ids: seq<int>)
    requires forall i :: 0 <= i < |ids| ==> ids[i] in s.patients
    ensures forall x :: x in Summaries(s, ids) ==> x.id in s.patients && x == SummaryOf(s, x.id)
  {
    forall x | x in Summaries(s, ids) ensures x.id in s.patients && x == SummaryOf(s, x.id) {
      var i :| 0 <= i < |ids| && Summaries(s, ids)[i] == x;
    }
  }

  lemma MyPatientsDistinctIds(s: DbState, tid: int, term: string)
    ensures var r := MyPatients(s, tid, term);
      forall i, j :: 0 <= i < j < |r| ==> r[i].id != r[j].id
  {
    var matches := (n: string) => ILikeContains(n, term);
    var list := LinkedPatients(s, tid, matches);
    var r := MyPatients(s, tid, term);
    LinkedPatientsDistinct(s, tid, matches);
    SortByDistinct(list, SummaryNameLe);
    SortByPermutes(list, SummaryNameLe);
    SummariesNamedById(s, MyPatientIds(s, tid, matches));
    forall i, j | 0 <= i < j < |r| ensures r[i].id != r[j].id {
      assert r[i] in multiset(list) && r[j] in multiset(list);
      assert r[i] == SummaryOf(s, r[i].id) && r[j] == SummaryOf(s, r[j].id);
    }
  }

  // ---------------------------------------------------------------------------
  // SearchMyPatientsAPI
  // ---------------------------------------------------------------------------

  /** The JSON answer: the names, or a server error. */
  datatype NamesResult = NamesFailed | NamesFound(names: seq<string>)

  function Names(ps: seq<PatientSummary>): (r: seq<string>)
    ensures |r| == |ps|
    ensures forall i :: 0 <= i < |ps| ==> r[i] == ps[i].name
  {
    seq(|ps|, i requires 0 <= i < |ps| => ps[i].name)
  }

  /** `SELECT DISTINCT p.name ... WHERE a.doctor_id = $1 AND p.name ILIKE
      term || '%' AND p.deleted_at IS NULL ORDER BY p.name ASC LIMIT 10`. */
  function MyPatientNames(s: DbState, tid: int, term: string): seq<string>
  {
    Take(DedupAdjacent(SortBy(Names(LinkedPatients(s, tid, (n: string) => ILikePrefix(n, term))), StringLe)), 10)
  }

  function SearchMyPatients(s: DbState, tid: int, term: string, fault: bool): NamesResult
  {
    if term == "" then NamesFound([])
    else if fault then NamesFailed
    else NamesFound(MyPatientNames(s, tid, term))
  }

  method SearchMyPatientsAPI(db: Database, tid: int, term: string, fault: bool) returns (r: NamesResult)
    ensures r == SearchMyPatients(db.State(), tid, term, fault)
  {
    if term == "" {
      return NamesFound([]);
    }
    if fault {
      return NamesFailed;
    }
    var names := ScanRows(MyPatientNames(db.State(), tid, term));
    return NamesFound(names);
  }

  /** At most ten names, in order, each once, each the name of a live patient
      of this therapist that starts with the term (ignoring case); when fewer
      than ten are returned, every such name is. */
  lemma SearchMyPatientsSound(s: DbState, tid: int, term: string)
    ensures var r := MyPatientNames(s, tid, term);
      |r| <= 10 && NoDuplicates(r) && SortedBy(r, StringLe)
    ensures var r := MyPatientNames(s, tid, term);
      forall n :: n in r ==> exists id :: IsMyPatient(s, id, tid, (x: string) => ILikePrefix(x, term)) && s.patients[id].contact.name == n
    ensures var r := MyPatientNames(s, tid, term);
      |r| < 10 ==>
        forall id :: IsMyPatient(s, id, tid, (x: string) => ILikePrefix(x, term)) ==> s.patients[id].contact.name in r
  {
    var matches := (x: string) => ILikePrefix(x, term);
    var list := LinkedPatients(s, tid, matches);
    var names := Names(list);
    FirstDistinctNames(names);
    LinkedPatientsSound(s, tid, matches);
    forall n | n in names
      ensures exists id :: IsMyPatient(s, id, tid, matches) && s.patients[id].contact.name == n
    {
      var i :| 0 <= i < |names| && names[i] == n;
      assert list[i] in list;
    }
    forall id | IsMyPatient(s, id, tid, matches) ensures s.patients[id].contact.name in names {
      var x := SummaryOf(s, id);
      assert x in list;
      var i :| 0 <= i < |list| && list[i] == x;
      assert names[i] == s.patients[id].contact.name;
    }
  }

  /** The first ten distinct names in order: without repeats, ordered, drawn
      from the names, and all of them when fewer than ten come back. */
  lemma FirstDistinctNames(names: seq<string>)
    ensures var r := Take(DedupAdjacent(SortBy(names, StringLe)), 10);
      |r| <= 10 && NoDuplicates(r) && SortedBy(r, StringLe) &&
      (forall n :: n in r ==> n in names) &&
      (|r| < 10 ==> forall n :: n in names ==> n in r)
  {
    var sorted := SortBy(names, StringLe);
    var dedup := DedupAdjacent(sorted);
    var r := Take(dedup, 10);
    StringOrder();
    SortByIsSorted(names, StringLe);
    DedupAdjacentDistinct(sorted, StringLe);
    TakeSorted(dedup, 10, StringLe);
    forall n ensures n in dedup <==> n in names {
      assert n in sorted <==> n in multiset(sorted);
      assert n in names <==> n in multiset(names);
    }
    forall i, j | 0 <= i < j < |r| ensures r[i] != r[j] {
      assert r[i] == dedup[i] && r[j] == dedup[j];
    }
    forall n | n in r ensures n in names {
      var i :| 0 <= i < |r| && r[i] == n;
      assert dedup[i] == n;
    }
  }
}

=== FILE: validation_helper.dfy ===
/** The CPF (Brazilian individual taxpayer number) check used by the consent
    form: eleven decimal digits, the last two of which are mod-11 check digits
    over the ones before them. */
module ValidationHelper {
  import opened Strconv

  /** The input with every character other than '0'..'9' removed. */
  function DigitsOnly(s: string): (r: string)
    ensures AllDigits(r) && |r| <= |s|
  {
    if s == [] then []
    else DigitsOnly(s[..|s| - 1]) + (if IsDigit(s[|s| - 1]) then [s[|s| - 1]] else [])
  }

  /** Σ_{i<n} d[i]·(top − i): the weighted sum behind a check digit. */
  function WeightedSum(d: string, n: nat, top: int): int
    requires n <= |d| && AllDigits(d)
  {
    if n == 0 then 0 else WeightedSum(d, n - 1, top) + DigitValue(d[n - 1]) * (top - (n - 1))
  }

  /** A remainder below 2 gives check digit 0, any other remainder r gives 11 − r. */
  function CheckDigit(sum: int): (dv: int)
    ensures 0 <= dv <= 9
    ensures dv == 0 <==> sum % 11 < 2
    ensures (sum + dv) % 11 == 0 || sum % 11 == 1
  {
    var remainder := sum % 11;
    if remainder >= 2 then 11 - remainder else 0
  }

  predicate AllSame(d: string)
  {
    forall i :: 0 <= i < |d| ==> d[i] == d[0]
  }

  /** First check digit: weights 10 down to 2 over the first nine digits. */
  predicate FirstCheckDigitMatches(d: string)
    requires |d| == 11 && AllDigits(d)
  {
    CheckDigit(WeightedSum(d, 9, 10)) == DigitValue(d[9])
  }

  /** Second check digit: weights 11 down to 2 over the first ten digits. */
  predicate SecondCheckDigitMatches(d: string)
    requires |d| == 11 && AllDigits(d)
  {
    CheckDigit(WeightedSum(d, 10, 11)) == DigitValue(d[10])
  }

  /** The verdict on a CPF as typed by the user, separators and all. */
  predicate IsValidCPF(cpf: string)
  {
    var d := DigitsOnly(cpf);
    |d| == 11 && !AllSame(d) && FirstCheckDigitMatches(d) && SecondCheckDigitMatches(d)
  }

  /** Converting one digit character with `strconv.Atoi` cannot fail. */
  lemma SingleDigitAtoi(c: char)
    requires IsDigit(c)
    ensures Atoi([c]) == Parsed(DigitValue(c))
    ensures AtoiValue([c]) == DigitValue(c)
  {
    assert [c][1..] == [];
    assert LeadingDigits([c]) == 1;
    assert [c][..1] == [c];
    assert [c][..0] == [];
    assert DecimalValue([c]) == DigitValue(c);
  }

  lemma DigitsOnlyAppendOne(s: string, c: char)
    ensures DigitsOnly(s + [c]) == DigitsOnly(s) + (if IsDigit(c) then [c] else [])
  {
    assert (s + [c])[..|s|] == s;
  }

  /** `IsCPFValid`: strips the non-digits, checks the length, looks for a digit
      different from the first, then recomputes and compares both check digits,
      converting each digit character with `strconv.Atoi`. */
  method IsCPFValid(input: string) returns (ok: bool)
    ensures ok == IsValidCPF(input)
  {
    var cpf := "";
    var i := 0;
    while i < |input|
      invariant 0 <= i <= |input|
      invariant cpf == DigitsOnly(input[..i])
    {
      assert input[..i + 1] == input[..i] + [input[i]];
      DigitsOnlyAppendOne(input[..i], input[i]);
      if IsDigit(input[i]) {
        cpf := cpf + [input[i]];
      }
      i := i + 1;
    }
    assert input[..|input|] == input;

    if |cpf| != 11 {
      return false;
    }

    var allSame := true;
    var j := 1;
    while j < |cpf|
      invariant 1 <= j <= |cpf|
      invariant allSame
      invariant forall k :: 0 <= k < j ==> cpf[k] == cpf[0]
    {
      if cpf[j] != cpf[0] {
        allSame := false;
        break;
      }
      j := j + 1;
    }
    if allSame {
      return false;
    }

    var sum := 0;
    var k := 0;
    while k < 9
      invariant 0 <= k <= 9
      invariant sum == WeightedSum(cpf, k, 10)
    {
      SingleDigitAtoi(cpf[k]);
      var digit := AtoiValue([cpf[k]]);
      sum := sum + digit * (10 - k);
      k := k + 1;
    }
    var remainder := sum % 11;
    var dv1 := 0;
    if remainder >= 2 {
      dv1 := 11 - remainder;
    }
    SingleDigitAtoi(cpf[9]);
    var realDv1 := AtoiValue([cpf[9]]);
    if dv1 != realDv1 {
      return false;
    }

    sum := 0;
    k := 0;
    while k < 10
      invariant 0 <= k <= 10
      invariant sum == WeightedSum(cpf, k, 11)
    {
      SingleDigitAtoi(cpf[k]);
      var digit := AtoiValue([cpf[k]]);
      sum := sum + digit * (11 - k);
      k := k + 1;
    }
    remainder := sum % 11;
    var dv2 := 0;
    if remainder >= 2 {
      dv2 := 11 - remainder;
    }
    SingleDigitAtoi(cpf[10]);
    var realDv2 := AtoiValue([cpf[10]]);
    if dv2 != realDv2 {
      return false;
    }
    return true;
  }

  // ---------------------------------------------------------------------------
  // Properties of the verdict
  // ---------------------------------------------------------------------------

  lemma {:induction false} DigitsOnlyAppend(a: string, b: string)
    ensures DigitsOnly(a + b) == DigitsOnly(a) + DigitsOnly(b)
  {
    if b != [] {
      var init := b[..|b| - 1];
      var last := b[|b| - 1];
      assert a + b == (a + init) + [last];
      assert b == init + [last];
      DigitsOnlyAppendOne(a + init, last);
      DigitsOnlyAppendOne(init, last);
      DigitsOnlyAppend(a, init);
    } else {
      assert a + b == a;
    }
  }

  /** Punctuation is irrelevant: inserting any non-digit character anywhere
      ("346.574.880-82", "346 574 880 82") leaves the verdict unchanged. */
  lemma SeparatorIgnored(a: string, sep: char, b: string)
    requires !IsDigit(sep)
    ensures IsValidCPF(a + [sep] + b) == IsValidCPF(a + b)
  {
    DigitsOnlyAppend(a + [sep], b);
    DigitsOnlyAppendOne(a, sep);
    DigitsOnlyAppend(a, b);
    assert DigitsOnly(a + [sep] + b) == DigitsOnly(a + b);
  }

  /** The eleven-fold repetition of one digit. */
  function Repeated(c: char): (d: string)
    requires IsDigit(c)
    ensures |d| == 11 && AllDigits(d) && AllSame(d)
  {
    [c, c, c, c, c, c, c, c, c, c, c]
  }

  lemma {:induction false} WeightedSumConstant(d: string, n: nat, top: int, v: int)
    requires n <= |d| && AllDigits(d)
    requires forall i :: 0 <= i < n ==> DigitValue(d[i]) == v
    ensures WeightedSum(d, n, top) == v * (n * top - n * (n - 1) / 2)
  {
    if n > 0 {
      WeightedSumConstant(d, n - 1, top, v);
      assert (n - 1) * (n - 2) / 2 + (n - 1) == n * (n - 1) / 2 by {
        assert (n - 1) * (n - 2) + 2 * (n - 1) == n * (n - 1);
      }
      assert v * ((n - 1) * top - (n - 1) * (n - 2) / 2) + v * (top - (n - 1))
          == v * (n * top - n * (n - 1) / 2);
    }
  }

  /** "000.000.000-00" through "999.999.999-99" satisfy both check-digit
      equations, since 54 and 65 are both −1 modulo 11; they are refused only
      because all their digits are equal. */
  lemma RepeatedDigitsRejectedOnlyBySameness(c: char)
    requires IsDigit(c)
    ensures FirstCheckDigitMatches(Repeated(c)) && SecondCheckDigitMatches(Repeated(c))
    ensures DigitsOnly(Repeated(c)) == Repeated(c)
    ensures !IsValidCPF(Repeated(c))
  {
    var d := Repeated(c);
    var v := DigitValue(c);
    WeightedSumConstant(d, 9, 10, v);
    WeightedSumConstant(d, 10, 11, v);
    assert WeightedSum(d, 9, 10) == 54 * v;
    assert WeightedSum(d, 10, 11) == 65 * v;
    RepeatedCheckDigits(v);
    DigitsOnlyOfDigits(d);
  }

  /** For every digit v, both weighted sums of a repetition of v give v back. */
  lemma RepeatedCheckDigits(v: int)
    requires 0 <= v <= 9
    ensures CheckDigit(54 * v) == v && CheckDigit(65 * v) == v
  {
    if v == 0 {} else if v == 1 {} else if v == 2 {} else if v == 3 {} else if v == 4 {}
    else if v == 5 {} else if v == 6 {} else if v == 7 {} else if v == 8 {} else {}
  }

  lemma {:induction false} DigitsOnlyOfDigits(d: string)
    requires AllDigits(d)
    ensures DigitsOnly(d) == d
  {
    if d != [] {
      DigitsOnlyOfDigits(d[..|d| - 1]);
      assert d == d[..|d| - 1] + [d[|d| - 1]];
    }
  }

  /** The number used in the end-to-end suite is accepted. */
  lemma KnownValidCPF()
    ensures IsValidCPF("34657488082")
  {
    var d := "34657488082";
    DigitsOnlyOfDigits(d);
    assert WeightedSum(d, 1, 10) == 30;
    assert WeightedSum(d, 2, 10) == 66;
    assert WeightedSum(d, 3, 10) == 114;
    assert WeightedSum(d, 4, 10) == 149;
    assert WeightedSum(d, 5, 10) == 191;
    assert WeightedSum(d, 6, 10) == 211;
    assert WeightedSum(d, 7, 10) == 243;
    assert WeightedSum(d, 8, 10) == 267;
    assert WeightedSum(d, 9, 10) == 267;
    assert WeightedSum(d, 1, 11) == 33;
    assert WeightedSum(d, 2, 11) == 73;
    assert WeightedSum(d, 3, 11) == 127;
    assert WeightedSum(d, 4, 11) == 167;
    assert WeightedSum(d, 5, 11) == 216;
    assert WeightedSum(d, 6, 11) == 240;
    assert WeightedSum(d, 7, 11) == 280;
    assert WeightedSum(d, 8, 11) == 312;
    assert WeightedSum(d, 9, 11) == 312;
    assert WeightedSum(d, 10, 11) == 328;
    assert d[1] != d[0];
  }

  /** ... and so is its usual printed form. */
  lemma KnownValidFormattedCPF()
    ensures IsValidCPF("346.574.880-82")
  {
    KnownValidCPF();
    SeparatorIgnored("346", '.', "57488082");
    assert "346" + ['.'] + "57488082" == "346.57488082";
    assert "346" + "57488082" == "34657488082";
    SeparatorIgnored("346.574", '.', "88082");
    assert "346.574" + ['.'] + "88082" == "346.574.88082";
    assert "346.574" + "88082" == "346.57488082";
    SeparatorIgnored("346.574.880", '-', "82");
    assert "346.574.880" + ['-'] + "82" == "346.574.880-82";
    assert "346.574.880" + "82" == "346.574.88082";
  }
}

=== FILE: web.dfy ===
/** The request-side vocabulary shared by the handlers: the cookie session
    (values stored under string keys plus pending flash messages) and the HTTP
    status codes the handlers answer with. */
module Web {
  import opened Prelude
  import opened Strconv

  const StatusOK: int := 200
  const StatusFound: int := 302
  const StatusBadRequest: int := 400
  const StatusUnauthorized: int := 401
  const StatusForbidden: int := 403
  const StatusInternalServerError: int := 500

  /** The fields of a submitted form or query string; a missing field reads
      as the empty string, as `c.PostForm` and `c.Query` return it. */
  type Form = map<string, string>

  function PostForm(form: Form, key: string): (v: string)
    ensures key !in form ==> v == ""
  {
    if key in form then form[key] else ""
  }

  /** How gin's form binding fills a Go `int` field: an empty field is 0,
      anything else must be a decimal integer of Go's `int`, or binding fails. */
  function BindInt(text: string): (r: Option<int>)
    ensures text == "" ==> r == Some(0)
    ensures text != "" ==> (r.Some? <==> Atoi(text).Parsed?)
    ensures r.Some? ==> InInt64(r.value)
  {
    if text == "" then Some(0)
    else match Atoi(text)
      case Parsed(v) => Some(v)
      case _ => None
  }

  /** The session key under which login stores the staff user's id. */
  const UserKey: string := "user_id"

  /** The two kinds of value the handlers keep in a session. */
  datatype SessionValue = IntValue(n: int) | TextValue(text: string)

  /** A flash message and the key it is filed under ("success", "error"). */
  datatype Flash = Flash(key: string, message: string)

  /** The session of one browser, as `sessions.Default(c)` returns it. */
  class Session {
    var values: map<string, SessionValue>
    var flashes: seq<Flash>

    constructor (initial: map<string, SessionValue>)
      ensures values == initial && flashes == []
    {
      values := initial;
      flashes := [];
    }

    /** `session.Get(key)`: `None` stands for Go's `nil`. */
    function Get(key: string): (v: Option<SessionValue>)
      reads this
      ensures v.Some? <==> key in values
      ensures v.Some? ==> v.value == values[key]
    {
      if key in values then Some(values[key]) else None
    }

    method Set(key: string, v: SessionValue)
      modifies this
      ensures values == old(values)[key := v]
      ensures flashes == old(flashes)
    {
      values := values[key := v];
    }

    /** `session.AddFlash(message, key)`. */
    method AddFlash(message: string, key: string)
      modifies this
      ensures flashes == old(flashes) + [Flash(key, message)]
      ensures values == old(values)
    {
      flashes := flashes + [Flash(key, message)];
    }
  }
}
